=== FILE: README.md ===
# picartTool processing core, modelled in Dafny

picartTool takes a folder or an archive of photo-set material through one
job:

1. Extract the archive with 7-Zip. Configured passwords are tried first, then
   guesses.
2. Flatten one wrapper level and delete junk files.
3. Rename the images and videos by natural order under configured prefixes.
4. Clean the title and add a statistics suffix (`[12P+2V - 340MB]`).
5. Pack the result as 7z, zip, or a two-stage `.7z.zst`.
6. Re-encode the images to WebP or AVIF with FFmpeg.
7. Upload the images in batches and publish an article.
8. Remove the temporary directories through a chain of fallback strategies.

This project models the decision logic of those steps as pure Dafny
functions over immutable data. It then proves what the steps promise:
round trips, orderings, bounds, what survives and what is lost, and the
exact conditions for success and failure.

The world outside the program is handed in as data:

- **Subprocesses** (7-Zip, FFmpeg, `rd`): each run is an outcome value.
- **Filesystem**:
  - a directory is a sequence of paths;
  - a file tree is a map from path to an opaque content identity;
  - sizes and existence are `Option`s.
- **HTTP server**: a function from the index of a request to its reply.
- **Clock and process id**: parameters.
- **Sleeps**: recorded in the session rather than taken.

Modules, one per component:

| module | file | component |
|---|---|---|
| `Wrappers`, `Seqs` | wrappers.dfy, seqs.dfy | `Option`, distinctness, first-match search, order-keeping dedup |
| `Strings` | strings.dfy | character classes, lower-casing, decimal numerals, split/join, `strip` |
| `Paths` | paths.dfy | `os.path.basename/dirname/join/splitext` on `/`, `pathlib` suffix rule |
| `NameCleaner` | name_cleaner.dfy | `clean_filename` (regular-expression rewrites as a scanner), `is_archive_file` |
| `NaturalOrder` | natural_order.dfy | the natural sort keys and Python's stable `list.sort` |
| `Media` | media.dfy | image/video classification shared by rename and statistics |
| `Junk` | junk.dfy | `_clean_unwanted_files` |
| `Rename`, `RenameExample` | rename.dfy, rename_example.dfy | `_rename_files`, and a directory on which it loses a file |
| `TitleStats` | title_stats.dfy | `_format_title_with_stats` and a parser for its suffix |
| `ArchiveOutput` | archive_output.dfy | `_make_safe_filename`, the archive name, flattening, `validate_file` |
| `Compression` | compression.dfy | `compression_handler.py`: extraction scan, password test, commands, zst path, listing parser |
| `ImageEncode` | image_encode.dfy | `compress_images`, `is_image_file` |
| `Upload` | upload.dfy | `api_handler.py`: login, token reuse, re-authentication, batched upload, article submission |
| `TempCleanup` | temp_cleanup.dfy | `cleanup_temp_directories`, `_try_cleanup_directory` and its four strategies |
| `Pipeline` | pipeline.dfy | the job tail shared by `process_folder` and `process_archive`, and how components meet |

## Model

| member | source | states |
|---|---|---|
| NameCleaner.Clean | utils.py:18-68 | the cleaned title is never empty and is tidy (only kept characters, single plain spaces, nothing to trim); it is the normalised name, or `unnamed_<time>` when normalising leaves nothing |
| NameCleaner.ReleaseIndexRemoved | utils.py:22 | step 1 changes the name iff it begins with digits and a separator; it then removes exactly a digit run plus the whole separator run after it |
| NameCleaner.StripTagBlock | utils.py:25-26 | a `#tag#rest` name becomes the text between the first two `#`, with no `#` left; any other name is unchanged |
| NameCleaner.ByteCountRemoved | utils.py:35-40 | a bare `<digits>B` or `<digits>b` before a word boundary is deleted by the byte-size pass |
| NameCleaner.ParenthesesSurvive | utils.py:43-51 | the bracket step removes only `[]`, `【】`, `「」`, `『』` spans: a name without their opening characters passes unchanged, parentheses included |
| NameCleaner.BracketSpanRemoved | utils.py:43-51 | a bracket span is removed up to the first closing bracket, and the scan resumes after it |
| NameCleaner.DropDisallowedKeepsKept | utils.py:57 | step 7 keeps every occurrence of every allowed character and removes all others |
| NameCleaner.Prefilter | utils.py:22-57 | after steps 1 to 7 only allowed characters remain |
| NameCleaner.TrimSeparators | utils.py:61 | the trailing run of `-`, `_` and whitespace is cut, and only that run |
| NameCleaner.CollapseWhitespace | utils.py:60 | whitespace runs become one plain space; allowed characters stay allowed; emptiness and a leading space are preserved |
| NameCleaner.CollapseKeepsWords | utils.py:60 | collapsing the whitespace keeps the words: `str.split()` gives the same list before and after |
| NameCleaner.NormalizeIsTidy | utils.py:60-62 | steps 1 to 8 always give a tidy string |
| NameCleaner.NotIdempotent | utils.py:18-68 | cleaning twice can differ from cleaning once: `1.5-x` becomes `15-x`, which becomes `x` |
| NameCleaner.ReplaceAllNoMatch | utils.py:29-54 | a rewrite step whose pattern matches nowhere leaves the name unchanged |
| NameCleaner.ArchiveExtensionRecognised | utils.py:71-74 | a name with a non-empty stem is an archive iff its lower-cased extension is one of the six archive extensions, in any letter case |
| NaturalOrder.SplitDigitRuns | file_processor.py:365-372 | the split alternates digit-free text with non-empty maximal digit runs and concatenates back to the name |
| NaturalOrder.DigitSplitUnique | file_processor.py:365-372 | the split is the only sequence of that shape that concatenates to the name |
| NaturalOrder.NaturalKey | file_processor.py:365-372 | a key alternates text and numbers, starting and ending with text |
| NaturalOrder.UploadKey | api_handler.py:249-259 | the upload key is the directory as text followed by an alternating name key |
| NaturalOrder.KeysComparable | api_handler.py:249-259 | two modelled keys of one kind have the same kind of piece at every shared position, so sorting never compares a number with text |
| NaturalOrder.KeyLessTransitive | file_processor.py:391 | Python's list comparison on keys is transitive |
| NaturalOrder.KeyLessTotal | file_processor.py:391 | any two different keys are ordered one way or the other |
| NaturalOrder.KeyLessIrreflexive | file_processor.py:391 | no key is below itself |
| NaturalOrder.SortBy | file_processor.py:391 | the sorted list is ordered by the key and is a permutation of the input |
| NaturalOrder.SortStable | file_processor.py:391 | for every key, the elements with that key keep their input order |
| NaturalOrder.InsertPermutes | file_processor.py:391 | one insertion step adds exactly the inserted element |
| NaturalOrder.NumbersByValue | file_processor.py:365-372 | numbered names compare by the value of the number, not its width (`img2` before `img10`) |
| NaturalOrder.LeadingZerosIgnored | file_processor.py:365-372 | leading zeros do not change a key (`img02` and `img2` tie) |
| NaturalOrder.PyInt | file_processor.py:367-369 | Python's `int()` on a piece yields a number only if the piece holds some decimal character |
| NaturalOrder.TryInt | file_processor.py:367-371 | `tryint` gives a number exactly when `int()` accepts the piece, and otherwise the piece itself as text |
| NaturalOrder.TryIntAgrees | file_processor.py:367-371 | on an ASCII digit run, and on text without decimal characters, `tryint` as written gives the modelled piece |
| NaturalOrder.KeyAgreesWithoutOtherDigits | file_processor.py:365-372 | for a name whose only decimal characters are ASCII digits, the key as written is the modelled key |
| NaturalOrder.FullwidthDigitBreaksComparison | file_processor.py:365-372 | as written, the paths `d/1２3.jpg` and `d/1a3.jpg` get keys that agree on two pieces and then put a number against text |
| Media.KindOf | file_processor.py:379-380 | a file is an image iff its lower-cased suffix is an image extension, and a video iff it is a video extension |
| Junk.CleanUnwanted | file_processor.py:348-363 | a file remains iff it is not junk by suffix, `ewm` prefix or name, or its removal raised |
| Junk.CleanUnwantedIdempotent | file_processor.py:348-363 | a second junk pass removes nothing more |
| Junk.JunkBySuffix | file_processor.py:350-356 | a junk extension in any letter case after a non-empty stem makes a file junk |
| Junk.JunkByPrefix | file_processor.py:357 | a name beginning with `ewm` in any letter case is junk whatever follows |
| Junk.DotFileKept | file_processor.py:350-358 | a dot followed by a dot-free rest, such as `.txt`, has no suffix and is kept unless it is a junk name |
| Rename.Slots | file_processor.py:393-408 | each file gets a slot of its own kind, one per file |
| Rename.SlotsCounted | file_processor.py:393-408 | the image at position `i` gets the start value plus the number of images before it, and likewise for videos; other files get nothing |
| Rename.SlotsDistinct | file_processor.py:376-408 | two images, or two videos, never share a counter value |
| Rename.TargetsDistinct | file_processor.py:398-408 | no two media files are given the same new name |
| Rename.GeneratedNameParts | file_processor.py:401-407 | a generated name determines its extension, and for one prefix its counter |
| Rename.DestinationFacts | file_processor.py:410-412 | renaming keeps the lower-cased extension, and a media file ends up under its target name |
| Rename.DestinationsDistinct | file_processor.py:410-412 | distinct files get distinct destinations |
| Rename.MoveFile | file_processor.py:413 | a move puts the source's content at the destination, replacing what was there, removes the source, and changes nothing else; a missing source changes nothing |
| Rename.Moves | file_processor.py:393-416 | a move is planned only for a listed file whose destination differs from its path |
| Rename.SortedForRename | file_processor.py:383-391 | the files are visited in a permutation of the walk |
| Rename.PlacedKeeps | file_processor.py:374-416 | placing files at distinct destinations at once puts each source's content at its own destination and nothing else anywhere |
| Rename.RenameAtOnceKeepsContent | file_processor.py:374-416 | with every move taking effect at once, every content of the directory survives the rename |
| RenameExample.RenameInPlaceLosesContent | file_processor.py:393-416 | as written, `a.jpg` next to `<prefix>001.jpg` ends as the single file `<prefix>002.jpg`; the second image's content is gone |
| RenameExample.RenameAtOnceExample | file_processor.py:374-416 | on the same directory, the all-at-once rename keeps both images under `<prefix>001.jpg` and `<prefix>002.jpg` |
| TitleStats.Tally | file_processor.py:429-440 | the walk fails iff some size query raises; otherwise its counts are the numbers of present images and videos, its bytes the sum of the present files' sizes, and no file counts twice |
| TitleStats.FormatTitle | file_processor.py:418-459 | the formatted title extends the base title, or is the base alone when the walk raised |
| TitleStats.TitleRoundTrip | file_processor.py:446-452 | the suffix reads back as the base title and the three numbers that produced it, whatever the base contains |
| TitleStats.BodyRoundTrip | file_processor.py:446-449 | the statistics body, with or without a video count, parses back to its numbers |
| TitleStats.FormatTitleParses | file_processor.py:418-455 | the formatted title carries the walk's image and video counts and its size in whole mebibytes, rounded down |
| ArchiveOutput.SafeFilename | file_processor.py:461-490 | each unsafe character becomes `_`, every other character stays, and the name is cut to 150 characters |
| ArchiveOutput.SafeFilenameIdempotent | file_processor.py:461-490 | sanitising a sanitised name changes nothing |
| ArchiveOutput.ReplaceEachPointwise | file_processor.py:477-479 | the chain of `str.replace` calls acts character by character |
| ArchiveOutput.ArchiveNameBase | file_processor.py:110-118 | the archive lands directly in the output directory under the safe title plus the extension |
| ArchiveOutput.ArchiveNameZst | file_processor.py:113-118 | for the zst format, in any letter case, the archive's suffix is `.zst` |
| ArchiveOutput.ArchiveNamePlain | file_processor.py:115-118 | for any other dot-free format the name ends with a dot and the format exactly as configured, letter case kept (`7Z` gives `.7Z`); the archive-suffix check, which lower-cases, sees the lower-cased format |
| ArchiveOutput.Flatten | file_processor.py:303-338 | nothing to move iff the directory is missing or empty; a lone directory yields exactly its children, a lone file itself, and several entries all their names in order; an empty result only for a lone empty directory |
| ArchiveOutput.ValidateFile | file_processor.py:711-721 | a valid file exists, is non-empty, and has an archive suffix |
| ArchiveOutput.ValidateAgreesWithIsArchive | file_processor.py:711-721 | for an existing non-empty file, `validate_file` and `is_archive_file` agree |
| Compression.Candidates | compression_handler.py:82-85 | the configured passwords come first and unchanged, then the file name and its stem when a name is given, then `""` and `123` |
| Compression.Extract | compression_handler.py:71-170 | extraction succeeds iff some attempt exits 0 and leaves a file; the scan stops at the first such attempt and reports its password |
| Compression.ConfiguredPasswordFirst | compression_handler.py:82-125 | a working configured password is found before any guess when nothing earlier works |
| Compression.EmptyExtractionMovesOn | compression_handler.py:95-103 | a run that exits 0 but leaves no file does not stop the scan |
| Compression.PasswordRequired | compression_handler.py:33-69 | a password is assumed unless the listing exits 0 and stderr mentions no password phrase |
| Compression.KeywordMeansPassword | compression_handler.py:45-62 | any password keyword, in any letter case and anywhere in stderr, makes the archive count as protected whatever the exit code |
| Compression.PasswordRequiredIgnoresCase | compression_handler.py:45-62 | lower-casing stderr first does not change the verdict |
| Compression.FastBytes | compression_handler.py:266 | the fast-bytes value is `8 * level` clamped to 32..64 |
| Compression.StandardCommand | compression_handler.py:258-275 | the command starts with the executable, `a` and the type, and ends with the output and the source glob |
| Compression.SwitchesOfCommand | compression_handler.py:258-275 | the switches between type and output are the method switches followed by the password switch |
| Compression.MethodSwitches | compression_handler.py:261-268 | 7z, in any letter case, gets the 7z switches, zip gets `-m0=deflate` and the level, any other format none; every switch starts with `-m` |
| Compression.SevenZipSwitches | compression_handler.py:261-266 | the 7z switches are LZMA2, the level and the dictionary in that order, then `-ms=on` only in solid mode, and the fast-bytes switch last |
| Compression.PasswordOnlyWhenGiven | compression_handler.py:271-272 | the password reaches 7-Zip iff it is non-empty, and no other switch looks like a password switch |
| Compression.SolidOnlyFor7z | compression_handler.py:264-265 | the solid switch appears iff the format is 7z and solid mode is on |
| Compression.FastBytesFor7z | compression_handler.py:266 | a 7z archive always gets a fast-bytes switch between 32 and 64 |
| Compression.Standard | compression_handler.py:249-288 | a standard archive succeeds iff the output has a directory part, that directory is created, 7-Zip exits 0 and the output is non-empty |
| Compression.BareOutputFails | compression_handler.py:255 | an output path without a directory part fails whatever 7-Zip would do |
| Compression.InnerNameIsOutputIff | compression_handler.py:199-200 | the intermediate file is the output itself iff the output's extension is `.7z` |
| Compression.InnerNameSameDir | compression_handler.py:199-200 | the intermediate file lies in the output's directory |
| Compression.ZstCommand | compression_handler.py:215-216 | the zstd stage compresses the intermediate into the output and carries no password switch |
| Compression.Zst | compression_handler.py:190-247 | zst succeeds iff the directory is ready and both stages produce output; the intermediate is deleted after any outer exit code but not after an outer exception |
| Compression.CreateArchive | compression_handler.py:172-188 | a zst format in any letter case takes the two-stage path, every other format the standard path |
| Compression.ZstNeedsBothStages | compression_handler.py:172-247 | one good 7-Zip run packs a 7z archive but not a zst one |
| Compression.ArchiveInfo | compression_handler.py:290-317 | listing info exists iff 7-Zip exits 0, and its file count is the number of names found |
| Compression.NoPasswordMeansInfo | compression_handler.py:33-69 | whenever no password is needed, the listing parses |
| Compression.ListedNameRoundTrip | compression_handler.py:301-310 | a file row's line gives back the row's name, spaces inside the name included |
| Compression.ListingRoundTrip | compression_handler.py:299-310 | rows listed one per line give back every name, in order |
| Compression.ArchiveInfoRoundTrip | compression_handler.py:290-317 | a successful listing of such rows reports exactly their count and names |
| Compression.HeaderCountedAsFile | compression_handler.py:301-310 | 7-Zip's column header line is taken for a file called `Name` |
| ImageEncode.ReencodedAreImages | image_processor.py:40-54 | every converted file is an image file, and GIF, WebP and AVIF files are never converted |
| ImageEncode.Selected | image_processor.py:40-54 | a walked file is converted iff its lower-cased suffix is one of the seven convertible extensions, and it is converted as many times as it was walked |
| ImageEncode.SelectedConcat | image_processor.py:40-54 | conversion follows walk order: the selection from two runs of walked files is the selection from the first followed by that from the second |
| ImageEncode.OutputFormat | image_processor.py:77-80 | the output format is `webp` or `avif`, and `avif` exactly when configured so in any letter case |
| ImageEncode.OutputSuffix | image_processor.py:83 | the output's suffix is the format's, or none when the stem's last component is empty |
| ImageEncode.OutputIsNotSource | image_processor.py:83-116 | a converted file's output path is never its own path, so removing the source never removes the output |
| ImageEncode.SiblingsShareOutput | image_processor.py:83 | `d/a.png` and `d/a.jpg` both convert to `d/a.webp`, so the second conversion overwrites the first |
| ImageEncode.Crf | image_processor.py:102 | quality 0..100 maps into crf 0..63, 100 to 0 and 0 to 63; a quality above 100 gives a crf of 0 or below |
| ImageEncode.CrfMonotone | image_processor.py:102 | a higher quality never gives a larger crf |
| ImageEncode.CrfBelowRange | image_processor.py:102 | quality 102 gives crf -1 |
| ImageEncode.EncodeCommand | image_processor.py:87-110 | the command reads the input and ends with `-y` and the output path |
| ImageEncode.Book | image_processor.py:69-132 | a file is skipped iff it vanished, and compressed iff FFmpeg exits 0, leaves a non-empty output, and the source is removed |
| ImageEncode.OneCopyKept | image_processor.py:115-132 | for every processed file exactly one of source and output remains, and it is the output exactly when the file is booked as compressed |
| ImageEncode.Tally | image_processor.py:66-135 | the counters are the numbers of compressed and failed files, and with the skipped ones they cover every file |
| ImageEncode.CompressImages | image_processor.py:35-135 | nothing selected gives (0, 0); otherwise compressed plus failed is the selected count minus the vanished files |
| ImageEncode.VanishedUncounted | image_processor.py:70-72 | files that vanish before their turn are counted nowhere |
| Upload.Backoff | api_handler.py:81-82 | the first sleep of a retry loop from attempt k lasts `(k + 1) * 5` seconds and each later one 5 seconds more |
| Upload.BackoffTotal | api_handler.py:81-82 | n backed-off sleeps from attempt k take `5n(2k + n + 1) / 2` seconds in all |
| Upload.LoginFrom | api_handler.py:50-85 | login sends only login requests, at most the remaining attempts; on success the last reply was acceptable and its token is stored with a matching header; on failure every remaining attempt was sent and token and header are unchanged |
| Upload.LoginFirstAccepted | api_handler.py:54-82 | login stops at the first acceptable reply: every earlier reply, and on failure every reply, was refused |
| Upload.LoginSleeps | api_handler.py:81-82 | login sleeps `(k + 1) * 5` seconds after every failed attempt k but the last one made, so the i-th sleep from attempt k lasts `(k + i + 1) * 5` seconds |
| Upload.LoginSucceedsIff | api_handler.py:50-85 | login succeeds iff one of the first `max` replies is acceptable |
| Upload.LoginBackoffDefault | api_handler.py:54-82 | with the default three retries all refused, the client sleeps 5 and then 10 seconds and sends three requests |
| Upload.TokenValid | api_handler.py:29-38 | a stored token counts as valid; the header is added only when missing; nothing else changes |
| Upload.EnsureLogin | api_handler.py:40-48 | a stored token is used without a request; otherwise a full login decides |
| Upload.HandleAuthError | api_handler.py:87-97 | a 401 or 403 drops token and header and a fresh login decides, sending only logins; a failed re-login ends with a refused login request; any other status is refused with nothing changed |
| Upload.Selected | api_handler.py:101-116 | a walked file is uploaded iff its lower-cased suffix is `.jpg`, `.jpeg`, `.png` or `.webp`, and it is collected as many times as it was walked |
| Upload.SelectedConcat | api_handler.py:101-116 | collection follows walk order: the selection from two runs of walked files is the selection from the first followed by that from the second |
| Upload.UploadOrder | api_handler.py:125-126 | the upload list is sorted by directory and natural name key, and is a permutation of the selected files |
| Upload.GifNeverUploaded | api_handler.py:101-116 | a GIF is never uploaded |
| Upload.Batches | api_handler.py:132-134 | the batches concatenate back to the list, each is non-empty and at most the batch size, all but the last are full, and there are just enough of them |
| Upload.ReplyUrls | api_handler.py:159 | the reply's URLs are exactly its non-empty `url` fields; only the empty ones are dropped |
| Upload.ReplyUrlsConcat | api_handler.py:159 | the URLs keep the order and the multiplicity of the `url` fields: the URLs of two runs of fields are the URLs of the first followed by those of the second |
| Upload.BatchFrom | api_handler.py:138-181 | a batch delivers URLs only when the last request sent was that batch, its reply was accepted, and the URLs are exactly that reply's non-empty ones; the log only grows; no attempts left means no request |
| Upload.BatchFirstAccepted | api_handler.py:155-181 | the batch stops at its first accepted reply: every earlier reply to it, and on failure every reply to it, was refused |
| Upload.BatchInterleaving | api_handler.py:138-171 | while a batch is retried only the batch and login requests are sent |
| Upload.BatchAttempts | api_handler.py:138-181 | a batch is sent at most once per remaining attempt; a failed batch was sent on every attempt unless a re-login failed, which is then the last request |
| Upload.UploadBatches | api_handler.py:132-183 | a completed upload sent every batch, in order, each at a later log position with an accepted reply whose non-empty URLs are that batch's list; the chain of per-batch retry loops, each starting from the session the previous one left, runs from the caller's session to the final one; a failed upload ran that chain over the batches before some batch, and that batch's retry loop, started from the session the chain left, failed and left the final session |
| Upload.UploadSucceedsIff | api_handler.py:132-186 | the upload succeeds iff every batch's retry loop, chained from the caller's session, succeeds; it fails leaving a session iff some batch's loop, after the earlier ones succeeded in the chain, fails leaving that session |
| Upload.UploadFiles | api_handler.py:99-186 | the upload raises iff the batch size is 0 with something to upload; nothing to upload or a negative size returns `[]` untouched; a non-empty result has at least one URL per batch and is the batch-order concatenation of every batch's accepted reply URLs; a positive batch size with something to upload returns a list, which is empty iff the chained batch loops succeed up to some batch whose loop fails and leaves the final session |
| Upload.AuthOnLastAttemptLosesBatch | api_handler.py:166-171 | a 401 or 403 on the last attempt loses the batch even when the re-login succeeds |
| Upload.SubmitFrom | api_handler.py:188-247 | an article is submitted only when the last request sent was that article and its reply was accepted; the log only grows; no attempts left means no request |
| Upload.SubmitFirstAccepted | api_handler.py:206-247 | the submission stops at its first accepted reply: every earlier reply to the article, and on failure every reply to it, was refused |
| Upload.SubmitInterleaving | api_handler.py:188-234 | while an article is retried only the article and login requests are sent |
| Upload.SubmitAttempts | api_handler.py:188-247 | an article is sent at most once per remaining attempt; a failed article was sent on every attempt unless a re-login failed, which is then the last request |
| Upload.SuccessFlagSuffices | api_handler.py:210-217 | an article reply with a failing code but a true `success` flag is accepted, though the same body fails an upload |
| Upload.NullDetailRetried | api_handler.py:210-224 | under a success code, a nested `data` that is not an object makes reading the article id raise, so the attempt is retried; a nested object is accepted |
| Upload.SubmitFirstTry | api_handler.py:188-224 | an article accepted at the first request is submitted with one request and no sleep |
| Upload.AuthOnLastAttemptLosesArticle | api_handler.py:227-234 | a 401 or 403 on the last attempt loses the article |
| TempCleanup.RemoveThenCheck | file_processor.py:552-587 | `rmtree` and the recursive delete always return a verdict, even when they raise, and report success only when the removal ran to its end |
| TempCleanup.ForceDelete | file_processor.py:603-620 | the forced delete can succeed only on Windows |
| TempCleanup.TryCleanup | file_processor.py:532-550 | the strategies run in order until one reports success; the verdict is true iff some strategy succeeds |
| TempCleanup.CleanupSucceedsIff | file_processor.py:532-620 | a directory is reported clean iff `rmtree` removed it, the recursive delete removed it, the file walk completed, or `rd` exited 0 on Windows |
| TempCleanup.WalkCompletedSucceeds | file_processor.py:589-601 | a completed file walk ends the chain with success by the third strategy, even when every file survived |
| TempCleanup.ForceOnlyAfterWalkRaised | file_processor.py:532-601 | the forced delete runs, or the directory fails, only when the file walk raised |
| TempCleanup.SurvivingDirCounted | file_processor.py:589-601 | a directory that nothing removed still counts as cleaned |
| TempCleanup.Tally | file_processor.py:492-530 | the three counters cover every unique directory, and each is positive iff some directory is in that state |
| TempCleanup.CleanupAll | file_processor.py:492-530 | every unique tracked directory is counted once, the tracked list is emptied, and when anything failed all unique directories go to the background retry |
| TempCleanup.CleanupAllIgnoresRepeats | file_processor.py:492-530 | tracking a directory twice changes nothing |
| TempCleanup.FailureNeedsRaisingWalk | file_processor.py:492-601 | a failure, and with it the background retry, needs a tracked directory whose file walk raised |
| Pipeline.ZstIntermediateName | compression_handler.py:199-200 | a zst job's intermediate is the title with `.7z.7z` next to the final `.7z.zst` archive, and never the archive itself |
| Pipeline.OwnZstArchiveNotRecognised | file_processor.py:113-118 | `is_archive_file` and `validate_file` do not recognise the zst archives the program itself produces |
| Pipeline.OwnSevenZipArchiveRecognised | file_processor.py:113-118 | a 7z archive the program produces is recognised |
| Pipeline.AvifOutputsNeverUploaded | image_processor.py:83 | with the AVIF format no re-encoded image is ever uploaded |
| Pipeline.WebpOutputsUploaded | image_processor.py:83 | with the WebP format a re-encoded image is uploaded iff its stem keeps a name |
| Pipeline.CallSubmit | file_processor.py:152 | a call with extra arguments raises before sending anything; with the declared arguments it returns the submission's verdict, and success means the last request was accepted |
| Pipeline.Tail | file_processor.py:135-161 | with login skipped or upload disabled the tail succeeds and sends nothing; otherwise success needs a non-empty upload |
| Pipeline.PublishingAlwaysFails | file_processor.py:148-155 | as written, a job with publishing enabled fails after every upload and never sends an article |
| Pipeline.PublishingWithDeclaredArguments | file_processor.py:148-155 | with the declared three arguments, a publishing job succeeds iff the upload returns URLs and the article with the first URL as cover is accepted |
| Pipeline.PublishedWhenAcceptedAtOnce | file_processor.py:148-155 | with the declared arguments, an accepted first submission publishes |
| Pipeline.ZeroBatchSizeFailsJob | file_processor.py:139-142 | a batch size of 0 with anything to upload fails the job |

## Left out

- Logging, status callbacks, the GUI, `main.py`, the build scripts and
  `tools_config.py`: they are not part of the processing core.
- Loading and saving the configuration. Only the defaults the model uses
  appear as constants: the prefixes, batch size 40 and three retries.
- `process_file` and its category fetch. It calls
  `api_handler.fetch_categories`, which `api_handler.py` does not define
  (file_processor.py:64).
- The bodies of `process_folder` and `process_archive` are not replayed step
  by step. Their archive naming, job tail and cleanup are modelled in
  `ArchiveOutput`, `Pipeline` and `TempCleanup`.
- The background cleanup thread and its timing (file_processor.py:622-648).
  The model only states which directories it receives.
- `_add_cleanup_marker`, `wait_for_file_stable`, `format_file_size`,
  `get_image_info`, `_cleanup_compressed_images`, `_save_compressed_images`
  and `test_connection`: none is on the decision path of the core.
- Real subprocesses, filesystem, HTTP, clock, process id and sleeps. They
  enter as data (see the top of this file).
- The recreation of the extraction destination (compression_handler.py:77-79).
  An exception there propagates to the caller, and the model starts after it.
- JSON bodies are reduced to the fields the client reads and their shapes:
  whether the body is an object, `code`, the `data` member as absent, an
  object (token, `success`, the kind of its own `data`), an array (each
  item's `url` and whether every item is an object) or anything else. Any
  shape on which a `.get` raises counts as a refused reply, as the
  `except` clauses make it.
- Characters and text:
  - `Strings.Lower` lower-cases ASCII only;
  - `\d` is ASCII digits;
  - `\w` is ASCII letters, digits, `_` and CJK ideographs;
  - `\s` is Python's whitespace list;
  - there is no Unicode normalisation.
- Paths use `/` as `os.sep`. `os.walk` order is the order of the given
  sequence.
- ImageEncode.Crf: the float quotient `(100 - q) * 63 / 100` is taken as
  exact. For integer qualities of ordinary size the float result never
  rounds across an integer, so truncation agrees.
- TitleStats.Megabytes: `int(total / 1048576)` is taken as exact integer
  division, which holds for totals below 2^53 bytes.
- The annotation `List` at file_processor.py:365 is never imported
  (file_processor.py:13). On an interpreter that evaluates annotations
  eagerly, the class definition fails. The model describes the key function
  the method intends.
- NaturalOrder.NaturalKey: the sort uses the key with ASCII digit pieces,
  the evidently intended one (see "## Findings"). `tryint` as written is
  modelled by `NaturalOrder.TryInt` with the Unicode decimal table as a
  parameter; `NaturalOrder.KeyAgreesWithoutOtherDigits` shows the two keys
  agree on names without non-ASCII decimal characters.
- NaturalOrder.UploadKey: it likewise keeps text pieces as text; as written,
  `x1２3.jpg` against `x1a3.jpg` raises in the upload sort
  (api_handler.py:126, 249-259).
- NaturalOrder.KeysComparable: it holds for the modelled keys only; the
  keys as written compare a number with text on such names.
- ImageEncode.OneCopyKept: it accounts for one file alone. A sibling that
  shares the output path (`ImageEncode.SiblingsShareOutput`) can later
  overwrite or delete that output.
- TempCleanup.CleanupAll: `list(set(...))` hands the directories over in
  hash order (file_processor.py:500, 525); the model keeps first-occurrence
  order, so only the set of directories handed over is meaningful.
- Integer widths do not matter here: Python integers are unbounded, as in
  Dafny.

Other behaviours the model states:

- `clean_filename` is not idempotent (`NameCleaner.NotIdempotent`).
- `_cleanup_file_by_file` reports success even when the directory survives
  (`TempCleanup.SurvivingDirCounted`).
- The background retry receives every unique directory, not only the failed
  ones (`TempCleanup.CleanupAll`).
- A zst job whose outer stage raises leaves the intermediate `.7z.7z`
  behind (`Compression.Zst`).
- `get_archive_info` counts 7-Zip's header line as a file
  (`Compression.HeaderCountedAsFile`).
- AVIF outputs are never uploaded (`Pipeline.AvifOutputsNeverUploaded`).
- Two images that differ only in their suffix overwrite each other's output
  (`ImageEncode.SiblingsShareOutput`). If the second conversion then fails,
  its cleanup deletes the shared output.

## Findings

| source | as written | input that shows it | evidently intended | confidence | as-written member | corrected member |
|---|---|---|---|---|---|---|
| file_processor.py:393-416 | files are moved one at a time with `shutil.move`, which replaces an existing destination; a file already holding a later generated name is overwritten before it is itself renamed | a directory holding `a.jpg` and `cosfan.cc_001.jpg`: `a.jpg` moves onto `cosfan.cc_001.jpg`, which then moves to `cosfan.cc_002.jpg`, leaving one image | every file keeps its content under its new name (a two-phase rename through temporary names) | not executed | RenameExample.RenameInPlaceLosesContent | Rename.RenameAtOnceKeepsContent |
| file_processor.py:367-372, api_handler.py:254-259 | `tryint` calls `int()`, which accepts any Unicode decimal digit, while the split `([0-9]+)` cuts only at ASCII digits; a text piece holding a fullwidth digit becomes a number | a directory holding `d/1２3.jpg` and `d/1a3.jpg`, sorted for renaming at file_processor.py:391 (the upload key at api_handler.py:254-259 does the same to the file names): the third pieces are `2` and `"a"`, and `list.sort` raises `TypeError` comparing them | every text piece stays text, so keys of one kind always compare | medium, not executed | NaturalOrder.FullwidthDigitBreaksComparison | NaturalOrder.KeysComparable |
| file_processor.py:152, file_processor.py:259, api_handler.py:188 | `submit_article(formatted_title, uploaded_urls, uploaded_urls[0], True)` passes four arguments to a method declaring three; the `TypeError` is caught at file_processor.py:174 and 293 | any job with upload and publish enabled whose upload returns URLs: the job returns False and no article request is sent | call `submit_article(title, urls, urls[0])`, so the job succeeds iff the article is accepted | not executed | Pipeline.PublishingAlwaysFails | Pipeline.PublishingWithDeclaredArguments |

=== FILE: archive_output.dfy ===
/** Naming and checking of the packed archive (file_processor.py): the
    safe file name, the output extension, the one-level flatten of an
    extraction, and `validate_file`. */
module ArchiveOutput {
  import opened Wrappers
  import opened Strings
  import opened Paths
  import NameCleaner
  import Compression

  /** The characters `_make_safe_filename` replaces, in its table's order. */
  const UnsafeChars: seq<char> := ['<', '>', ':', '"', '|', '?', '*', '/', '\\']

  const MaxNameLength: nat := 150

  /** `str.replace(c, "_")` for one character. */
  function ReplaceChar(s: string, c: char): string {
    seq(|s|, i requires 0 <= i < |s| => if s[i] == c then '_' else s[i])
  }

  /** The replacements applied one after another. */
  function ReplaceEach(s: string, cs: seq<char>): string
    decreases |cs|
  {
    if |cs| == 0 then s else ReplaceEach(ReplaceChar(s, cs[0]), cs[1..])
  }

  /** The chain of replacements acts character by character: each unsafe
      character becomes `_` and nothing else changes. */
  lemma {:induction false} ReplaceEachPointwise(s: string, cs: seq<char>)
    requires '_' !in cs
    ensures |ReplaceEach(s, cs)| == |s|
    ensures forall i :: 0 <= i < |s| ==> ReplaceEach(s, cs)[i] == if s[i] in cs then '_' else s[i]
    decreases |cs|
  {
    if |cs| > 0 {
      var t := ReplaceChar(s, cs[0]);
      ReplaceEachPointwise(t, cs[1..]);
      forall i | 0 <= i < |s| ensures ReplaceEach(s, cs)[i] == if s[i] in cs then '_' else s[i] {
        assert s[i] in cs <==> s[i] == cs[0] || s[i] in cs[1..];
      }
    }
  }

  /** `_make_safe_filename`: unsafe characters replaced one for one, then the
      name cut to 150 characters. */
  function SafeFilename(s: string): (r: string)
    ensures |r| == if |s| > MaxNameLength then MaxNameLength else |s|
    ensures forall i :: 0 <= i < |r| ==> r[i] == if s[i] in UnsafeChars then '_' else s[i]
    ensures forall i :: 0 <= i < |r| ==> r[i] !in UnsafeChars
  {
    ReplaceEachPointwise(s, UnsafeChars);
    var t := ReplaceEach(s, UnsafeChars);
    if |t| > MaxNameLength then t[..MaxNameLength] else t
  }

  /** Sanitising a sanitised name changes nothing. */
  lemma SafeFilenameIdempotent(s: string)
    ensures SafeFilename(SafeFilename(s)) == SafeFilename(s)
  {
  }

  // ------------------------------------------------------ output archive

  /** The output extension: `.7z.zst` for the zst format in any letter case,
      otherwise a dot and the format exactly as configured. */
  function ArchiveExtension(format: string): string {
    if Compression.IsZstFormat(format) then ".7z.zst" else "." + format
  }

  /** The output path: the safe title plus the extension, in the output
      directory. */
  function ArchiveName(outputDir: string, title: string, format: string): string {
    Join(outputDir, SafeFilename(title) + ArchiveExtension(format))
  }

  /** A sanitised name never contains a path separator. */
  lemma SafeHasNoSlash(title: string)
    ensures '/' !in SafeFilename(title)
  {
  }

  /** The archive lands directly in the output directory under the safe
      title plus the extension. */
  lemma ArchiveNameBase(outputDir: string, title: string, format: string)
    requires |title| > 0 && '/' !in format
    ensures BaseName(ArchiveName(outputDir, title, format)) == SafeFilename(title) + ArchiveExtension(format)
  {
    var safe := SafeFilename(title);
    var e := ArchiveExtension(format);
    SafeHasNoSlash(title);
    assert '/' !in e;
    assert '/' !in safe + e by {
      assert forall i :: 0 <= i < |safe + e| ==> (safe + e)[i] in safe || (safe + e)[i] in e;
    }
    BaseNameOfJoin(outputDir, safe + e);
  }

  /** A file name `h + e` placed in any directory has `e` as its suffix when
      `e` is a dot and a dot-free tail. */
  lemma SuffixInDirectory(dir: string, h: string, e: string)
    requires |h| > 0 && '/' !in h
    requires |e| >= 2 && e[0] == '.' && '.' !in e[1..] && '/' !in e
    ensures Ext(Join(dir, h + e)) == Lower(e)
  {
    SuffixOfAppend(h, e);
    BaseNameOfJoin(dir, h + e);
  }

  /** The literal facts about the two-stage extension. */
  lemma ZstParts()
    ensures ".7z.zst" == ".7z" + ".zst"
    ensures '/' !in ".7z" && '/' !in ".zst" && '.' !in ".zst"[1..]
    ensures Lower(".zst") == ".zst"
  {
  }

  /** A name followed by the two-stage extension has the suffix `.zst`. */
  lemma ZstSuffix(dir: string, n: string)
    requires |n| > 0 && '/' !in n
    ensures Ext(Join(dir, n + ".7z.zst")) == ".zst"
  {
    var a, z := ".7z", ".zst";
    ZstParts();
    var h := n + a;
    assert n + ".7z.zst" == h + z;
    assert '/' !in h by {
      assert forall i :: 0 <= i < |h| ==> h[i] in n || h[i] in a;
    }
    SuffixInDirectory(dir, h, z);
  }

  /** Its suffix, as `is_archive_file` and `validate_file` see it, is
      `.zst` for the zst format ... */
  lemma ArchiveNameZst(outputDir: string, title: string, format: string)
    requires |title| > 0 && Compression.IsZstFormat(format)
    ensures Ext(ArchiveName(outputDir, title, format)) == ".zst"
  {
    SafeHasNoSlash(title);
    ZstSuffix(outputDir, SafeFilename(title));
  }

  /** ... and, for any other dot-free format, the name ends with a dot and
      the format in its configured letter case, which the suffix check sees
      lower-cased. */
  lemma ArchiveNamePlain(outputDir: string, title: string, format: string)
    requires |title| > 0 && |format| > 0 && '/' !in format && '.' !in format && !Compression.IsZstFormat(format)
    ensures EndsWith(ArchiveName(outputDir, title, format), "." + format)
    ensures Ext(ArchiveName(outputDir, title, format)) == Lower("." + format)
  {
    var safe := SafeFilename(title);
    var e := "." + format;
    SafeHasNoSlash(title);
    assert e[1..] == format;
    SuffixInDirectory(outputDir, safe, e);
    JoinEndsWith(outputDir, safe + e, e);
  }

  /** A non-absolute name keeps its tail when placed in a directory. */
  lemma JoinEndsWith(dir: string, n: string, e: string)
    requires |n| > 0 && n[0] != '/' && EndsWith(n, e)
    ensures EndsWith(Join(dir, n), e)
  {
    var j := Join(dir, n);
    assert j[|j| - |n|..] == n;
    assert j[|j| - |e|..] == n[|n| - |e|..];
  }

  // ------------------------------------------------------------- flatten

  /** A top-level entry of the extraction directory. */
  datatype Item = FileItem(name: string) | DirItem(name: string, children: seq<string>)

  /** The names `_process_extracted_files` moves into the processed
      directory: the children of a lone directory, a lone file, or every
      entry as it is; `None` when the extraction directory is missing
      (`None` listing) or empty. */
  function Flatten(listing: Option<seq<Item>>): (r: Option<seq<string>>)
    ensures r.None? <==> listing.None? || |listing.value| == 0
    ensures r.Some? && |r.value| == 0 <==>
              listing.Some? && |listing.value| == 1 && listing.value[0].DirItem? && |listing.value[0].children| == 0
    ensures listing.Some? && |listing.value| == 1 && listing.value[0].DirItem? ==> r == Some(listing.value[0].children)
    ensures listing.Some? && |listing.value| == 1 && listing.value[0].FileItem? ==> r == Some([listing.value[0].name])
    ensures listing.Some? && |listing.value| > 1 ==>
              r.Some? && |r.value| == |listing.value| &&
              forall i :: 0 <= i < |listing.value| ==> r.value[i] == listing.value[i].name
  {
    match listing
    case None => None
    case Some(items) =>
      if |items| == 0 then None
      else if |items| == 1 then
        match items[0]
        case DirItem(_, children) => Some(children)
        case FileItem(n) => Some([n])
      else Some(seq(|items|, i requires 0 <= i < |items| => items[i].name))
  }

  // ------------------------------------------------------------ validate

  /** `validate_file`: the file exists (`size` is `None` otherwise), is not
      empty, and has an archive suffix. */
  function ValidateFile(p: string, size: Option<nat>): (ok: bool)
    ensures ok ==> NameCleaner.IsArchiveFile(p)
    ensures size.None? || size.value == 0 ==> !ok
  {
    size.Some? && size.value > 0 && Ext(p) in {".7z", ".zip", ".rar", ".tar", ".gz", ".bz2"}
  }

  /** For an existing non-empty file, `validate_file` and `is_archive_file`
      agree. */
  lemma ValidateAgreesWithIsArchive(p: string, n: nat)
    requires n > 0
    ensures ValidateFile(p, Some(n)) <==> NameCleaner.IsArchiveFile(p)
  {
  }
}

=== FILE: compression.dfy ===
/** The 7-Zip driver (compression_handler.py): the password candidates and
    the first-success extraction scan, the password-needed test, the
    command lines of `create_archive`, the two-stage zst path, and the
    parser of `7z l` listings. Every subprocess and filesystem result is an
    oracle value handed in by the caller. */
module Compression {
  import opened Wrappers
  import opened Seqs
  import opened Strings
  import opened Paths

  // ------------------------------------------------------------ extraction

  /** The passwords `extract_file` tries, in order: the configured ones, the
      original file name and its stem when a name is given, then the empty
      password and "123". The configured list itself is left as it is. */
  function Candidates(passwords: seq<string>, originalName: string): (r: seq<string>)
    ensures |passwords| + 2 <= |r|
    ensures r[..|passwords|] == passwords
    ensures r[|r| - 2..] == ["", "123"]
    ensures originalName == "" <==> |r| == |passwords| + 2
    ensures originalName != "" ==> r[|passwords|..|passwords| + 2] == [originalName, StemOf(originalName)]
  {
    var named := if originalName != "" then [originalName, StemOf(originalName)] else [];
    passwords + named + ["", "123"]
  }

  /** One `7z x` run: it timed out, raised (clearing the destination or
      starting the process), or exited with a code, after which this many
      regular files lie under the destination. */
  datatype Attempt = TimedOut | Crashed | Ran(code: int, files: nat)

  /** An attempt counts only if 7-Zip exited with 0 and left at least one
      regular file; empty directories do not count. */
  predicate Succeeded(a: Attempt) { a.Ran? && a.code == 0 && a.files > 0 }

  /** The verdict, how many attempts ran, and the password of the winning
      attempt (`None` for the first, password-less one). */
  datatype Extraction = Extraction(ok: bool, tried: nat, password: Option<string>)

  /** `extract_file` after the destination has been recreated empty:
      `attempts[0]` is the run without a password, `attempts[i + 1]` the run
      with the i-th candidate. */
  function Extract(passwords: seq<string>, originalName: string, attempts: seq<Attempt>): (r: Extraction)
    requires |attempts| == |Candidates(passwords, originalName)| + 1
    ensures 1 <= r.tried <= |attempts|
    ensures r.ok <==> exists i :: 0 <= i < |attempts| && Succeeded(attempts[i])
    ensures r.ok ==> Succeeded(attempts[r.tried - 1])
    ensures forall i :: 0 <= i < r.tried - 1 ==> !Succeeded(attempts[i])
    ensures !r.ok ==> r.tried == |attempts| && r.password == None
    ensures r.ok && r.tried == 1 ==> r.password == None
    ensures r.ok && r.tried > 1 ==> r.password == Some(Candidates(passwords, originalName)[r.tried - 2])
  {
    var k := FirstWhere(attempts, Succeeded);
    if k == |attempts| then Extraction(false, |attempts|, None)
    else if k == 0 then Extraction(true, 1, None)
    else Extraction(true, k + 1, Some(Candidates(passwords, originalName)[k - 1]))
  }

  /** A configured password that opens the archive is found before the file
      name or the built-in guesses are tried, provided no attempt before it
      succeeds. */
  lemma ConfiguredPasswordFirst(passwords: seq<string>, originalName: string, attempts: seq<Attempt>, j: nat)
    requires |attempts| == |Candidates(passwords, originalName)| + 1
    requires j < |passwords| && Succeeded(attempts[j + 1])
    requires forall i :: 0 <= i <= j ==> !Succeeded(attempts[i])
    ensures Extract(passwords, originalName, attempts) == Extraction(true, j + 2, Some(passwords[j]))
  {
    var r := Extract(passwords, originalName, attempts);
    var c := Candidates(passwords, originalName);
    assert c[j] == c[..|passwords|][j];
    assert r.tried == j + 2;
  }

  /** A run that exits with 0 but leaves no file does not stop the scan. */
  lemma EmptyExtractionMovesOn(passwords: seq<string>, originalName: string, attempts: seq<Attempt>)
    requires |attempts| == |Candidates(passwords, originalName)| + 1
    requires attempts[0] == Ran(0, 0) && Succeeded(attempts[1])
    ensures Extract(passwords, originalName, attempts).tried == 2
    ensures Extract(passwords, originalName, attempts).password == Some(Candidates(passwords, originalName)[0])
  {
  }

  // ------------------------------------------------------- password check

  /** The phrases whose presence in lower-cased stderr marks an encrypted
      archive. */
  const PasswordKeywords: seq<string> := ["enter password", "wrong password", "encrypted archive", "需要密码", "密码错误"]

  /** One `7z l` run: it timed out, raised, or exited with a code and its
      output. */
  datatype Listing = ListTimedOut | ListCrashed | Listed(code: int, stdout: string, stderr: string)

  predicate MentionsPassword(stderr: string) {
    exists i :: 0 <= i < |PasswordKeywords| && Contains(Lower(stderr), PasswordKeywords[i])
  }

  /** `check_password_required`: a password is assumed unless the listing
      exited with 0 and said nothing about passwords. */
  function PasswordRequired(l: Listing): (r: bool)
    ensures !r <==> l.Listed? && l.code == 0 && !MentionsPassword(l.stderr)
  {
    match l
    case Listed(code, _, stderr) => code != 0 || MentionsPassword(stderr)
    case _ => true
  }

  /** A keyword anywhere in stderr, in any letter case, means a password
      is needed, whatever the exit code; "ERROR: Wrong password" is one. */
  lemma KeywordMeansPassword(code: int, stdout: string, pre: string, w: string, post: string, i: nat)
    requires i < |PasswordKeywords| && Lower(w) == PasswordKeywords[i]
    ensures PasswordRequired(Listed(code, stdout, pre + w + post))
  {
    LowerConcat(pre + w, post);
    LowerConcat(pre, w);
    ContainsInside(Lower(pre), PasswordKeywords[i], Lower(post));
  }

  /** Only the letter case of stderr is ignored: its lower-cased form gives
      the same verdict. */
  lemma PasswordRequiredIgnoresCase(code: int, stdout: string, stderr: string)
    ensures PasswordRequired(Listed(code, stdout, stderr)) == PasswordRequired(Listed(code, stdout, Lower(stderr)))
  {
    LowerIdempotent(stderr);
  }

  // ------------------------------------------------------ archive creation

  /** `format_type.lower() == 'zst'`: the test that selects the two-stage
      path here and the `.7z.zst` suffix in file_processor.py. */
  predicate IsZstFormat(format: string) { Lower(format) == "zst" }

  /** The fast-bytes switch value `min(64, max(32, level * 8))`. */
  function FastBytes(level: int): (r: int)
    ensures 32 <= r <= 64
    ensures level <= 4 ==> r == 32
    ensures 4 <= level <= 8 ==> r == 8 * level
    ensures level >= 8 ==> r == 64
  {
    if level * 8 < 32 then 32 else if level * 8 > 64 then 64 else level * 8
  }

  /** The compression-method switches of `_create_standard_archive`. */
  function MethodSwitches(format: string, level: int, solid: bool, dictionary: string): (r: seq<string>)
    ensures forall i :: 0 <= i < |r| ==> StartsWith(r[i], "-m")
    ensures Lower(format) == "7z" ==> r == SevenZipSwitches(level, solid, dictionary)
    ensures Lower(format) == "zip" ==> r == ["-m0=deflate", "-mx=" + IntToString(level)]
    ensures Lower(format) != "7z" && Lower(format) != "zip" ==> r == []
  {
    if Lower(format) == "7z" then SevenZipSwitches(level, solid, dictionary)
    else if Lower(format) == "zip" then ZipSwitches(level)
    else []
  }

  /** The 7z switches: method, level, dictionary, solid mode, fast bytes. */
  function SevenZipSwitches(level: int, solid: bool, dictionary: string): (r: seq<string>)
    ensures forall i :: 0 <= i < |r| ==> StartsWith(r[i], "-m")
    ensures |r| == if solid then 5 else 4
    ensures r[0] == "-m0=lzma2" && r[1] == "-mx=" + IntToString(level) && r[2] == "-md=" + dictionary
    ensures solid ==> r[3] == "-ms=on"
    ensures r[|r| - 1] == "-mfb=" + IntToString(FastBytes(level))
  {
    var x, d, f := "-mx=" + IntToString(level), "-md=" + dictionary, "-mfb=" + IntToString(FastBytes(level));
    MethodSwitch(x);
    MethodSwitch(d);
    MethodSwitch(f);
    MethodLiterals();
    if solid then ["-m0=lzma2", x, d, "-ms=on", f] else ["-m0=lzma2", x, d, f]
  }

  /** The zip switches: method and level. */
  function ZipSwitches(level: int): (r: seq<string>)
    ensures forall i :: 0 <= i < |r| ==> StartsWith(r[i], "-m")
  {
    var x := "-mx=" + IntToString(level);
    MethodSwitch(x);
    MethodLiterals();
    ["-m0=deflate", x]
  }

  lemma MethodSwitch(s: string)
    requires |s| >= 2 && s[0] == '-' && s[1] == 'm'
    ensures StartsWith(s, "-m")
  {
    assert s[..2] == "-m";
  }

  lemma MethodLiterals()
    ensures StartsWith("-m0=lzma2", "-m") && StartsWith("-m0=deflate", "-m") && StartsWith("-ms=on", "-m")
  {
  }

  /** `-p<password>` only for a non-empty password. */
  function PasswordSwitch(password: string): seq<string> {
    if password != "" then ["-p" + password] else []
  }

  /** The `7z a` command line of `_create_standard_archive`; `sep` is
      `os.sep`. */
  function StandardCommand(exe: string, source: string, output: string, password: string, format: string,
                           level: int, solid: bool, dictionary: string, sep: string): (r: seq<string>)
    ensures |r| >= 5
    ensures r[..3] == [exe, "a", "-t" + format]
    ensures r[|r| - 2..] == [output, source + sep + "*"]
  {
    [exe, "a", "-t" + format] + MethodSwitches(format, level, solid, dictionary) + PasswordSwitch(password)
    + [output, source + sep + "*"]
  }

  /** The switches between the archive type and the output path. */
  function Switches(cmd: seq<string>): seq<string>
    requires |cmd| >= 5
  {
    cmd[3..|cmd| - 2]
  }

  lemma SwitchesOfCommand(exe: string, source: string, output: string, password: string, format: string,
                          level: int, solid: bool, dictionary: string, sep: string)
    ensures Switches(StandardCommand(exe, source, output, password, format, level, solid, dictionary, sep))
         == MethodSwitches(format, level, solid, dictionary) + PasswordSwitch(password)
  {
  }

  /** The password reaches 7-Zip exactly when it is non-empty, and no other
      switch looks like a password switch. */
  lemma PasswordOnlyWhenGiven(exe: string, source: string, output: string, password: string, format: string,
                              level: int, solid: bool, dictionary: string, sep: string)
    ensures var sw := Switches(StandardCommand(exe, source, output, password, format, level, solid, dictionary, sep));
      (forall i :: 0 <= i < |sw| && StartsWith(sw[i], "-p") ==> sw[i] == "-p" + password && password != "") &&
      (password != "" <==> "-p" + password in sw)
  {
    SwitchesOfCommand(exe, source, output, password, format, level, solid, dictionary, sep);
    var m := MethodSwitches(format, level, solid, dictionary);
    var sw := m + PasswordSwitch(password);
    forall i | 0 <= i < |sw|
      ensures StartsWith(sw[i], "-p") ==> sw[i] == "-p" + password && password != ""
      ensures password == "" ==> sw[i] != "-p" + password
    {
      if i < |m| {
        assert sw[i] == m[i];
        NotPasswordSwitch(m[i], password);
      } else {
        assert sw[i] == "-p" + password;
      }
    }
  }

  /** A method switch is never taken for a password switch. */
  lemma NotPasswordSwitch(s: string, password: string)
    requires StartsWith(s, "-m")
    ensures !StartsWith(s, "-p") && s != "-p" + password
  {
    assert s[1] == "-m"[1] == 'm';
    assert ("-p" + password)[1] == 'p';
  }

  /** The solid switch appears exactly for a solid 7z archive. */
  lemma SolidOnlyFor7z(exe: string, source: string, output: string, password: string, format: string,
                       level: int, solid: bool, dictionary: string, sep: string)
    ensures "-ms=on" in Switches(StandardCommand(exe, source, output, password, format, level, solid, dictionary, sep))
        <==> Lower(format) == "7z" && solid
  {
    SwitchesOfCommand(exe, source, output, password, format, level, solid, dictionary, sep);
    SolidSwitch(format, level, solid, dictionary);
    PasswordNotSolid(MethodSwitches(format, level, solid, dictionary), password);
  }

  /** The password switch is never the solid switch. */
  lemma PasswordNotSolid(m: seq<string>, password: string)
    ensures "-ms=on" in m + PasswordSwitch(password) <==> "-ms=on" in m
  {
    var sw := m + PasswordSwitch(password);
    forall i | |m| <= i < |sw| ensures sw[i] != "-ms=on" {
      assert sw[i][1] == 'p';
    }
  }

  /** The solid switch is among the method switches exactly for a solid 7z
      archive. */
  lemma SolidSwitch(format: string, level: int, solid: bool, dictionary: string)
    ensures "-ms=on" in MethodSwitches(format, level, solid, dictionary) <==> Lower(format) == "7z" && solid
  {
    var m := MethodSwitches(format, level, solid, dictionary);
    var x := "-mx=" + IntToString(level);
    assert x[2] == 'x';
    if Lower(format) == "7z" {
      var d := "-md=" + dictionary;
      var f := "-mfb=" + IntToString(FastBytes(level));
      assert d[2] == 'd' && f[2] == 'f';
      if solid {
        assert m == ["-m0=lzma2", x, d, "-ms=on", f];
      } else {
        assert m == ["-m0=lzma2", x, d, f];
      }
    } else if Lower(format) == "zip" {
      assert m == ["-m0=deflate", x];
    }
  }

  /** A 7z archive always gets a fast-bytes value between 32 and 64. */
  lemma FastBytesFor7z(exe: string, source: string, output: string, password: string, format: string,
                       level: int, solid: bool, dictionary: string, sep: string)
    requires Lower(format) == "7z"
    ensures var sw := Switches(StandardCommand(exe, source, output, password, format, level, solid, dictionary, sep));
      exists v :: 32 <= v <= 64 && "-mfb=" + IntToString(v) in sw
  {
    SwitchesOfCommand(exe, source, output, password, format, level, solid, dictionary, sep);
    var m := MethodSwitches(format, level, solid, dictionary);
    var v := FastBytes(level);
    assert m[|m| - 1] == "-mfb=" + IntToString(v);
    assert (m + PasswordSwitch(password))[|m| - 1] == m[|m| - 1];
  }

  /** What the outside world does during one `7z a` call: the process
      outcome, and the size of the output file afterwards (`None` when it
      does not exist). */
  datatype Command = NotRun | Exited(code: int)

  datatype Pack = Pack(run: Command, size: Option<nat>)

  /** The success test shared by both creation paths. */
  predicate Produced(p: Pack) { p.run == Exited(0) && p.size.Some? && p.size.value > 0 }

  /** Whether `os.makedirs(os.path.dirname(output), exist_ok=True)` returns:
      it raises for an empty directory name, otherwise the oracle decides. */
  predicate OutputDirReady(output: string, dirCreated: bool) { DirName(output) != "" && dirCreated }

  /** `_create_standard_archive`: the output directory must be creatable,
      then 7-Zip must exit with 0 and leave a non-empty output. */
  function Standard(output: string, dirCreated: bool, p: Pack): (r: bool)
    ensures r ==> Produced(p)
    ensures r ==> DirName(output) != "" && dirCreated
    ensures OutputDirReady(output, dirCreated) && Produced(p) ==> r
  {
    OutputDirReady(output, dirCreated) && Produced(p)
  }

  /** An output path without a directory part makes the directory creation
      raise, so nothing is packed whatever 7-Zip would do. */
  lemma BareOutputFails(name: string, dirCreated: bool, p: Pack)
    requires '/' !in name
    ensures !Standard(name, dirCreated, p)
  {
    LastIndexAbsent(name, '/');
    assert name[..0] == "";
  }

  // ------------------------------------------------------------ zst path

  /** The intermediate 7z file of the zst path. */
  function InnerName(output: string): string { StemOf(output) + ".7z" }

  /** The inner file is the output itself exactly when the output already
      ends in the extension `.7z`. */
  lemma InnerNameIsOutputIff(output: string)
    ensures InnerName(output) == output <==> SplitExt(output).1 == ".7z"
  {
    var (stem, ext) := SplitExt(output);
    if InnerName(output) == output {
      assert stem + ext == stem + ".7z";
      assert (stem + ext)[|stem|..] == ext;
      assert (stem + ".7z")[|stem|..] == ".7z";
    }
  }

  lemma ZstLiterals()
    ensures ".7z.zst" == ".7z" + ".zst"
    ensures ".zst"[0] == '.' && ".7z"[1] == '7'
    ensures '.' !in "zst" && '/' !in ".7z.zst"
  {
  }

  /** For the names the packer produces, `<head>.7z.zst`, the inner file is
      `<head>.7z.7z`. */
  lemma InnerOfZstOutput(head: string)
    ensures InnerName(head + ".7z.zst") == head + ".7z.7z"
  {
    ZstLiterals();
    var p := head + ".7z.zst";
    var n := |head|;
    assert p[n + 3] == '.' && p[n + 1] == '7';
    assert forall i :: n + 3 < i < |p| ==> p[i] == "zst"[i - n - 4];
    LastIndexAt(p, '.', n + 3);
    var sep := LastIndex(p, '/');
    assert forall i :: n <= i < |p| ==> p[i] == ".7z.zst"[i - n];
    assert sep < n;
    assert p[..n + 3] == head + ".7z";
  }

  /** The intermediate file lies in the output's directory. */
  lemma InnerNameSameDir(output: string)
    ensures DirName(InnerName(output)) == DirName(output)
  {
    var sep := LastIndex(output, '/');
    var stem := StemOf(output);
    assert |stem| >= sep + 1 && stem[..sep + 1] == output[..sep + 1] by {
      var dot := LastIndex(output, '.');
      assert stem == output || stem == output[..dot];
    }
    assert forall i :: sep < i < |stem| ==> stem[i] == output[i];
    DirNameOfExtension(output, stem + ".7z", sep);
  }

  /** Two paths that agree up to a `/` after which neither has one share
      their directory name. */
  lemma DirNameOfExtension(a: string, b: string, sep: int)
    requires sep == LastIndex(a, '/')
    requires sep < |b| && b[..sep + 1] == a[..sep + 1]
    requires forall i :: sep < i < |b| ==> b[i] != '/'
    ensures DirName(b) == DirName(a)
  {
    if sep >= 0 {
      assert b[sep] == a[sep];
      LastIndexAt(b, '/', sep);
    } else {
      assert '/' !in b;
      LastIndexAbsent(b, '/');
    }
  }

  /** The command of the outer zstd stage: no password switch. */
  function ZstCommand(exe: string, level: int, output: string, inner: string): (r: seq<string>)
    ensures |r| == 6 && r[4] == output && r[5] == inner
    ensures forall i :: 1 <= i < 4 ==> !StartsWith(r[i], "-p")
  {
    var x := "-mx=" + IntToString(level);
    assert x[1] == 'm' && "-tzstd"[1] == 't';
    [exe, "a", "-tzstd", x, output, inner]
  }

  /** How the zst path ended, and whether it tried to delete the inner file. */
  datatype ZstResult = ZstResult(ok: bool, inner: string, innerDeleted: bool)

  /** `_create_zst_archive`: the inner 7z archive is built by the standard
      path with the password; its removal is attempted after outer success
      and after an outer run that exited badly, but not when the inner stage
      failed nor when the outer run timed out or raised (that exception
      leaves by the outer handler). */
  function Zst(output: string, dirCreated: bool, inner: Pack, outer: Pack): (r: ZstResult)
    ensures r.inner == InnerName(output)
    ensures r.ok <==> OutputDirReady(output, dirCreated) && Produced(inner) && Produced(outer)
    ensures r.ok ==> r.innerDeleted
    ensures r.innerDeleted <==> OutputDirReady(output, dirCreated) && Produced(inner) && outer.run.Exited?
  {
    var name := InnerName(output);
    if !OutputDirReady(output, dirCreated) then ZstResult(false, name, false)
    else
      InnerNameSameDir(output);
      if !Standard(name, dirCreated, inner) then ZstResult(false, name, false)
      else if outer.run.NotRun? then ZstResult(false, name, false)
      else ZstResult(Produced(outer), name, true)
  }

  /** `create_archive`: the zst path for a zst format, the standard path
      otherwise. */
  function CreateArchive(format: string, output: string, dirCreated: bool, first: Pack, second: Pack): (r: bool)
    ensures IsZstFormat(format) ==> (r <==> Zst(output, dirCreated, first, second).ok)
    ensures !IsZstFormat(format) ==> (r <==> Standard(output, dirCreated, first))
  {
    if IsZstFormat(format) then Zst(output, dirCreated, first, second).ok
    else Standard(output, dirCreated, first)
  }

  /** A zst archive needs both 7-Zip runs to succeed; one good run packs
      any other format. */
  lemma ZstNeedsBothStages(output: string, dirCreated: bool, first: Pack, second: Pack)
    requires OutputDirReady(output, dirCreated) && Produced(first) && !Produced(second)
    ensures !CreateArchive("zst", output, dirCreated, first, second)
    ensures CreateArchive("7z", output, dirCreated, first, second)
  {
    assert Lower("zst") == "zst";
    assert Lower("7z") == "7z";
  }

  // ------------------------------------------------------- listing parser

  /** The file name `get_archive_info` takes from one listing line: from
      the sixth whitespace-separated field on, joined by single spaces. */
  function ListedName(line: string): (r: Option<string>)
    ensures r.Some? ==> r.value != "" && !StartsWith(r.value, "-")
  {
    if Strip(line) == "" || StartsWith(line, "---") || StartsWith(line, "7-Zip") then None
    else
      var parts := Words(line);
      if |parts| < 6 then None
      else
        var name := JoinWith(parts[5..], " ");
        if name != "" && !StartsWith(name, "-") then Some(name) else None
  }

  function ListedNames(lines: seq<string>): (r: seq<string>)
    ensures |r| <= |lines|
    ensures forall i :: 0 <= i < |r| ==> r[i] != "" && !StartsWith(r[i], "-")
  {
    if |lines| == 0 then []
    else
      var rest := ListedNames(lines[1..]);
      match ListedName(lines[0])
      case Some(n) => [n] + rest
      case None => rest
  }

  datatype Info = Info(totalFiles: nat, files: seq<string>)

  /** `get_archive_info`: a parse of the listing when 7-Zip exited with 0,
      otherwise `None`. */
  function ArchiveInfo(l: Listing): (r: Option<Info>)
    ensures r.Some? <==> l.Listed? && l.code == 0
    ensures r.Some? ==> r.value.totalFiles == |r.value.files|
  {
    if l.Listed? && l.code == 0 then
      var files := ListedNames(SplitOn(l.stdout, '\n'));
      Some(Info(|files|, files))
    else None
  }

  /** Whenever no password is needed the listing parses. */
  lemma NoPasswordMeansInfo(l: Listing)
    requires !PasswordRequired(l)
    ensures ArchiveInfo(l).Some?
  {
  }

  /** A word usable as a field of a listing line. */
  predicate IsField(w: string) { |w| > 0 && NoSpace(w) }

  /** A file row of a listing: five leading fields (date, time, attributes,
      size, compressed size) and the words of the name. A row starting with
      `-` or `7` is not one of these. */
  datatype Row = Row(fields: seq<string>, name: seq<string>)

  predicate WellFormed(row: Row) {
    |row.fields| == 5 && |row.name| > 0 &&
    (forall i :: 0 <= i < 5 ==> IsField(row.fields[i])) &&
    (forall i :: 0 <= i < |row.name| ==> IsField(row.name[i])) &&
    row.fields[0][0] != '-' && row.fields[0][0] != '7' && row.name[0][0] != '-'
  }

  function RowLine(row: Row): string { JoinWith(row.fields + row.name, " ") }

  function RowName(row: Row): string { JoinWith(row.name, " ") }

  /** A row's line gives back the row's name. */
  lemma ListedNameRoundTrip(row: Row)
    requires WellFormed(row)
    ensures ListedName(RowLine(row)) == Some(RowName(row))
  {
    var ws := row.fields + row.name;
    var line := RowLine(row);
    assert forall i :: 0 <= i < |ws| ==> IsField(ws[i]);
    WordsOfJoin(ws);
    assert Words(line)[5..] == row.name;
    LineStart(ws, row.fields[0]);
    NameStart(row.name);
  }

  /** The line starts with the first character of the first field, which
      is not a space; so it is not blank and has neither banned prefix. */
  lemma LineStart(ws: seq<string>, w: string)
    requires |ws| > 0 && ws[0] == w && IsField(w) && w[0] != '-' && w[0] != '7'
    ensures Strip(JoinWith(ws, " ")) != ""
    ensures !StartsWith(JoinWith(ws, " "), "---") && !StartsWith(JoinWith(ws, " "), "7-Zip")
  {
    JoinStartsWithFirst(ws, " ");
    FirstCharFacts(JoinWith(ws, " "), w);
  }

  lemma FirstCharFacts(line: string, w: string)
    requires IsField(w) && StartsWith(line, w) && w[0] != '-' && w[0] != '7'
    ensures Strip(line) != ""
    ensures !StartsWith(line, "---") && !StartsWith(line, "7-Zip")
  {
    assert line[0] == line[..|w|][0] == w[0];
    assert !IsSpace(w[0]);
    StripOfWordStart(line);
    assert |line| < 3 || line[..3][0] != "---"[0];
    assert |line| < 5 || line[..5][0] != "7-Zip"[0];
  }

  /** A joined name is non-empty and starts like its first word. */
  lemma NameStart(name: seq<string>)
    requires |name| > 0 && IsField(name[0]) && name[0][0] != '-'
    ensures JoinWith(name, " ") != "" && !StartsWith(JoinWith(name, " "), "-")
  {
    JoinStartsWithFirst(name, " ");
    assert JoinWith(name, " ")[0] == name[0][0];
  }

  /** A joined list starts with its first part. */
  lemma JoinStartsWithFirst(ws: seq<string>, sep: string)
    requires |ws| > 0
    ensures StartsWith(JoinWith(ws, sep), ws[0])
  {
    if |ws| > 1 {
      assert JoinWith(ws, sep) == ws[0] + (sep + JoinWith(ws[1..], sep));
    }
  }

  /** A non-space first character survives `strip()`. */
  lemma StripOfWordStart(s: string)
    requires |s| > 0 && !IsSpace(s[0])
    ensures Strip(s) != ""
  {
    assert StripStart(s) == 0;
    assert s[0..] == s;
  }

  function RowLines(rows: seq<Row>): seq<string> {
    if |rows| == 0 then [] else [RowLine(rows[0])] + RowLines(rows[1..])
  }

  function RowNames(rows: seq<Row>): seq<string> {
    if |rows| == 0 then [] else [RowName(rows[0])] + RowNames(rows[1..])
  }

  /** Rows listed one per line give back every name, in order. */
  lemma {:induction false} ListingRoundTrip(rows: seq<Row>)
    requires forall i :: 0 <= i < |rows| ==> WellFormed(rows[i])
    ensures ListedNames(RowLines(rows)) == RowNames(rows)
    decreases |rows|
  {
    if |rows| > 0 {
      ListedNameRoundTrip(rows[0]);
      ListingRoundTrip(rows[1..]);
      assert RowLines(rows)[1..] == RowLines(rows[1..]);
    }
  }

  /** A successful listing made of such rows reports exactly their names. */
  lemma ArchiveInfoRoundTrip(rows: seq<Row>, stderr: string)
    requires forall i :: 0 <= i < |rows| ==> WellFormed(rows[i])
    ensures ArchiveInfo(Listed(0, JoinWith(RowLines(rows), "\n"), stderr)) == Some(Info(|rows|, RowNames(rows)))
  {
    if |rows| == 0 {
      EmptyListing(stderr);
    } else {
      RowLinesShape(rows);
      SplitJoin(RowLines(rows), '\n');
      ListingRoundTrip(rows);
      RowNamesLength(rows);
    }
  }

  /** An empty successful listing reports no files. */
  lemma EmptyListing(stderr: string)
    ensures ArchiveInfo(Listed(0, JoinWith([], "\n"), stderr)) == Some(Info(0, []))
  {
    assert JoinWith([], "\n") == "";
    assert SplitOn("", '\n') == [""];
    assert Strip("") == "";
  }

  lemma {:induction false} RowLinesShape(rows: seq<Row>)
    requires forall i :: 0 <= i < |rows| ==> WellFormed(rows[i])
    ensures |RowLines(rows)| == |rows|
    ensures forall i :: 0 <= i < |rows| ==> '\n' !in RowLines(rows)[i]
    decreases |rows|
  {
    if |rows| > 0 {
      RowLinesShape(rows[1..]);
      var ws := rows[0].fields + rows[0].name;
      assert forall i :: 0 <= i < |ws| ==> IsField(ws[i]);
      JoinHasNoNewline(ws);
    }
  }

  lemma {:induction false} RowNamesLength(rows: seq<Row>)
    ensures |RowNames(rows)| == |rows|
    decreases |rows|
  {
    if |rows| > 0 {
      RowNamesLength(rows[1..]);
    }
  }

  /** Fields joined by spaces contain no line break. */
  lemma {:induction false} JoinHasNoNewline(ws: seq<string>)
    requires forall i :: 0 <= i < |ws| ==> IsField(ws[i])
    ensures '\n' !in JoinWith(ws, " ")
    decreases |ws|
  {
    if |ws| > 1 {
      JoinHasNoNewline(ws[1..]);
      assert JoinWith(ws, " ") == ws[0] + " " + JoinWith(ws[1..], " ");
      assert '\n' !in ws[0] by {
        assert forall k :: 0 <= k < |ws[0]| ==> !IsSpace(ws[0][k]);
      }
    } else if |ws| == 1 {
      assert forall k :: 0 <= k < |ws[0]| ==> !IsSpace(ws[0][k]);
    }
  }

  /** 7-Zip's column header has six fields, so it is counted as a file
      called "Name". */
  lemma HeaderCountedAsFile()
    ensures ListedName(RowLine(Row(["Date", "Time", "Attr", "Size", "Compressed"], ["Name"]))) == Some("Name")
  {
    var row := Row(["Date", "Time", "Attr", "Size", "Compressed"], ["Name"]);
    assert forall i :: 0 <= i < 5 ==> IsField(row.fields[i]);
    assert IsField("Name");
    ListedNameRoundTrip(row);
  }
}

=== FILE: image_encode.dfy ===
/** Re-encoding of the staged images (image_processor.py `compress_images`
    and `is_image_file`): which files are converted, into which format and
    path, the AVIF quality mapping, and the success/failure accounting.
    FFmpeg and the filesystem are an oracle: one outcome per selected file. */
module ImageEncode {
  import opened Wrappers
  import opened Strings
  import opened Paths

  /** The suffixes `compress_images` converts; GIF, WebP and AVIF are not
      among them. */
  const ReencodeExtensions: set<string> := {".jpg", ".jpeg", ".png", ".bmp", ".tiff", ".heic", ".heif"}

  /** The suffixes `is_image_file` accepts. */
  const ImageFileExtensions: set<string> := {".jpg", ".jpeg", ".png", ".gif", ".bmp", ".tiff", ".webp", ".heic", ".heif"}

  predicate IsImageFile(p: string) { Ext(p) in ImageFileExtensions }

  /** Every file that is converted is an image file, and GIFs are not
      converted. */
  lemma ReencodedAreImages(p: string)
    requires Ext(p) in ReencodeExtensions
    ensures IsImageFile(p)
    ensures Ext(p) != ".gif" && Ext(p) != ".webp" && Ext(p) != ".avif"
  {
  }

  /** The walked files to convert, in walk order. */
  function Selected(files: seq<string>): (r: seq<string>)
    ensures forall f :: f in r <==> f in files && Ext(f) in ReencodeExtensions
    ensures forall f :: multiset(r)[f] == if Ext(f) in ReencodeExtensions then multiset(files)[f] else 0
    ensures |r| <= |files|
  {
    if |files| == 0 then []
    else
      var rest := Selected(files[1..]);
      assert forall f :: f in files <==> f == files[0] || f in files[1..];
      SelectedCountStep(files, rest);
      if Ext(files[0]) in ReencodeExtensions then [files[0]] + rest else rest
  }

  /** One step of `Selected`'s count clause: the head is counted once when kept. */
  lemma SelectedCountStep(files: seq<string>, rest: seq<string>)
    requires |files| > 0
    requires forall f :: multiset(rest)[f] == if Ext(f) in ReencodeExtensions then multiset(files[1..])[f] else 0
    ensures forall f ::
      multiset(if Ext(files[0]) in ReencodeExtensions then [files[0]] + rest else rest)[f]
      == if Ext(f) in ReencodeExtensions then multiset(files)[f] else 0
  {
    assert files == [files[0]] + files[1..];
    assert multiset(files) == multiset{files[0]} + multiset(files[1..]);
    assert multiset([files[0]] + rest) == multiset{files[0]} + multiset(rest);
  }

  /** The selection keeps walk order: selecting from two runs of files is
      selecting from the first, then from the second. */
  lemma {:induction false} SelectedConcat(a: seq<string>, b: seq<string>)
    ensures Selected(a + b) == Selected(a) + Selected(b)
    decreases |a|
  {
    if |a| == 0 {
      assert a + b == b;
    } else {
      assert (a + b)[0] == a[0] && (a + b)[1..] == a[1..] + b;
      SelectedConcat(a[1..], b);
    }
  }

  /** A single file is selected on its own iff its suffix qualifies. */
  lemma SelectedOne(f: string)
    ensures Selected([f]) == if Ext(f) in ReencodeExtensions then [f] else []
  {
    assert [f][1..] == [];
  }

  /** The configured format, lower-cased, when it is `webp` or `avif`;
      `webp` otherwise. */
  function OutputFormat(configured: string): (r: string)
    ensures r == "webp" || r == "avif"
    ensures Lower(configured) == "avif" <==> r == "avif"
  {
    var f := Lower(configured);
    if f == "webp" || f == "avif" then f else "webp"
  }

  /** `os.path.splitext(path)[0] + '.' + format`. */
  function OutputPath(p: string, format: string): string { StemOf(p) + "." + format }

  lemma FormatSuffixShape(format: string)
    requires format == "webp" || format == "avif"
    ensures var e := "." + format; |e| >= 2 && e[0] == '.' && '.' !in e[1..] && '/' !in e
    ensures Lower("." + format) == "." + format
  {
  }

  /** The suffix of an output is the format's, or nothing when the stem's
      last component is empty. */
  lemma OutputSuffix(p: string, format: string)
    requires format == "webp" || format == "avif"
    ensures Ext(OutputPath(p, format)) == (if BaseName(StemOf(p)) == "" then "" else "." + format)
  {
    var e := "." + format;
    var o := OutputPath(p, format);
    FormatSuffixShape(format);
    assert o == StemOf(p) + e;
    SuffixOfExtended(StemOf(p), e);
    assert Ext(o) == Lower(PathSuffix(o));
    LowerEmpty();
  }

  lemma LowerEmpty()
    ensures Lower("") == ""
  {
  }

  /** A converted file never shares its path with its output, so removing
      the source after a good conversion never removes the output. */
  lemma OutputIsNotSource(p: string, format: string)
    requires Ext(p) in ReencodeExtensions
    requires format == "webp" || format == "avif"
    ensures OutputPath(p, format) != p
  {
    OutputNotReencoded(p, format);
    DifferentExt(p, OutputPath(p, format));
  }

  lemma OutputNotReencoded(p: string, format: string)
    requires format == "webp" || format == "avif"
    ensures Ext(OutputPath(p, format)) !in ReencodeExtensions
  {
    OutputSuffix(p, format);
    var e := Ext(OutputPath(p, format));
    DotFormat(format);
    assert e == "" || e == "." + format;
    NotReencoded(e);
  }

  lemma DotFormat(format: string)
    requires format == "webp" || format == "avif"
    ensures "." + format == ".webp" || "." + format == ".avif"
  {
  }

  lemma DifferentExt(p: string, o: string)
    requires Ext(p) != Ext(o)
    ensures p != o
  {
  }

  lemma NotReencoded(e: string)
    requires e == "" || e == ".webp" || e == ".avif"
    ensures e !in ReencodeExtensions
  {
  }

  /** Two images that differ only in their suffix share one output path;
      FFmpeg's `-y` then overwrites the first conversion with the second,
      after the first source was already removed. */
  lemma SiblingsShareOutput()
    ensures OutputPath("d/a.png", "webp") == OutputPath("d/a.jpg", "webp") == "d/a.webp"
  {
    StemOfSibling("d/a.png");
    StemOfSibling("d/a.jpg");
  }

  lemma StemOfSibling(p: string)
    requires p == "d/a.png" || p == "d/a.jpg"
    ensures StemOf(p) == "d/a"
  {
    LastIndexAt(p, '/', 1);
    LastIndexAt(p, '.', 3);
    assert p[2] != '.';
    assert p[..3] == "d/a";
  }

  /** Python's `int(x)` on a quotient: truncation toward zero. */
  function TruncDiv(a: int, b: int): int
    requires b > 0
  {
    if a >= 0 then a / b else -((-a) / b)
  }

  /** The AVIF `-crf` value `int((100 - quality) * 63 / 100)`. For
      quality values of ordinary size the float quotient never rounds across
      an integer, so truncating it agrees with integer truncation. */
  function Crf(quality: int): (r: int)
    ensures 0 <= quality <= 100 ==> 0 <= r <= 63
    ensures quality == 100 ==> r == 0
    ensures quality == 0 ==> r == 63
    ensures quality > 100 ==> r <= 0
  {
    TruncDiv((100 - quality) * 63, 100)
  }

  /** A higher quality never gives a larger crf (a lower crf is better). */
  lemma CrfMonotone(q1: int, q2: int)
    requires q1 <= q2
    ensures Crf(q2) <= Crf(q1)
  {
    var a1 := (100 - q1) * 63;
    var a2 := (100 - q2) * 63;
    assert a2 <= a1;
    if a2 >= 0 {
      DivMonotone(a2, a1);
    } else if a1 >= 0 {
      assert Crf(q2) <= 0 <= Crf(q1);
    } else {
      DivMonotone(-a1, -a2);
    }
  }

  lemma DivMonotone(x: int, y: int)
    requires 0 <= x <= y
    ensures x / 100 <= y / 100
  {
  }

  /** A quality just past 100 gives a negative crf, which FFmpeg rejects. */
  lemma CrfBelowRange()
    ensures Crf(102) == -1
  {
  }

  /** The codec switches of the FFmpeg command. */
  function FormatSwitches(format: string, quality: int): seq<string> {
    if format == "webp" then ["-q:v", IntToString(quality), "-compression_level", "6"]
    else if format == "avif" then ["-c:v", "libaom-av1", "-crf", IntToString(Crf(quality)), "-cpu-used", "8", "-row-mt", "1"]
    else []
  }

  /** The FFmpeg command for one image: input, scale filter, codec switches,
      overwrite flag and output. */
  function EncodeCommand(ffmpeg: string, input: string, scale: string, format: string, quality: int): (r: seq<string>)
    ensures |r| >= 7 && r[2] == input && r[|r| - 1] == OutputPath(input, format) && r[|r| - 2] == "-y"
  {
    [ffmpeg, "-i", input, "-vf", scale] + FormatSwitches(format, quality) + ["-y", OutputPath(input, format)]
  }

  /** What happened to one selected file: it was gone before its turn,
      FFmpeg timed out or raised, or FFmpeg exited with a code, leaving an
      output of some size (`None`: no output), after which removing the
      source succeeded or raised. */
  datatype Outcome = Vanished | Crashed | Finished(code: int, outputSize: Option<nat>, sourceRemoved: bool)

  /** How `compress_images` books one file. */
  datatype Booked = Skipped | Compressed | Failed

  /** A good conversion needs exit code 0, a non-empty output, and a
      successful removal of the source; a removal that raises lands in the
      generic handler and counts as a failure. */
  function Book(o: Outcome): (b: Booked)
    ensures b == Skipped <==> o == Vanished
    ensures b == Compressed <==> o.Finished? && o.code == 0 && o.outputSize.Some? && o.outputSize.value > 0 && o.sourceRemoved
  {
    match o
    case Vanished => Skipped
    case Crashed => Failed
    case Finished(code, size, removed) =>
      if code == 0 && size.Some? && size.value > 0 && removed then Compressed else Failed
  }

  /** Which of source and output remain after one file, worked out from
      the filesystem steps rather than from the booking: a successful check
      removes the source; every failure path (a failed check, a timeout, an
      exception, including a source removal that raises) removes the output
      if it exists and leaves the source. Only this file's own source and
      output are followed: a sibling converted to the same output path is
      outside this account. */
  function Leaves(o: Outcome): (r: (bool, bool))
  {
    match o
    case Vanished => (false, false)
    case Crashed => (true, false)
    case Finished(code, size, removed) =>
      var checked := code == 0 && size.Some? && size.value > 0;
      var sourceGone := checked && removed;
      var outputMade := size.Some?;
      (!sourceGone, outputMade && sourceGone)
  }

  /** Exactly one of source and output remains for every processed file,
      and the output is the one kept exactly when the file is booked as
      compressed. */
  lemma OneCopyKept(o: Outcome)
    requires o != Vanished
    ensures Leaves(o).0 != Leaves(o).1
    ensures Leaves(o).1 <==> Book(o) == Compressed
  {
  }

  /** The two counters of `compress_images`. */
  datatype Counts = Counts(compressed: nat, failed: nat)

  function CountBooked(os: seq<Outcome>, b: Booked): nat {
    if |os| == 0 then 0 else (if Book(os[0]) == b then 1 else 0) + CountBooked(os[1..], b)
  }

  /** The loop over the selected files. */
  function Tally(os: seq<Outcome>): (r: Counts)
    ensures r.compressed == CountBooked(os, Compressed)
    ensures r.failed == CountBooked(os, Failed)
    ensures r.compressed + r.failed + CountBooked(os, Skipped) == |os|
  {
    if |os| == 0 then Counts(0, 0)
    else
      var c := Tally(os[1..]);
      match Book(os[0])
      case Skipped => c
      case Compressed => c.(compressed := c.compressed + 1)
      case Failed => c.(failed := c.failed + 1)
  }

  /** `compress_images`: nothing to do gives (0, 0); otherwise one outcome
      per selected file, in order. */
  function CompressImages(files: seq<string>, outcomes: seq<Outcome>): (r: Counts)
    requires |outcomes| == |Selected(files)|
    ensures r.compressed + r.failed <= |Selected(files)|
    ensures |Selected(files)| == 0 ==> r == Counts(0, 0)
    ensures r.compressed + r.failed == |Selected(files)| - CountBooked(outcomes, Skipped)
  {
    if |Selected(files)| == 0 then Counts(0, 0) else Tally(outcomes)
  }

  /** Files that vanish are not counted at all. */
  lemma VanishedUncounted(files: seq<string>, outcomes: seq<Outcome>)
    requires |outcomes| == |Selected(files)|
    requires forall i :: 0 <= i < |outcomes| ==> outcomes[i] == Vanished
    ensures CompressImages(files, outcomes) == Counts(0, 0)
  {
    AllSkipped(outcomes);
  }

  lemma {:induction false} AllSkipped(os: seq<Outcome>)
    requires forall i :: 0 <= i < |os| ==> os[i] == Vanished
    ensures Tally(os) == Counts(0, 0)
    decreases |os|
  {
    if |os| > 0 {
      AllSkipped(os[1..]);
    }
  }
}

=== FILE: junk.dfy ===
/** Removal of leftover files after extraction (`_clean_unwanted_files` in
    file_processor.py). A directory is the list of paths a walk yields. */
module Junk {
  import opened Strings
  import opened Paths

  const JunkExtensions: set<string> := {".html", ".htm", ".txt", ".url", ".lnk", ".nfo", ".diz"}
  const JunkNames: set<string> := {"ewm", "thumbs.db", ".ds_store"}

  /** A file `_clean_unwanted_files` deletes, judged by its name alone. */
  predicate IsJunk(name: string) {
    || Lower(Suffix(name)) in JunkExtensions
    || StartsWith(Lower(name), "ewm")
    || Lower(name) in JunkNames
  }

  /** The files left after the junk pass over the walk's paths; `stuck` holds
      the paths whose removal raises, which the pass ignores. */
  function CleanUnwanted(files: seq<string>, stuck: set<string>): (r: seq<string>)
    ensures forall f :: f in r <==> f in files && (!IsJunk(BaseName(f)) || f in stuck)
    ensures |r| <= |files|
    decreases |files|
  {
    if |files| == 0 then []
    else
      var rest := CleanUnwanted(files[1..], stuck);
      if IsJunk(BaseName(files[0])) && files[0] !in stuck then rest else [files[0]] + rest
  }

  /** A second pass finds nothing more to delete. */
  lemma {:induction false} CleanUnwantedIdempotent(files: seq<string>, stuck: set<string>)
    ensures CleanUnwanted(CleanUnwanted(files, stuck), stuck) == CleanUnwanted(files, stuck)
    decreases |files|
  {
    if |files| > 0 {
      var rest := CleanUnwanted(files[1..], stuck);
      CleanUnwantedIdempotent(files[1..], stuck);
      if !(IsJunk(BaseName(files[0])) && files[0] !in stuck) {
        assert ([files[0]] + rest)[1..] == rest;
      }
    }
  }

  /** A junk extension in any letter case after a non-empty stem makes a
      file junk. */
  lemma JunkBySuffix(h: string, e: string)
    requires |h| > 0 && |e| >= 2 && e[0] == '.' && '.' !in e[1..]
    requires Lower(e) in JunkExtensions
    ensures IsJunk(h + e)
  {
    SuffixOfName(h, e);
  }

  /** A name beginning with `ewm` in any letter case is junk, whatever
      follows. */
  lemma JunkByPrefix(n: string)
    requires |n| >= 3 && Lower(n[..3]) == "ewm"
    ensures IsJunk(n)
  {
    assert Lower(n)[..3] == Lower(n[..3]);
  }

  /** The suffix test needs a dot that is not the first character: a name
      made of a dot and a dot-free rest, such as `.txt`, has no suffix and
      is kept unless it is one of the junk names. */
  lemma DotFileKept(x: string)
    requires '.' !in x && Lower("." + x) !in JunkNames
    ensures !IsJunk("." + x)
  {
    var n := "." + x;
    assert forall i :: 0 < i < |n| ==> n[i] == x[i - 1];
    LastIndexAt(n, '.', 0);
    assert Lower(n)[0] == '.';
  }
}

=== FILE: media.dfy ===
/** How file_processor.py classifies a staged file: images and videos by
    their lower-cased suffix, shared by the rename and the title statistics. */
module Media {
  import opened Strings
  import opened Paths

  /** The image extensions of the rename and of the title statistics. */
  const ImageExtensions: set<string> := {".jpg", ".jpeg", ".png", ".webp", ".bmp", ".tiff", ".gif"}
  const VideoExtensions: set<string> := {".mp4", ".avi", ".mov", ".mkv", ".flv", ".wmv", ".3gp", ".m4v"}

  /** How the rename and the title statistics classify a file. */
  datatype Kind = Image | Video | Other

  function KindOf(p: string): (k: Kind)
    ensures k == Image <==> Ext(p) in ImageExtensions
    ensures k == Video <==> Ext(p) in VideoExtensions
  {
    var e := Ext(p);
    if e in ImageExtensions then Image else if e in VideoExtensions then Video else Other
  }

  /** Number of files of kind `k` in `s`. */
  function CountKind(classify: string -> Kind, k: Kind, s: seq<string>): nat
    decreases |s|
  {
    if |s| == 0 then 0 else (if classify(s[0]) == k then 1 else 0) + CountKind(classify, k, s[1..])
  }
}

=== FILE: name_cleaner.dfy ===
/** The title normaliser `FileNameCleaner.clean_filename` and `is_archive_file`
    of utils.py.

    Each regular-expression rewrite is modelled as a `Pattern` whose
    `MatchLen` gives the length of the leftmost match at the start of a string
    (0 when there is none; no pattern here can match the empty string), and
    `ReplaceAll` is Python's `re.sub` scan: try at the current position, on a
    match emit the replacement and continue after it, otherwise copy one
    character and move on. */
module NameCleaner {
  import opened Seqs
  import opened Strings
  import opened Paths

  datatype Pattern =
    | CountMarker                       // \d+P\d*V?
    | PageMarker                        // P\d+
    | SizeWithUnit                      // \d+(?:\.\d+)?\s*(?:KB|MB|GB|TB)\b   (ignoring case)
    | SizeBytes                         // \d+(?:\.\d+)?\s*[MGT]?B\b           (ignoring case)
    | UnderscoreSize                    // _\d+[MGT]?B_?                        (ignoring case)
    | LeadingSize                       // ^\d+[MGT]?B\b                        (ignoring case)
    | Bracketed(open: char, close: char) // \[[^\]]*\] and its full-width variants
    | NumberedWord                      // \d+_[A-Za-z0-9一-鿿]+
    | Whitespace                        // \s+

  // ------------------------------------------------------------ char classes

  /** `[_\s-]`: what may follow a release index, and what is trimmed off the end. */
  predicate IsSeparator(c: char) { c == '_' || c == '-' || IsSpace(c) }

  /** `[A-Za-z0-9一-鿿]` */
  predicate IsTagChar(c: char) { IsAsciiLetter(c) || IsDigit(c) || IsCjk(c) }

  /** `[MGT]` ignoring case. */
  predicate IsSizeLetter(c: char) { LowerChar(c) == 'm' || LowerChar(c) == 'g' || LowerChar(c) == 't' }

  /** `B` ignoring case. */
  predicate IsByteLetter(c: char) { LowerChar(c) == 'b' }

  /** The full-width parentheses and CJK brackets step 7 preserves. */
  const FullWidthMarks: string := ['\U{FF08}', '\U{FF09}', '\U{3010}', '\U{3011}', '\U{300C}', '\U{300D}', '\U{300E}', '\U{300F}']

  /** Complement of step 7's class `[^\w\s一-鿿\-\(\)\[\]（）【】「」『』]`. */
  predicate Kept(c: char) {
    IsWordChar(c) || IsSpace(c) || IsCjk(c) || c in "-()[]" || c in FullWidthMarks
  }

  predicate AllKept(s: string) { forall i :: 0 <= i < |s| ==> Kept(s[i]) }

  /** `\b` at position `k` when the character before it is a word character. */
  predicate WordEndsAt(s: string, k: nat) { k >= |s| || !IsWordChar(s[k]) }

  // ----------------------------------------------------------------- matching

  /** `\d+(?:\.\d+)?` at the start of `s`; greedy, and no backtracking can help
      the rest of the size patterns because a digit or a dot never starts them. */
  function NumberLen(s: string): (n: nat)
    ensures n <= |s|
    ensures n > 0 ==> IsDigit(s[0])
  {
    var d := Span(s, IsDigit);
    if d > 0 && d + 1 < |s| && s[d] == '.' && IsDigit(s[d + 1]) then d + 1 + Span(s[d + 1..], IsDigit)
    else d
  }

  /** `[MGT]?B`, followed by `\b` when `bounded`, at position `k`; its length or 0. */
  function UnitLen(s: string, k: nat, bounded: bool): (n: nat)
    ensures n <= 2 && (n > 0 ==> k + n <= |s|)
  {
    if k + 1 < |s| && IsSizeLetter(s[k]) && IsByteLetter(s[k + 1]) && (!bounded || WordEndsAt(s, k + 2)) then 2
    else if k < |s| && IsByteLetter(s[k]) && (!bounded || WordEndsAt(s, k + 1)) then 1
    else 0
  }

  /** `(?:KB|MB|GB|TB)\b` at position `k`, ignoring case; its length or 0. */
  function UnitWordLen(s: string, k: nat): (n: nat)
    ensures n == 0 || (n == 2 && k + 2 <= |s|)
  {
    if k + 1 < |s| && (LowerChar(s[k]) == 'k' || IsSizeLetter(s[k])) && IsByteLetter(s[k + 1]) && WordEndsAt(s, k + 2) then 2
    else 0
  }

  /** The characters a match of `p` can begin with. */
  predicate CanStart(p: Pattern, c: char) {
    match p
    case PageMarker => c == 'P'
    case UnderscoreSize => c == '_'
    case Bracketed(o, _) => c == o
    case Whitespace => IsSpace(c)
    case _ => IsDigit(c)
  }

  /** Length of the match of `p` at the start of `s`, or 0 for no match. */
  function MatchLen(p: Pattern, s: string): (n: nat)
    ensures n <= |s|
    ensures n > 0 ==> CanStart(p, s[0])
    ensures p.Bracketed? && n > 0 ==> n >= 2 && s[0] == p.open && s[n - 1] == p.close && p.close !in s[1..n - 1]
  {
    match p
    case CountMarker =>
      var d := Span(s, IsDigit);
      if d == 0 || d >= |s| || s[d] != 'P' then 0
      else
        var e := d + 1 + Span(s[d + 1..], IsDigit);
        if e < |s| && s[e] == 'V' then e + 1 else e
    case PageMarker =>
      if |s| == 0 || s[0] != 'P' then 0
      else
        var d := Span(s[1..], IsDigit);
        if d == 0 then 0 else 1 + d
    case SizeWithUnit =>
      var n := NumberLen(s);
      if n == 0 then 0
      else
        var w := n + Span(s[n..], IsSpace);
        var u := UnitWordLen(s, w);
        if u == 0 then 0 else w + u
    case SizeBytes =>
      var n := NumberLen(s);
      if n == 0 then 0
      else
        var w := n + Span(s[n..], IsSpace);
        var u := UnitLen(s, w, true);
        if u == 0 then 0 else w + u
    case UnderscoreSize =>
      if |s| == 0 || s[0] != '_' then 0
      else
        var d := Span(s[1..], IsDigit);
        var u := UnitLen(s, 1 + d, false);
        if d == 0 || u == 0 then 0
        else
          var e := 1 + d + u;
          if e < |s| && s[e] == '_' then e + 1 else e
    case LeadingSize =>
      var d := Span(s, IsDigit);
      var u := UnitLen(s, d, true);
      if d == 0 || u == 0 then 0 else d + u
    case Bracketed(o, c) =>
      if |s| == 0 || s[0] != o then 0
      else
        var k := IndexOf(s[1..], c);
        if k == |s| - 1 then 0
        else
          assert s[1..][..k] == s[1..k + 1];
          k + 2
    case NumberedWord =>
      var d := Span(s, IsDigit);
      if d == 0 || d >= |s| || s[d] != '_' then 0
      else
        var m := Span(s[d + 1..], IsTagChar);
        if m == 0 then 0 else d + 1 + m
    case Whitespace =>
      Span(s, IsSpace)
  }

  /** Python's `re.sub(p, rep, s)`. */
  function ReplaceAll(p: Pattern, s: string, rep: string): string
    decreases |s|
  {
    if |s| == 0 then ""
    else
      var n := MatchLen(p, s);
      if n > 0 then rep + ReplaceAll(p, s[n..], rep)
      else [s[0]] + ReplaceAll(p, s[1..], rep)
  }

  /** `re.sub` of a pattern anchored with `^`: at most one match, at the start. */
  function RemoveAtStart(p: Pattern, s: string): string {
    var n := MatchLen(p, s);
    if n > 0 then s[n..] else s
  }

  // -------------------------------------------------------------- the steps

  /** Step 1, `re.sub(r'^\d+[_\s-]+', '', s)`: drop a release index. */
  function StripReleaseIndex(s: string): (r: string)
    ensures EndsWith(s, r)
  {
    var d := Span(s, IsDigit);
    var m := Span(s[d..], IsSeparator);
    if d > 0 && m > 0 then s[d + m..] else s
  }

  /** A release index: one or more digits, then one or more separators. */
  ghost predicate IsReleaseIndex(t: string) {
    exists k :: 0 < k < |t| && AllDigits(t[..k]) && forall i :: k <= i < |t| ==> IsSeparator(t[i])
  }

  /** The name begins with digits immediately followed by a separator. */
  ghost predicate BeginsWithReleaseIndex(s: string) {
    exists k :: 0 < k < |s| && AllDigits(s[..k]) && IsSeparator(s[k])
  }

  /** Step 1 removes exactly one leading release index, with its whole
      separator run, when the name begins with one, and nothing otherwise. */
  lemma ReleaseIndexRemoved(s: string)
    ensures var r := StripReleaseIndex(s);
      && (BeginsWithReleaseIndex(s) <==> r != s)
      && (r != s ==> IsReleaseIndex(s[..|s| - |r|]) && (|r| == 0 || !IsSeparator(r[0])))
  {
    var d := Span(s, IsDigit);
    var m := Span(s[d..], IsSeparator);
    if d > 0 && m > 0 {
      ReleaseIndexPresent(s, d, m);
    } else {
      ReleaseIndexAbsent(s, d, m);
    }
  }

  lemma ReleaseIndexPresent(s: string, d: nat, m: nat)
    requires d == Span(s, IsDigit) && m == Span(s[d..], IsSeparator)
    requires d > 0 && m > 0
    ensures var r := StripReleaseIndex(s);
      && BeginsWithReleaseIndex(s) && r != s
      && IsReleaseIndex(s[..|s| - |r|]) && (|r| == 0 || !IsSeparator(r[0]))
  {
    ReleaseIndexStripped(s, d, m);
    var r := StripReleaseIndex(s);
    assert BeginsWithReleaseIndex(s) by {
      ReleaseIndexBegins(s, d, m);
    }
    assert r != s && IsReleaseIndex(s[..|s| - |r|]) && (|r| == 0 || !IsSeparator(r[0])) by {
      DroppedIndex(s, d, m);
    }
  }

  /** What is left after a found release index. */
  lemma DroppedIndex(s: string, d: nat, m: nat)
    requires d == Span(s, IsDigit) && m == Span(s[d..], IsSeparator)
    requires d > 0 && m > 0 && d + m <= |s|
    ensures var r := s[d + m..];
      && r != s && IsReleaseIndex(s[..|s| - |r|]) && (|r| == 0 || !IsSeparator(r[0]))
  {
    ReleaseIndexFound(s, d, m);
    DropIndex(s, d + m);
  }

  lemma ReleaseIndexStripped(s: string, d: nat, m: nat)
    requires d == Span(s, IsDigit) && m == Span(s[d..], IsSeparator)
    requires d > 0 && m > 0
    ensures d + m <= |s| && StripReleaseIndex(s) == s[d + m..]
  {
    assert m <= |s[d..]|;
  }

  /** Dropping a release index `s[..k]` that a non-separator follows. */
  lemma DropIndex(s: string, k: nat)
    requires 0 < k <= |s| && IsReleaseIndex(s[..k]) && (k == |s| || !IsSeparator(s[k]))
    ensures var r := s[k..];
      && r != s && IsReleaseIndex(s[..|s| - |r|]) && (|r| == 0 || !IsSeparator(r[0]))
  {
    var r := s[k..];
    assert |s| - |r| == k;
    assert |r| > 0 ==> r[0] == s[k];
  }

  lemma ReleaseIndexAbsent(s: string, d: nat, m: nat)
    requires d == Span(s, IsDigit) && m == Span(s[d..], IsSeparator)
    requires !(d > 0 && m > 0)
    ensures !BeginsWithReleaseIndex(s) && StripReleaseIndex(s) == s
  {
    if BeginsWithReleaseIndex(s) {
      ReleaseIndexSpans(s);
    }
  }

  lemma ReleaseIndexFound(s: string, d: nat, m: nat)
    requires d == Span(s, IsDigit) && m == Span(s[d..], IsSeparator)
    requires d > 0 && m > 0
    ensures BeginsWithReleaseIndex(s)
    ensures IsReleaseIndex(s[..d + m])
    ensures d + m == |s| || !IsSeparator(s[d + m])
  {
    ReleaseIndexBegins(s, d, m);
    ReleaseIndexPrefix(s, d, m);
    assert d + m < |s| ==> s[d + m] == s[d..][m];
  }

  lemma ReleaseIndexBegins(s: string, d: nat, m: nat)
    requires d == Span(s, IsDigit) && m == Span(s[d..], IsSeparator)
    requires d > 0 && m > 0
    ensures BeginsWithReleaseIndex(s)
  {
    assert AllDigits(s[..d]);
    assert IsSeparator(s[d..][0]);
  }

  lemma ReleaseIndexPrefix(s: string, d: nat, m: nat)
    requires d == Span(s, IsDigit) && m == Span(s[d..], IsSeparator)
    requires d > 0 && m > 0
    ensures IsReleaseIndex(s[..d + m])
  {
    var t := s[..d + m];
    assert t[..d] == s[..d];
    assert AllDigits(t[..d]);
    assert forall i :: d <= i < |t| ==> t[i] == s[d..][i - d];
  }

  /** A name that begins with a release index has both runs non-empty. */
  lemma ReleaseIndexSpans(s: string)
    requires BeginsWithReleaseIndex(s)
    ensures Span(s, IsDigit) > 0
    ensures Span(s[Span(s, IsDigit)..], IsSeparator) > 0
  {
    var k :| 0 < k < |s| && AllDigits(s[..k]) && IsSeparator(s[k]);
    assert forall i :: 0 <= i < k ==> s[..k][i] == s[i];
    SpanIs(s, IsDigit, k);
    assert s[k..][0] == s[k];
  }

  /** Step 2: a name of the form `#tag#rest` becomes `tag`. */
  function StripTagBlock(s: string): (r: string)
    ensures |s| > 0 && s[0] == '#' && '#' in s[1..] ==> '#' !in r && StartsWith(s[1..], r + "#")
    ensures !(|s| > 0 && s[0] == '#' && '#' in s[1..]) ==> r == s
  {
    if |s| > 0 && s[0] == '#' && '#' in s[1..] then
      var t := s[1..];
      var k := IndexOf(t, '#');
      assert t[..k + 1] == t[..k] + "#";
      t[..k]
    else s
  }

  /** Step 3: piece and video counts such as `60P`, `60P2V`, `P12`. */
  function StripCounts(s: string): string {
    ReplaceAll(PageMarker, ReplaceAll(CountMarker, s, ""), "")
  }

  /** Step 4: size annotations, four passes in order. */
  function StripSizes(s: string): string {
    RemoveAtStart(LeadingSize,
      ReplaceAll(UnderscoreSize, ReplaceAll(SizeBytes, ReplaceAll(SizeWithUnit, s, ""), ""), ""))
  }

  /** The four bracket pairs whose spans step 5 removes, in the order it
      removes them. Parentheses are deliberately absent. */
  const SquareBrackets := Bracketed('[', ']')
  const LenticularBrackets := Bracketed('\U{3010}', '\U{3011}')
  const CornerBrackets := Bracketed('\U{300C}', '\U{300D}')
  const WhiteCornerBrackets := Bracketed('\U{300E}', '\U{300F}')

  /** Step 5: bracketed spans with their contents. */
  function StripBrackets(s: string): string {
    ReplaceAll(WhiteCornerBrackets,
      ReplaceAll(CornerBrackets,
        ReplaceAll(LenticularBrackets, ReplaceAll(SquareBrackets, s, ""), ""), ""), "")
  }

  /** Step 6: `<digits>_<word>` noise tokens. */
  function StripNumberedWords(s: string): string {
    ReplaceAll(NumberedWord, s, "")
  }

  /** Step 7: drop every character outside the kept class. */
  function DropDisallowed(s: string): (r: string)
    ensures AllKept(r)
    decreases |s|
  {
    if |s| == 0 then ""
    else (if Kept(s[0]) then [s[0]] else []) + DropDisallowed(s[1..])
  }

  /** Step 7 keeps every occurrence of every kept character and nothing else. */
  lemma {:induction false} DropDisallowedKeepsKept(s: string)
    ensures var r := DropDisallowed(s);
      && (forall c :: Kept(c) ==> multiset(r)[c] == multiset(s)[c])
      && (forall c :: !Kept(c) ==> c !in r)
    decreases |s|
  {
    if |s| > 0 {
      assert s == [s[0]] + s[1..];
      DropDisallowedKeepsKept(s[1..]);
    }
  }

  /** Step 8b, `re.sub(r'[-_\s]+$', '', s)`: trim the trailing separator run. */
  function TrimSeparators(s: string): (r: string)
    ensures |r| <= |s| && r == s[..|r|]
    ensures |r| == 0 || !IsSeparator(r[|r| - 1])
    ensures forall i :: |r| <= i < |s| ==> IsSeparator(s[i])
    decreases |s|
  {
    if |s| > 0 && IsSeparator(s[|s| - 1]) then TrimSeparators(s[..|s| - 1]) else s
  }

  /** Steps 1 to 7: every rewrite that removes material. */
  function Prefilter(name: string): (r: string)
    ensures AllKept(r)
  {
    var s1 := StripReleaseIndex(name);
    var s2 := StripTagBlock(s1);
    var s3 := StripCounts(s2);
    var s4 := StripSizes(s3);
    var s5 := StripBrackets(s4);
    var s6 := StripNumberedWords(s5);
    DropDisallowed(s6)
  }

  /** Step 8: collapse whitespace runs, trim trailing separators, strip. */
  function Tidy(s: string): string {
    Strip(TrimSeparators(ReplaceAll(Whitespace, s, " ")))
  }

  /** Steps 1 to 8; the result may be empty. */
  function Normalize(name: string): string {
    Tidy(Prefilter(name))
  }

  predicate NoAdjacentSpaces(s: string) {
    forall i :: 0 <= i < |s| - 1 ==> !(IsSpace(s[i]) && IsSpace(s[i + 1]))
  }

  /** What a finished title looks like: only kept characters, whitespace only
      as single plain spaces, nothing to trim at either end, and no trailing
      `-` or `_`. */
  predicate IsTidy(s: string) {
    && AllKept(s)
    && NoAdjacentSpaces(s)
    && (forall i :: 0 <= i < |s| ==> IsSpace(s[i]) ==> s[i] == ' ')
    && (|s| == 0 || (!IsSpace(s[0]) && !IsSeparator(s[|s| - 1])))
  }

  /** `clean_filename`, with the clock reading passed in: never empty. */
  function Clean(name: string, now: nat): (r: string)
    ensures |r| > 0
    ensures IsTidy(r)
    ensures Normalize(name) == "" ==> r == "unnamed_" + NatToString(now)
    ensures Normalize(name) != "" ==> r == Normalize(name)
  {
    NormalizeIsTidy(name);
    var n := Normalize(name);
    if n == "" then FallbackIsTidy(now); "unnamed_" + NatToString(now) else n
  }

  lemma FallbackIsTidy(now: nat)
    ensures IsTidy("unnamed_" + NatToString(now))
  {
    UnnamedPlain();
    WordThenDigitsTidy("unnamed_", NatToString(now));
  }

  lemma UnnamedPlain()
    ensures var w := "unnamed_"; |w| > 0 && AllKept(w) && NoSpace(w)
  {
  }

  /** A kept word without whitespace followed by a numeral is tidy. */
  lemma WordThenDigitsTidy(w: string, d: string)
    requires |w| > 0 && AllKept(w) && NoSpace(w)
    requires |d| > 0 && AllDigits(d)
    ensures IsTidy(w + d)
  {
    var s := w + d;
    forall i | 0 <= i < |s| ensures Kept(s[i]) && !IsSpace(s[i]) {
      if i < |w| {
        assert s[i] == w[i];
      } else {
        assert s[i] == d[i - |w|];
      }
    }
    assert s[|s| - 1] == d[|d| - 1];
  }

  // ----------------------------------------------------------------- proofs

  /** Step 8a leaves single plain spaces only, and keeps kept characters kept. */
  lemma {:induction false} CollapseWhitespace(s: string)
    ensures var r := ReplaceAll(Whitespace, s, " ");
      && NoAdjacentSpaces(r)
      && (forall i :: 0 <= i < |r| ==> IsSpace(r[i]) ==> r[i] == ' ')
      && (AllKept(s) ==> AllKept(r))
      && (|s| > 0 <==> |r| > 0)
      && (|s| > 0 ==> (IsSpace(r[0]) <==> IsSpace(s[0])))
    decreases |s|
  {
    if |s| > 0 {
      var n := MatchLen(Whitespace, s);
      if n > 0 {
        var t := s[n..];
        CollapseWhitespace(t);
        assert AllKept(s) ==> AllKept(t) by {
          assert forall i :: 0 <= i < |t| ==> t[i] == s[n + i];
        }
      } else {
        var t := s[1..];
        CollapseWhitespace(t);
      }
    }
  }

  /** Step 8a keeps the words: every whitespace run becomes one space, and
      the text between the runs is kept as it is, in order. */
  lemma {:induction false} CollapseKeepsWords(s: string)
    ensures Words(ReplaceAll(Whitespace, s, " ")) == Words(s)
    decreases |s|
  {
    if |s| > 0 {
      var n := MatchLen(Whitespace, s);
      if n > 0 {
        CollapseKeepsWords(s[n..]);
        CollapseRunStep(s, n);
      } else {
        CollapseKeepsWords(s[1..]);
        CollapseCharStep(s);
      }
    }
  }

  lemma CollapseRunStep(s: string, n: nat)
    requires 0 < n == MatchLen(Whitespace, s)
    requires Words(ReplaceAll(Whitespace, s[n..], " ")) == Words(s[n..])
    ensures Words(ReplaceAll(Whitespace, s, " ")) == Words(s)
  {
    var r := ReplaceAll(Whitespace, s[n..], " ");
    ReplaceRunHead(s, n);
    WordsOfLeadingSpace(r);
    RunWords(s, n);
  }

  lemma ReplaceRunHead(s: string, n: nat)
    requires 0 < n == MatchLen(Whitespace, s)
    ensures ReplaceAll(Whitespace, s, " ") == " " + ReplaceAll(Whitespace, s[n..], " ")
  {
  }

  lemma ReplaceCharHead(s: string)
    requires |s| > 0 && MatchLen(Whitespace, s) == 0
    ensures !IsSpace(s[0])
    ensures ReplaceAll(Whitespace, s, " ") == [s[0]] + ReplaceAll(Whitespace, s[1..], " ")
  {
  }

  lemma RunWords(s: string, n: nat)
    requires 0 < n == MatchLen(Whitespace, s)
    ensures Words(s) == Words(s[n..])
  {
    assert s == s[..n] + s[n..];
    WordsSkipSpaces(s[..n], s[n..]);
  }

  lemma CollapseCharStep(s: string)
    requires |s| > 0 && MatchLen(Whitespace, s) == 0
    requires Words(ReplaceAll(Whitespace, s[1..], " ")) == Words(s[1..])
    ensures Words(ReplaceAll(Whitespace, s, " ")) == Words(s)
  {
    var t := s[1..];
    var r := ReplaceAll(Whitespace, t, " ");
    ReplaceCharHead(s);
    CollapseFront(t);
    WordsConsChar(s[0], r, t);
    ConsTail(s);
  }

  /** Step 8a keeps emptiness and whether the text starts with a space. */
  lemma CollapseFront(t: string)
    ensures var r := ReplaceAll(Whitespace, t, " ");
      (|r| > 0 <==> |t| > 0) && (|t| > 0 ==> (IsSpace(r[0]) <==> IsSpace(t[0])))
  {
    CollapseWhitespace(t);
  }

  lemma NormalizeIsTidy(name: string)
    ensures IsTidy(Normalize(name))
  {
    TidyIsTidy(Prefilter(name));
  }

  /** Step 8 turns any string of kept characters into a tidy one. */
  lemma TidyIsTidy(s: string)
    requires AllKept(s)
    ensures IsTidy(Tidy(s))
  {
    CollapseWhitespace(s);
    var t := TrimSeparators(ReplaceAll(Whitespace, s, " "));
    TrimmedIsTidy(t);
  }

  /** Stripping a trimmed, collapsed string leaves a tidy one. */
  lemma TrimmedIsTidy(t: string)
    requires AllKept(t) && NoAdjacentSpaces(t)
    requires forall i :: 0 <= i < |t| ==> IsSpace(t[i]) ==> t[i] == ' '
    requires |t| == 0 || !IsSeparator(t[|t| - 1])
    ensures IsTidy(Strip(t))
  {
    var r := Strip(t);
    var a := StripStart(t);
    assert forall i :: 0 <= i < |r| ==> r[i] == t[a + i];
    if |r| > 0 {
      assert a + |r| == |t|;
      assert r[|r| - 1] == t[|t| - 1];
    }
  }

  /** A step whose pattern never matches leaves the name unchanged. */
  lemma {:induction false} ReplaceAllNoMatch(p: Pattern, s: string, rep: string)
    requires forall i :: 0 <= i < |s| ==> MatchLen(p, s[i..]) == 0
    ensures ReplaceAll(p, s, rep) == s
    decreases |s|
  {
    if |s| > 0 {
      assert s[0..] == s;
      ReplaceAllSkip(p, s, rep);
      var t := s[1..];
      forall i | 0 <= i < |t| ensures MatchLen(p, t[i..]) == 0 {
        assert t[i..] == s[i + 1..];
      }
      ReplaceAllNoMatch(p, t, rep);
      ConsTail(s);
    }
  }

  /** A character at which no match starts is copied through. */
  lemma ReplaceAllSkip(p: Pattern, s: string, rep: string)
    requires |s| > 0 && MatchLen(p, s) == 0
    ensures ReplaceAll(p, s, rep) == [s[0]] + ReplaceAll(p, s[1..], rep)
  {
  }

  /** Only the four bracket pairs are removed: a name with none of their
      opening characters, in particular one whose only brackets are ASCII or
      full-width parentheses, passes step 5 unchanged. */
  lemma ParenthesesSurvive(s: string)
    requires '[' !in s && '\U{3010}' !in s && '\U{300C}' !in s && '\U{300E}' !in s
    ensures StripBrackets(s) == s
  {
    forall o | o in ['[', '\U{3010}', '\U{300C}', '\U{300E}'] && o !in s
      ensures forall c :: forall i :: 0 <= i < |s| ==> MatchLen(Bracketed(o, c), s[i..]) == 0
    {
      forall c, i | 0 <= i < |s| ensures MatchLen(Bracketed(o, c), s[i..]) == 0 {
        assert s[i..][0] == s[i];
      }
    }
    ReplaceAllNoMatch(SquareBrackets, s, "");
    ReplaceAllNoMatch(LenticularBrackets, s, "");
    ReplaceAllNoMatch(CornerBrackets, s, "");
    ReplaceAllNoMatch(WhiteCornerBrackets, s, "");
  }

  /** A bracket span is removed together with everything up to the first
      closing bracket after it; what follows is scanned afresh. */
  lemma BracketSpanRemoved(o: char, c: char, a: string, b: string, rest: string)
    requires o != c && o !in a && c !in b
    ensures ReplaceAll(Bracketed(o, c), a + [o] + b + [c] + rest, "")
         == a + ReplaceAll(Bracketed(o, c), rest, "")
  {
    var p := Bracketed(o, c);
    var s := [o] + b + [c] + rest;
    assert a + [o] + b + [c] + rest == a + s;
    ReplaceAllPrefix(p, a, s);
    BracketMatch(o, c, b, rest);
    ReplaceAllMatch(p, s, "");
    assert s[|b| + 2..] == rest;
    assert ReplaceAll(p, s, "") == ReplaceAll(p, rest, "");
  }

  lemma BracketMatch(o: char, c: char, b: string, rest: string)
    requires c !in b
    ensures MatchLen(Bracketed(o, c), [o] + b + [c] + rest) == |b| + 2
  {
    var s := [o] + b + [c] + rest;
    assert s[1..] == b + [c] + rest;
    IndexOfAfter(b, c, rest);
  }

  /** A match at the start is replaced and the scan resumes after it. */
  lemma ReplaceAllMatch(p: Pattern, s: string, rep: string)
    requires MatchLen(p, s) > 0
    ensures ReplaceAll(p, s, rep) == rep + ReplaceAll(p, s[MatchLen(p, s)..], rep)
  {
  }

  /** Characters that cannot start a match are copied through. */
  lemma {:induction false} ReplaceAllPrefix(p: Pattern, a: string, t: string)
    requires p.Bracketed? && p.open !in a
    ensures ReplaceAll(p, a + t, "") == a + ReplaceAll(p, t, "")
    decreases |a|
  {
    if |a| > 0 {
      var s := a + t;
      assert s[0] == a[0];
      assert s[1..] == a[1..] + t;
      ReplaceAllPrefix(p, a[1..], t);
    } else {
      assert a + t == t;
    }
  }

  /** Step 4's second pass removes a bare `<digits>B` (either case) that ends
      at a word boundary, such as `2B` or `12b`. */
  lemma ByteCountRemoved(d: string, b: char, rest: string)
    requires |d| > 0 && AllDigits(d)
    requires b == 'B' || b == 'b'
    requires |rest| == 0 || !IsWordChar(rest[0])
    ensures ReplaceAll(SizeBytes, d + [b] + rest, "") == ReplaceAll(SizeBytes, rest, "")
  {
    var s := d + [b] + rest;
    ByteCountMatch(d, b, rest);
    ReplaceAllMatch(SizeBytes, s, "");
    assert s[|d| + 1..] == rest;
  }

  lemma ByteCountMatch(d: string, b: char, rest: string)
    requires |d| > 0 && AllDigits(d)
    requires b == 'B' || b == 'b'
    requires |rest| == 0 || !IsWordChar(rest[0])
    ensures MatchLen(SizeBytes, d + [b] + rest) == |d| + 1
  {
    var s := d + [b] + rest;
    var k := |d|;
    assert s[k] == b;
    SpanIs(s, IsDigit, k);
    assert NumberLen(s) == k;
    SpanIs(s[k..], IsSpace, 0);
    assert !IsSizeLetter(s[k]) && IsByteLetter(s[k]);
    assert WordEndsAt(s, k + 1) by {
      if k + 1 < |s| {
        assert s[k + 1] == rest[0];
      }
    }
    assert UnitLen(s, k, true) == 1;
  }

  /** `is_archive_file`: the lower-cased suffix is a known archive extension. */
  predicate IsArchiveFile(p: string) {
    Ext(p) in {".7z", ".zip", ".rar", ".tar", ".gz", ".bz2"}
  }

  /** Any name with a non-empty stem and an archive extension, in any letter
      case, is recognised; a name without a suffix never is. */
  lemma ArchiveExtensionRecognised(h: string, e: string)
    requires |h| > 0 && '/' !in h
    requires |e| >= 2 && e[0] == '.' && '.' !in e[1..] && '/' !in e
    ensures IsArchiveFile(h + e) <==> Lower(e) in {".7z", ".zip", ".rar", ".tar", ".gz", ".bz2"}
  {
    SuffixOfAppend(h, e);
  }

  lemma NoSuffixNoArchive(p: string)
    requires PathSuffix(p) == ""
    ensures !IsArchiveFile(p)
  {
  }

  /** The normaliser is not idempotent: step 7 removes the dot of `1.5-x`,
      and the resulting `15-` is a release index on the second pass. */
  lemma NotIdempotent(now: nat)
    ensures Clean("1.5-x", now) == "15-x"
    ensures Clean("15-x", now) == "x"
    ensures Clean(Clean("1.5-x", now), now) != Clean("1.5-x", now)
  {
    PrefilterDotted();
    PrefilterIndexed();
    TidyExamples();
  }

  lemma PrefilterDotted()
    ensures Prefilter("1.5-x") == "15-x"
  {
    DottedFront();
    DottedCounts();
    DottedSizes();
    DottedRest();
    DottedDrop();
  }

  lemma DottedCounts()
    ensures StripCounts("1.5-x") == "1.5-x"
  {
    DottedNoMatch(CountMarker);
    DottedNoMatch(PageMarker);
  }

  lemma DottedSizes()
    ensures StripSizes("1.5-x") == "1.5-x"
  {
    DottedNoMatch(SizeWithUnit);
    DottedNoMatch(SizeBytes);
    DottedNoMatch(UnderscoreSize);
    DottedAtDigits(LeadingSize);
  }

  lemma DottedRest()
    ensures StripBrackets("1.5-x") == "1.5-x"
    ensures StripNumberedWords("1.5-x") == "1.5-x"
  {
    ParenthesesSurvive("1.5-x");
    DottedNoMatch(NumberedWord);
  }

  /** Steps 1 and 2 leave `1.5-x` alone: a dot is not a separator. */
  lemma DottedFront()
    ensures StripReleaseIndex("1.5-x") == "1.5-x"
    ensures StripTagBlock("1.5-x") == "1.5-x"
  {
    SpanIs("1.5-x", IsDigit, 1);
    assert "1.5-x"[1..] == ".5-x";
    SpanIs(".5-x", IsSeparator, 0);
  }

  lemma DottedDrop()
    ensures DropDisallowed("1.5-x") == "15-x"
  {
    assert !Kept('.') by { assert !IsSpace('.'); assert '.' !in FullWidthMarks; }
  }

  /** No pattern of steps 3, 4 and 6 matches anywhere in `1.5-x`. */
  lemma DottedNoMatch(p: Pattern)
    requires !p.Bracketed? && !p.Whitespace?
    ensures ReplaceAll(p, "1.5-x", "") == "1.5-x"
  {
    var s := "1.5-x";
    DottedAtDigits(p);
    forall i | 0 <= i < 5 ensures MatchLen(p, s[i..]) == 0 {
      assert s[i..][0] == s[i];
    }
    ReplaceAllNoMatch(p, s, "");
  }

  /** The two digit positions of `1.5-x` start no match. */
  lemma DottedAtDigits(p: Pattern)
    requires !p.Bracketed? && !p.Whitespace?
    ensures MatchLen(p, "1.5-x"[0..]) == 0
    ensures MatchLen(p, "1.5-x"[2..]) == 0
  {
    assert "1.5-x"[0..] == "1.5-x";
    assert "1.5-x"[2..] == "5-x";
    DottedAtOne(p);
    DottedAtFive(p);
  }

  lemma DottedAtOne(p: Pattern)
    requires !p.Bracketed? && !p.Whitespace?
    ensures MatchLen(p, "1.5-x") == 0
  {
    var s := "1.5-x";
    assert s[3..] == "-x" && s[2..] == "5-x";
    SpanIs(s, IsDigit, 1);
    SpanIs("5-x", IsDigit, 1);
    SpanIs("-x", IsSpace, 0);
    match p {
      case SizeWithUnit =>
        assert NumberLen(s) == 3 && UnitWordLen(s, 3) == 0;
      case SizeBytes =>
        assert NumberLen(s) == 3 && UnitLen(s, 3, true) == 0;
      case LeadingSize =>
        assert UnitLen(s, 1, true) == 0;
      case _ =>
    }
  }

  lemma DottedAtFive(p: Pattern)
    requires !p.Bracketed? && !p.Whitespace?
    ensures MatchLen(p, "5-x") == 0
  {
    assert "5-x"[1..] == "-x";
    SpanIs("5-x", IsDigit, 1);
    SpanIs("-x", IsSpace, 0);
  }

  lemma PrefilterIndexed()
    ensures Prefilter("15-x") == "x"
  {
    IndexedFront();
    PlainX();
    PrefilterOfPlain("15-x", "x");
  }

  lemma PlainX()
    ensures var t := "x";
            && (forall i :: 0 <= i < |t| ==> !IsDigit(t[i]) && t[i] != 'P' && t[i] != '_')
            && '[' !in t && '\U{3010}' !in t && '\U{300C}' !in t && '\U{300E}' !in t
            && DropDisallowed(t) == t
  {
  }

  /** After steps 1 and 2, a name with no character that begins a match of
      steps 3 to 6 only loses its disallowed characters. */
  lemma PrefilterOfPlain(s: string, t: string)
    requires StripTagBlock(StripReleaseIndex(s)) == t
    requires forall i :: 0 <= i < |t| ==> !IsDigit(t[i]) && t[i] != 'P' && t[i] != '_'
    requires '[' !in t && '\U{3010}' !in t && '\U{300C}' !in t && '\U{300E}' !in t
    ensures Prefilter(s) == DropDisallowed(t)
  {
    PlainUnchanged(t);
  }

  lemma IndexedFront()
    ensures StripReleaseIndex("15-x") == "x"
    ensures StripTagBlock("x") == "x"
  {
    SpanIs("15-x", IsDigit, 2);
    assert "15-x"[2..] == "-x";
    SpanIs("-x", IsSeparator, 1);
  }

  /** A name in which no character can begin a match of steps 3 to 6 passes
      those steps unchanged. */
  lemma PlainUnchanged(s: string)
    requires forall i :: 0 <= i < |s| ==> !IsDigit(s[i]) && s[i] != 'P' && s[i] != '_'
    requires '[' !in s && '\U{3010}' !in s && '\U{300C}' !in s && '\U{300E}' !in s
    ensures StripCounts(s) == s && StripSizes(s) == s
    ensures StripBrackets(s) == s && StripNumberedWords(s) == s
  {
    forall p: Pattern, i | !p.Bracketed? && !p.Whitespace? && 0 <= i < |s|
      ensures MatchLen(p, s[i..]) == 0
    {
      assert s[i..][0] == s[i];
    }
    ReplaceAllNoMatch(CountMarker, s, "");
    ReplaceAllNoMatch(PageMarker, s, "");
    ReplaceAllNoMatch(SizeWithUnit, s, "");
    ReplaceAllNoMatch(SizeBytes, s, "");
    ReplaceAllNoMatch(UnderscoreSize, s, "");
    ReplaceAllNoMatch(NumberedWord, s, "");
    if |s| > 0 {
      assert s[0..] == s;
    }
    ParenthesesSurvive(s);
  }

  lemma TidyExamples()
    ensures Tidy("15-x") == "15-x"
    ensures Tidy("x") == "x"
  {
    TidyIndexed();
    TidyX();
  }

  lemma TidyIndexed()
    ensures Tidy("15-x") == "15-x"
  {
    var s := "15-x";
    assert NoSpace(s) && !IsSeparator(s[|s| - 1]);
    TidyWithoutSpaces(s);
  }

  lemma TidyX()
    ensures Tidy("x") == "x"
  {
    var s := "x";
    assert NoSpace(s) && !IsSeparator(s[|s| - 1]);
    TidyWithoutSpaces(s);
  }

  /** A name without whitespace that does not end in a separator is already tidy. */
  lemma TidyWithoutSpaces(s: string)
    requires NoSpace(s)
    requires |s| == 0 || !IsSeparator(s[|s| - 1])
    ensures Tidy(s) == s
  {
    forall i | 0 <= i < |s| ensures MatchLen(Whitespace, s[i..]) == 0 {
      assert s[i..][0] == s[i];
    }
    ReplaceAllNoMatch(Whitespace, s, " ");
    SpanIs(s, IsSpace, 0);
  }
}

=== FILE: natural_order.dfy ===
/** The natural sort used for renaming (file_processor.py) and for upload
    ordering (api_handler.py): a name is split into alternating text and
    ASCII-digit runs, digit runs compare by value, and Python's list and
    string comparisons order the keys. */
module NaturalOrder {
  import opened Wrappers
  import opened Strings
  import opened Paths

  /** One element of a sort key: a text run, or a digit run read as `int`. */
  datatype Piece = Text(t: string) | Num(v: int)

  predicate NoDigit(s: string) { forall i :: 0 <= i < |s| ==> !IsDigit(s[i]) }

  function Concat(ps: seq<string>): string
    decreases |ps|
  {
    if |ps| == 0 then "" else ps[0] + Concat(ps[1..])
  }

  /** The shape of what `re.split('([0-9]+)', s)` returns: digit-free text,
      then any number of (non-empty digit run, digit-free text) pairs, where
      every text piece between two digit runs is non-empty because the runs
      are maximal. */
  predicate WellSplit(r: seq<string>)
    decreases |r|
  {
    && |r| >= 1
    && NoDigit(r[0])
    && (|r| == 1 || (|r| >= 3 && |r[1]| > 0 && AllDigits(r[1]) && (|r| > 3 ==> |r[2]| > 0) && WellSplit(r[2..])))
  }

  predicate IsDigitSplit(s: string, r: seq<string>) {
    WellSplit(r) && Concat(r) == s
  }

  lemma ConcatCons2(a: string, b: string, rest: seq<string>)
    ensures Concat([a, b] + rest) == a + b + Concat(rest)
  {
    var r := [a, b] + rest;
    assert r[1..] == [b] + rest;
    assert r[1..][1..] == rest;
  }

  /** A split whose text part is empty starts with a digit, and only then. */
  lemma SplitHead(r: seq<string>)
    requires WellSplit(r)
    ensures |r| > 1 ==> |Concat(r)| > 0
    ensures |Concat(r)| > 0 ==> (IsDigit(Concat(r)[0]) <==> |r[0]| == 0)
  {
    if |r| == 1 {
      assert Concat(r) == r[0] + Concat([]);
    } else {
      ConcatCons2(r[0], r[1], r[2..]);
      assert r == [r[0], r[1]] + r[2..];
    }
  }

  /** `re.split('([0-9]+)', s)`. */
  function SplitDigitRuns(s: string): (r: seq<string>)
    ensures IsDigitSplit(s, r)
    decreases |s|
  {
    var t := Span(s, NotDigit);
    if t == |s| then
      assert Concat([s]) == s + Concat([]);
      assert s[..t] == s;
      [s]
    else
      var u := s[t..];
      var d := Span(u, IsDigit);
      var rest := SplitDigitRuns(u[d..]);
      RunsAtCut(s, t, d);
      SplitStep(s[..t], u[..d], u[d..], rest);
      [s[..t], u[..d]] + rest
  }

  /** The text run ending at the first digit and the digit run after it. */
  lemma RunsAtCut(s: string, t: nat, d: nat)
    requires t < |s| && t == Span(s, NotDigit)
    requires d == Span(s[t..], IsDigit)
    ensures NoDigit(s[..t])
    ensures |s[t..][..d]| > 0 && AllDigits(s[t..][..d])
    ensures |s[t..][d..]| == 0 || !IsDigit(s[t..][d..][0])
    ensures s[..t] + (s[t..][..d] + s[t..][d..]) == s
  {
    assert forall i :: 0 <= i < t ==> NotDigit(s[i]);
    TextRun(s, t);
    DigitRun(s[t..], d);
  }

  lemma TextRun(s: string, t: nat)
    requires t < |s| && IsDigit(s[t])
    requires forall i :: 0 <= i < t ==> !IsDigit(s[i])
    ensures NoDigit(s[..t]) && IsDigit(s[t..][0])
    ensures s[..t] + s[t..] == s
  {
    assert forall i :: 0 <= i < t ==> s[..t][i] == s[i];
  }

  lemma DigitRun(u: string, d: nat)
    requires |u| > 0 && IsDigit(u[0]) && d == Span(u, IsDigit)
    ensures |u[..d]| > 0 && AllDigits(u[..d])
    ensures |u[d..]| == 0 || !IsDigit(u[d..][0])
    ensures u[..d] + u[d..] == u
  {
    assert forall i :: 0 <= i < d ==> u[..d][i] == u[i] && IsDigit(u[i]);
    assert d < |u| ==> u[d..][0] == u[d];
  }

  /** One step of the split: a digit-free run, the digit run after it, and
      the split of what remains. */
  lemma SplitStep(a: string, b: string, e: string, rest: seq<string>)
    requires NoDigit(a) && |b| > 0 && AllDigits(b)
    requires IsDigitSplit(e, rest) && (|e| == 0 || !IsDigit(e[0]))
    ensures IsDigitSplit(a + (b + e), [a, b] + rest)
  {
    ConcatCons2(a, b, rest);
    SplitHead(rest);
    assert ([a, b] + rest)[2..] == rest;
  }

  /** The split is the only one with that shape: `re.split` is characterised
      by `IsDigitSplit`. */
  lemma {:induction false} DigitSplitUnique(s: string, r: seq<string>)
    requires IsDigitSplit(s, r)
    ensures r == SplitDigitRuns(s)
    decreases |r|
  {
    if |r| == 1 {
      assert Concat(r) == r[0] + Concat([]);
      assert s == r[0] && r == [s];
      SpanIs(s, NotDigit, |s|);
    } else {
      var a, b, rest := r[0], r[1], r[2..];
      assert r == [a, b] + rest;
      ConcatCons2(a, b, rest);
      assert s[|a|] == b[0];
      SpanIs(s, NotDigit, |a|);
      var u := s[|a|..];
      assert u == b + Concat(rest);
      if |Concat(rest)| > 0 {
        SplitHead(rest);
      }
      SpanIs(u, IsDigit, |b|);
      assert u[..|b|] == b;
      assert u[|b|..] == Concat(rest);
      DigitSplitUnique(Concat(rest), rest);
    }
  }

  /** `tryint` on the pieces of the split, with ASCII decimal digits: a
      digit run becomes a number and every text piece stays text. `int()`
      also accepts other Unicode decimal digits; `TryInt` below keeps that,
      and `FullwidthDigitBreaksComparison` shows what it breaks. */
  function ToPiece(part: string): Piece {
    if |part| > 0 && AllDigits(part) then Num(DigitsValue(part)) else Text(part)
  }

  /** Text and numbers alternate, starting and ending with text. */
  predicate Alternates(k: seq<Piece>)
    decreases |k|
  {
    |k| >= 1 && k[0].Text? && (|k| == 1 || (|k| >= 3 && k[1].Num? && Alternates(k[2..])))
  }

  function Pieces(r: seq<string>): (k: seq<Piece>)
    requires WellSplit(r)
    ensures Alternates(k) && |k| == |r|
    decreases |r|
  {
    if |r| == 1 then [ToPiece(r[0])]
    else
      assert r[0] == "" || !IsDigit(r[0][0]);
      [ToPiece(r[0]), ToPiece(r[1])] + Pieces(r[2..])
  }

  /** `_natural_sort_key(text)`: `tryint` over every piece of the split. */
  function NaturalKey(s: string): (k: seq<Piece>)
    ensures Alternates(k)
  {
    Pieces(SplitDigitRuns(s))
  }

  /** The upload key `[dirname] + natural key of the file name`. */
  function UploadKey(path: string): (k: seq<Piece>)
    ensures |k| >= 2 && k[0].Text? && Alternates(k[1..])
  {
    var k := [Text(DirName(path))] + NaturalKey(BaseName(path));
    assert k[1..] == NaturalKey(BaseName(path));
    k
  }

  // ------------------------------------------------------------- comparison

  /** Python's `<` on `str`: code points, a proper prefix first. */
  predicate StrLess(a: string, b: string)
    decreases |a|
  {
    |b| > 0 && (|a| == 0 || a[0] < b[0] || (a[0] == b[0] && StrLess(a[1..], b[1..])))
  }

  /** A common prefix does not change the comparison. */
  lemma {:induction false} StrLessCommonPrefix(p: string, x: string, y: string)
    ensures StrLess(p + x, p + y) <==> StrLess(x, y)
    decreases |p|
  {
    if |p| == 0 {
      assert p + x == x && p + y == y;
    } else {
      assert (p + x)[1..] == p[1..] + x && (p + y)[1..] == p[1..] + y;
      StrLessCommonPrefix(p[1..], x, y);
    }
  }

  /** Python's `<` on two pieces of the same kind. Comparing a number with
      text raises `TypeError` in Python; `KeysComparable` shows that keys of
      one kind never do so, and the number-first rule here only makes the
      relation total. */
  predicate PieceLess(a: Piece, b: Piece) {
    match (a, b)
    case (Text(x), Text(y)) => StrLess(x, y)
    case (Num(m), Num(n)) => m < n
    case (Num(_), Text(_)) => true
    case (Text(_), Num(_)) => false
  }

  /** Python's `<` on lists: the first differing elements decide; if one
      list is a prefix of the other the shorter is smaller. */
  predicate KeyLess(a: seq<Piece>, b: seq<Piece>)
    decreases |a|
  {
    |b| > 0 && (|a| == 0 || (a[0] != b[0] && PieceLess(a[0], b[0])) || (a[0] == b[0] && KeyLess(a[1..], b[1..])))
  }

  lemma {:induction false} StrLessIrreflexive(a: string)
    ensures !StrLess(a, a)
    decreases |a|
  {
    if |a| > 0 {
      StrLessIrreflexive(a[1..]);
    }
  }

  lemma {:induction false} StrLessTransitive(a: string, b: string, c: string)
    requires StrLess(a, b) && StrLess(b, c)
    ensures StrLess(a, c)
    decreases |a|
  {
    if |a| > 0 && a[0] == b[0] && b[0] == c[0] {
      StrLessTransitive(a[1..], b[1..], c[1..]);
    }
  }

  lemma {:induction false} StrLessTotal(a: string, b: string)
    requires a != b
    ensures StrLess(a, b) || StrLess(b, a)
    decreases |a|
  {
    if |a| > 0 && |b| > 0 && a[0] == b[0] {
      assert a == [a[0]] + a[1..] && b == [b[0]] + b[1..];
      StrLessTotal(a[1..], b[1..]);
    }
  }

  lemma PieceLessIrreflexive(a: Piece)
    ensures !PieceLess(a, a)
  {
    if a.Text? {
      StrLessIrreflexive(a.t);
    }
  }

  lemma PieceLessTransitive(a: Piece, b: Piece, c: Piece)
    requires PieceLess(a, b) && PieceLess(b, c)
    ensures PieceLess(a, c)
  {
    if a.Text? && b.Text? && c.Text? {
      StrLessTransitive(a.t, b.t, c.t);
    }
  }

  lemma PieceLessTotal(a: Piece, b: Piece)
    requires a != b
    ensures PieceLess(a, b) || PieceLess(b, a)
  {
    if a.Text? && b.Text? {
      StrLessTotal(a.t, b.t);
    }
  }

  lemma {:induction false} KeyLessIrreflexive(a: seq<Piece>)
    ensures !KeyLess(a, a)
    decreases |a|
  {
    if |a| > 0 {
      KeyLessIrreflexive(a[1..]);
    }
  }

  lemma {:induction false} KeyLessTransitive(a: seq<Piece>, b: seq<Piece>, c: seq<Piece>)
    requires KeyLess(a, b) && KeyLess(b, c)
    ensures KeyLess(a, c)
    decreases |a|
  {
    if |a| > 0 {
      if a[0] == b[0] && b[0] == c[0] {
        KeyLessTransitive(a[1..], b[1..], c[1..]);
      } else if a[0] != b[0] && b[0] != c[0] {
        PieceLessTransitive(a[0], b[0], c[0]);
        if a[0] == c[0] {
          PieceLessIrreflexive(a[0]);
        }
      }
    }
  }

  lemma {:induction false} KeyLessTotal(a: seq<Piece>, b: seq<Piece>)
    requires a != b
    ensures KeyLess(a, b) || KeyLess(b, a)
    decreases |a|
  {
    if |a| > 0 && |b| > 0 {
      if a[0] == b[0] {
        assert a == [a[0]] + a[1..] && b == [b[0]] + b[1..];
        KeyLessTotal(a[1..], b[1..]);
      } else {
        PieceLessTotal(a[0], b[0]);
      }
    }
  }

  lemma KeyLessAsymmetric(a: seq<Piece>, b: seq<Piece>)
    requires KeyLess(a, b)
    ensures !KeyLess(b, a)
  {
    if KeyLess(b, a) {
      KeyLessTransitive(a, b, a);
      KeyLessIrreflexive(a);
    }
  }

  // ----------------------------------------------------------- the two keys

  /** Both keys have the same kind of piece at every shared position. */
  predicate SameKinds(a: seq<Piece>, b: seq<Piece>) {
    forall i :: 0 <= i < |a| && i < |b| ==> a[i].Text? == b[i].Text?
  }

  lemma {:induction false} AlternatingKeysAgree(a: seq<Piece>, b: seq<Piece>)
    requires Alternates(a) && Alternates(b)
    ensures SameKinds(a, b)
    decreases |a|
  {
    if |a| >= 3 && |b| >= 3 {
      AlternatingKeysAgree(a[2..], b[2..]);
      assert forall i :: 2 <= i < |a| && i < |b| ==> a[i] == a[2..][i - 2] && b[i] == b[2..][i - 2];
    }
  }

  /** Which of the program's two sort keys is in use. */
  datatype KeyKind = ByPath | ByFolderThenName

  function Key(kind: KeyKind): string -> seq<Piece> {
    match kind
    case ByPath => NaturalKey
    case ByFolderThenName => UploadKey
  }

  /** Keys of one kind line up piece by piece, so sorting never compares a
      number with text (which would raise in Python). This holds for the
      modelled keys; the keys as written lose it on names holding non-ASCII
      decimal digits (`FullwidthDigitBreaksComparison`). */
  lemma KeysComparable(kind: KeyKind, x: string, y: string)
    ensures SameKinds(Key(kind)(x), Key(kind)(y))
  {
    if kind.ByPath? {
      AlternatingKeysAgree(NaturalKey(x), NaturalKey(y));
    } else {
      UploadKeysAgree(x, y);
    }
  }

  lemma UploadKeysAgree(x: string, y: string)
    ensures SameKinds(UploadKey(x), UploadKey(y))
  {
    PrefixedKeysAgree(UploadKey(x), UploadKey(y));
  }

  /** Two keys that each put one text piece before an alternating tail. */
  lemma PrefixedKeysAgree(a: seq<Piece>, b: seq<Piece>)
    requires |a| >= 1 && |b| >= 1 && a[0].Text? && b[0].Text?
    requires Alternates(a[1..]) && Alternates(b[1..])
    ensures SameKinds(a, b)
  {
    AlternatingKeysAgree(a[1..], b[1..]);
    assert forall i :: 1 <= i < |a| && i < |b| ==> a[i] == a[1..][i - 1] && b[i] == b[1..][i - 1];
  }

  /** `y` does not sort before `x`. */
  predicate NotBefore(key: string -> seq<Piece>, x: string, y: string) {
    !KeyLess(key(y), key(x))
  }

  predicate Sorted(key: string -> seq<Piece>, s: seq<string>) {
    forall i, j :: 0 <= i < j < |s| ==> NotBefore(key, s[i], s[j])
  }

  /** Place `x` after every element whose key is not greater than its own. */
  function Insert(key: string -> seq<Piece>, x: string, s: seq<string>): (r: seq<string>)
    ensures |r| == |s| + 1
    decreases |s|
  {
    if |s| == 0 then [x]
    else if KeyLess(key(x), key(s[0])) then [x] + s
    else [s[0]] + Insert(key, x, s[1..])
  }

  lemma {:induction false} InsertPermutes(key: string -> seq<Piece>, x: string, s: seq<string>)
    ensures multiset(Insert(key, x, s)) == multiset(s) + multiset{x}
    decreases |s|
  {
    if |s| > 0 && !KeyLess(key(x), key(s[0])) {
      InsertPermutes(key, x, s[1..]);
      assert Insert(key, x, s) == [s[0]] + Insert(key, x, s[1..]);
      assert s == [s[0]] + s[1..];
    }
  }

  lemma {:induction false} InsertSorted(key: string -> seq<Piece>, x: string, s: seq<string>)
    requires Sorted(key, s)
    ensures Sorted(key, Insert(key, x, s))
    decreases |s|
  {
    if |s| > 0 {
      if KeyLess(key(x), key(s[0])) {
        InsertFront(key, x, s);
      } else {
        var t := Insert(key, x, s[1..]);
        InsertSorted(key, x, s[1..]);
        InsertPermutes(key, x, s[1..]);
        InsertBehind(key, x, s, t);
      }
    }
  }

  lemma InsertFront(key: string -> seq<Piece>, x: string, s: seq<string>)
    requires Sorted(key, s) && |s| > 0
    requires KeyLess(key(x), key(s[0]))
    ensures Sorted(key, [x] + s)
  {
    var r := [x] + s;
    forall j | 0 < j < |r| ensures NotBefore(key, x, r[j]) {
      var kx, k0, kj := key(x), key(s[0]), key(r[j]);
      if KeyLess(kj, kx) {
        KeyLessTransitive(kj, kx, k0);
        if j == 1 {
          KeyLessIrreflexive(k0);
        }
      }
    }
  }

  lemma InsertBehind(key: string -> seq<Piece>, x: string, s: seq<string>, t: seq<string>)
    requires |s| > 0 && Sorted(key, s) && Sorted(key, t)
    requires multiset(t) == multiset(s[1..]) + multiset{x}
    requires NotBefore(key, s[0], x)
    ensures Sorted(key, [s[0]] + t)
  {
    var r := [s[0]] + t;
    forall j | 0 < j < |r| ensures NotBefore(key, s[0], r[j]) {
      assert r[j] in multiset(t);
      if r[j] != x {
        assert r[j] in multiset(s[1..]);
        var k :| 1 <= k < |s| && s[k] == r[j];
        assert s[1..][k - 1] == s[k];
      }
    }
  }

  /** `list.sort(key=...)`: insertion in input order, which keeps elements
      with equal keys in their original order. */
  function SortBy(key: string -> seq<Piece>, xs: seq<string>): (r: seq<string>)
    ensures Sorted(key, r)
    ensures multiset(r) == multiset(xs)
    decreases |xs|
  {
    if |xs| == 0 then []
    else
      var init := xs[..|xs| - 1];
      var sorted := SortBy(key, init);
      assert xs == init + [xs[|xs| - 1]];
      InsertSorted(key, xs[|xs| - 1], sorted);
      InsertPermutes(key, xs[|xs| - 1], sorted);
      Insert(key, xs[|xs| - 1], sorted)
  }

  /** The elements of `s` whose key is `k`, in order. */
  function WithKey(key: string -> seq<Piece>, s: seq<string>, k: seq<Piece>): seq<string>
    decreases |s|
  {
    if |s| == 0 then []
    else (if key(s[0]) == k then [s[0]] else []) + WithKey(key, s[1..], k)
  }

  lemma {:induction false} WithKeyAppend(key: string -> seq<Piece>, a: seq<string>, b: seq<string>, k: seq<Piece>)
    ensures WithKey(key, a + b, k) == WithKey(key, a, k) + WithKey(key, b, k)
    decreases |a|
  {
    if |a| > 0 {
      assert (a + b)[1..] == a[1..] + b;
      WithKeyAppend(key, a[1..], b, k);
    } else {
      assert a + b == b;
    }
  }

  /** Inserting `x` puts it behind every element with an equal key. */
  lemma {:induction false} InsertStable(key: string -> seq<Piece>, x: string, s: seq<string>, k: seq<Piece>)
    requires Sorted(key, s)
    ensures WithKey(key, Insert(key, x, s), k) == WithKey(key, s, k) + WithKey(key, [x], k)
    decreases |s|
  {
    if |s| == 0 {
    } else if KeyLess(key(x), key(s[0])) {
      InsertStableFront(key, x, s, k);
    } else {
      var t := Insert(key, x, s[1..]);
      assert Insert(key, x, s) == [s[0]] + t;
      InsertStable(key, x, s[1..], k);
      WithKeyAppend(key, [s[0]], t, k);
      WithKeyAppend(key, [s[0]], s[1..], k);
      assert [s[0]] + s[1..] == s;
    }
  }

  lemma InsertStableFront(key: string -> seq<Piece>, x: string, s: seq<string>, k: seq<Piece>)
    requires Sorted(key, s) && |s| > 0
    requires KeyLess(key(x), key(s[0]))
    ensures WithKey(key, Insert(key, x, s), k) == WithKey(key, s, k) + WithKey(key, [x], k)
  {
    assert Insert(key, x, s) == [x] + s;
    WithKeyAppend(key, [x], s, k);
    if key(x) == k {
      WithKeyNoneAbove(key, s, k);
    }
  }

  /** No element of a sorted list whose head is above `k` has key `k`. */
  lemma {:induction false} WithKeyNoneAbove(key: string -> seq<Piece>, s: seq<string>, k: seq<Piece>)
    requires Sorted(key, s) && |s| > 0
    requires KeyLess(k, key(s[0]))
    ensures WithKey(key, s, k) == []
    decreases |s|
  {
    if key(s[0]) == k {
      KeyLessIrreflexive(k);
    }
    if |s| > 1 {
      assert NotBefore(key, s[0], s[1]);
      var k0, k1 := key(s[0]), key(s[1]);
      if k0 != k1 {
        KeyLessTotal(k0, k1);
        KeyLessTransitive(k, k0, k1);
      }
      assert Sorted(key, s[1..]);
      WithKeyNoneAbove(key, s[1..], k);
    }
  }

  /** The sort is stable: for every key, the elements with that key appear
      in the result in the order they had in the input. */
  lemma {:induction false} SortStable(key: string -> seq<Piece>, xs: seq<string>, k: seq<Piece>)
    ensures WithKey(key, SortBy(key, xs), k) == WithKey(key, xs, k)
    decreases |xs|
  {
    if |xs| > 0 {
      var init := xs[..|xs| - 1];
      var x := xs[|xs| - 1];
      SortStable(key, init, k);
      InsertStable(key, x, SortBy(key, init), k);
      assert xs == init + [x];
      WithKeyAppend(key, init, [x], k);
    }
  }

  // ------------------------------------------------- `tryint` as written

  /** The part of the Unicode character database `int()` consults that is
      fixed here: `decimal(c)` is the value of a character of category Nd,
      `None` for any other; among ASCII characters only the ten digits have
      one. */
  predicate AsciiDecimals(decimal: char -> Option<nat>) {
    forall c: char {:trigger decimal(c)} :: c as int < 128 ==> decimal(c) == (if IsDigit(c) then Some(DigitValue(c)) else None)
  }

  /** What `int()` reads after the sign: decimal digits with single
      underscores between them. */
  predicate IntBody(decimal: char -> Option<nat>, b: string) {
    && |b| > 0 && decimal(b[0]).Some? && decimal(b[|b| - 1]).Some?
    && (forall i :: 0 <= i < |b| ==> decimal(b[i]).Some? || b[i] == '_')
    && (forall i :: 0 <= i < |b| - 1 && b[i] == '_' ==> b[i + 1] != '_')
  }

  /** The value of the digits of a body; underscores are skipped. */
  function BodyValue(decimal: char -> Option<nat>, b: string): nat
    decreases |b|
  {
    if |b| == 0 then 0
    else
      match decimal(b[|b| - 1])
      case Some(d) => BodyValue(decimal, b[..|b| - 1]) * 10 + d
      case None => BodyValue(decimal, b[..|b| - 1])
  }

  /** Python's `int(s)` on a `str`: surrounding whitespace is stripped and
      one sign is allowed; `None` where Python raises `ValueError`. */
  function PyInt(decimal: char -> Option<nat>, s: string): (r: Option<int>)
    ensures r.Some? ==> exists i :: 0 <= i < |s| && decimal(s[i]).Some?
  {
    var t := Strip(s);
    if |t| > 0 && (t[0] == '+' || t[0] == '-') then
      var b := t[1..];
      if IntBody(decimal, b) then
        assert b[0] == s[StripStart(s) + 1];
        var v: int := BodyValue(decimal, b);
        Some(if t[0] == '-' then -v else v)
      else None
    else if IntBody(decimal, t) then
      assert t[0] == s[StripStart(s)];
      Some(BodyValue(decimal, t))
    else None
  }

  /** `tryint` as written: whatever `int()` accepts becomes a number. */
  function TryInt(decimal: char -> Option<nat>, part: string): (p: Piece)
    ensures p.Num? <==> PyInt(decimal, part).Some?
    ensures p.Text? ==> p.t == part
  {
    match PyInt(decimal, part)
    case Some(v) => Num(v)
    case None => Text(part)
  }

  /** `_natural_sort_key` as written: `tryint` over every piece of the
      split. */
  function PyNaturalKey(decimal: char -> Option<nat>, s: string): (k: seq<Piece>)
    ensures |k| == |SplitDigitRuns(s)|
  {
    var r := SplitDigitRuns(s);
    seq(|r|, i requires 0 <= i < |r| => TryInt(decimal, r[i]))
  }

  lemma {:induction false} BodyValueAscii(decimal: char -> Option<nat>, b: string)
    requires AsciiDecimals(decimal) && AllDigits(b)
    ensures BodyValue(decimal, b) == DigitsValue(b)
    decreases |b|
  {
    if |b| > 0 {
      var c := b[|b| - 1];
      assert decimal(c) == Some(DigitValue(c));
      BodyValueAscii(decimal, b[..|b| - 1]);
    }
  }

  /** On a digit run, and on text without any decimal character, `tryint`
      as written gives the piece `ToPiece` gives. */
  lemma TryIntAgrees(decimal: char -> Option<nat>, part: string)
    requires AsciiDecimals(decimal)
    requires (|part| > 0 && AllDigits(part)) || forall i :: 0 <= i < |part| ==> decimal(part[i]).None?
    ensures TryInt(decimal, part) == ToPiece(part)
  {
    if |part| > 0 && AllDigits(part) {
      assert decimal(part[0]) == Some(DigitValue(part[0]));
      var t := Strip(part);
      assert StripStart(part) == 0 by {
        SpanIs(part, IsSpace, 0);
      }
      assert t == part;
      forall i | 0 <= i < |part| ensures decimal(part[i]).Some? {
        assert decimal(part[i]) == Some(DigitValue(part[i]));
      }
      BodyValueAscii(decimal, part);
    }
  }

  /** The pieces of a split: digit runs at the odd positions, digit-free
      text at the even ones, and every character from the split string. */
  lemma {:induction false} SplitPieces(r: seq<string>)
    requires WellSplit(r)
    ensures forall i :: 0 <= i < |r| && i % 2 == 1 ==> |r[i]| > 0 && AllDigits(r[i])
    ensures forall i :: 0 <= i < |r| && i % 2 == 0 ==> NoDigit(r[i])
    ensures forall i, j :: 0 <= i < |r| && 0 <= j < |r[i]| ==> r[i][j] in Concat(r)
    decreases |r|
  {
    if |r| == 1 {
      assert Concat(r) == r[0] + Concat([]);
    } else {
      SplitPieces(r[2..]);
      assert r == [r[0], r[1]] + r[2..];
      ConcatCons2(r[0], r[1], r[2..]);
      forall i, j | 0 <= i < |r| && 0 <= j < |r[i]| ensures r[i][j] in Concat(r) {
        if i == 0 {
          assert Concat(r)[j] == r[0][j];
        } else if i == 1 {
          assert Concat(r)[|r[0]| + j] == r[1][j];
        } else {
          assert r[i] == r[2..][i - 2];
          var k :| 0 <= k < |Concat(r[2..])| && Concat(r[2..])[k] == r[i][j];
          assert Concat(r)[|r[0]| + |r[1]| + k] == r[i][j];
        }
      }
      forall i | 0 <= i < |r| && i >= 2 ensures r[i] == r[2..][i - 2] && (i % 2 == (i - 2) % 2) {}
    }
  }

  lemma {:induction false} PiecesAt(r: seq<string>)
    requires WellSplit(r)
    ensures forall i :: 0 <= i < |r| ==> Pieces(r)[i] == ToPiece(r[i])
    decreases |r|
  {
    if |r| > 1 {
      PiecesAt(r[2..]);
      assert forall i :: 2 <= i < |r| ==> r[i] == r[2..][i - 2];
    }
  }

  /** A name in which every decimal character is an ASCII digit has the
      same key as written and as modelled. */
  lemma KeyAgreesWithoutOtherDigits(decimal: char -> Option<nat>, s: string)
    requires AsciiDecimals(decimal)
    requires forall i :: 0 <= i < |s| && decimal(s[i]).Some? ==> IsDigit(s[i])
    ensures PyNaturalKey(decimal, s) == NaturalKey(s)
  {
    var r := SplitDigitRuns(s);
    PiecesAt(r);
    forall i | 0 <= i < |r| ensures TryInt(decimal, r[i]) == ToPiece(r[i]) {
      PieceAgrees(decimal, s, i);
    }
  }

  lemma PieceAgrees(decimal: char -> Option<nat>, s: string, i: nat)
    requires AsciiDecimals(decimal)
    requires forall i :: 0 <= i < |s| && decimal(s[i]).Some? ==> IsDigit(s[i])
    requires i < |SplitDigitRuns(s)|
    ensures TryInt(decimal, SplitDigitRuns(s)[i]) == ToPiece(SplitDigitRuns(s)[i])
  {
    var r := SplitDigitRuns(s);
    SplitPieces(r);
    PartAgrees(decimal, s, r[i], i % 2 == 1);
  }

  lemma PartAgrees(decimal: char -> Option<nat>, s: string, part: string, run: bool)
    requires AsciiDecimals(decimal)
    requires forall i :: 0 <= i < |s| && decimal(s[i]).Some? ==> IsDigit(s[i])
    requires run ==> |part| > 0 && AllDigits(part)
    requires !run ==> NoDigit(part) && forall j :: 0 <= j < |part| ==> part[j] in s
    ensures TryInt(decimal, part) == ToPiece(part)
  {
    if !run {
      forall j | 0 <= j < |part| ensures decimal(part[j]).None? {
        assert part[j] in s;
        assert !IsDigit(part[j]);
      }
    }
    TryIntAgrees(decimal, part);
  }

  /** A fullwidth digit is a decimal character, so `tryint` turns the text
      piece between two ASCII digit runs into a number: the keys of
      `d/1２3.jpg` and `d/1a3.jpg` agree on their first two pieces and then
      put a number against text, which makes Python's comparison raise
      `TypeError`. The modelled keys of the same names line up. */
  lemma FullwidthDigitBreaksComparison(decimal: char -> Option<nat>)
    requires AsciiDecimals(decimal) && decimal('\U{FF12}') == Some(2)
    ensures var a, b := PyNaturalKey(decimal, "d/1" + "\U{FF12}" + "3.jpg"), PyNaturalKey(decimal, "d/1" + "a" + "3.jpg");
      |a| >= 3 && |b| >= 3 && a[0] == b[0] && a[1] == b[1] && a[2].Num? && b[2].Text?
  {
    WideKey(decimal);
    LetterKey(decimal);
  }

  lemma WideKey(decimal: char -> Option<nat>)
    requires AsciiDecimals(decimal) && decimal('\U{FF12}') == Some(2)
    ensures var k := PyNaturalKey(decimal, "d/1" + "\U{FF12}" + "3.jpg");
      |k| >= 3 && k[0] == Text("d/") && k[1] == Num(1) && k[2] == Num(2)
  {
    FirstPieces(decimal, "\U{FF12}");
    FullwidthTwo(decimal);
  }

  lemma LetterKey(decimal: char -> Option<nat>)
    requires AsciiDecimals(decimal)
    ensures var k := PyNaturalKey(decimal, "d/1" + "a" + "3.jpg");
      |k| >= 3 && k[0] == Text("d/") && k[1] == Num(1) && k[2] == Text("a")
  {
    FirstPieces(decimal, "a");
    assert decimal('a') == None;
    TryIntAgrees(decimal, "a");
  }

  /** The first three pieces of the key, as written, of `d/1` + `m` +
      `3.jpg`. */
  lemma FirstPieces(decimal: char -> Option<nat>, m: string)
    requires AsciiDecimals(decimal) && |m| == 1 && !IsDigit(m[0])
    ensures var k := PyNaturalKey(decimal, "d/1" + m + "3.jpg");
      |k| >= 3 && k[0] == Text("d/") && k[1] == Num(1) && k[2] == TryInt(decimal, m)
  {
    FirstSplit(m);
    OneAndSlash(decimal);
  }

  lemma FirstSplit(m: string)
    requires |m| == 1 && !IsDigit(m[0])
    ensures var r := SplitDigitRuns("d/1" + m + "3.jpg"); |r| >= 3 && r[0] == "d/" && r[1] == "1" && r[2] == m
  {
    assert "d/1" + m + "3.jpg" == "d/" + "1" + (m + "3" + ".jpg");
    SplitAround("d/", "1", m, "3", ".jpg");
  }

  lemma OneAndSlash(decimal: char -> Option<nat>)
    requires AsciiDecimals(decimal)
    ensures TryInt(decimal, "1") == Num(1) && TryInt(decimal, "d/") == Text("d/")
  {
    TryIntAgrees(decimal, "1");
    assert decimal('d') == None && decimal('/') == None;
    TryIntAgrees(decimal, "d/");
  }

  /** The first three pieces of the split of `p d1 m d2 e`: text, a digit
      run, and the text between the two runs. */
  lemma SplitAround(p: string, d1: string, m: string, d2: string, e: string)
    requires NoDigit(p) && |d1| > 0 && AllDigits(d1) && |m| > 0 && NoDigit(m)
    requires |d2| > 0 && AllDigits(d2) && (|e| == 0 || !IsDigit(e[0]))
    ensures var r := SplitDigitRuns(p + d1 + (m + d2 + e)); |r| >= 3 && r[0] == p && r[1] == d1 && r[2] == m
  {
    NumberInSplit(m, d2, e);
    NumberInSplit(p, d1, m + d2 + e);
  }

  lemma FullwidthTwo(decimal: char -> Option<nat>)
    requires decimal('\U{FF12}') == Some(2)
    ensures TryInt(decimal, "\U{FF12}") == Num(2)
  {
    var s := "\U{FF12}";
    assert !IsSpace(s[0]);
    SpanIs(s, IsSpace, 0);
    assert Strip(s) == s;
    assert BodyValue(decimal, s) == BodyValue(decimal, "") * 10 + 2;
  }

  // -------------------------------------------------------------- examples

  /** A digit run between a digit-free prefix and a suffix that does not
      start with a digit becomes one number in the key. */
  lemma NumberInKey(p: string, d: string, e: string)
    requires NoDigit(p) && |d| > 0 && AllDigits(d)
    requires |e| == 0 || !IsDigit(e[0])
    ensures NaturalKey(p + d + e) == [Text(p), Num(DigitsValue(d))] + NaturalKey(e)
  {
    NumberInSplit(p, d, e);
    var r := [p, d] + SplitDigitRuns(e);
    assert r[2..] == SplitDigitRuns(e);
    assert p == "" || !IsDigit(p[0]);
    assert ToPiece(p) == Text(p);
    assert Pieces(r) == [ToPiece(p), ToPiece(d)] + Pieces(r[2..]);
  }

  lemma NumberInSplit(p: string, d: string, e: string)
    requires NoDigit(p) && |d| > 0 && AllDigits(d)
    requires |e| == 0 || !IsDigit(e[0])
    ensures SplitDigitRuns(p + d + e) == [p, d] + SplitDigitRuns(e)
  {
    var re := SplitDigitRuns(e);
    var r := [p, d] + re;
    ConcatCons2(p, d, re);
    if |re| > 1 && |e| > 0 {
      SplitHead(re);
    }
    assert r[2..] == re;
    assert IsDigitSplit(p + d + e, r);
    DigitSplitUnique(p + d + e, r);
  }

  /** A name without digits is a single text piece. */
  lemma NoDigitKey(s: string)
    requires NoDigit(s)
    ensures NaturalKey(s) == [Text(s)]
  {
    assert Concat([s]) == s;
    DigitSplitUnique(s, [s]);
  }

  /** Numbered names order by the value of their number, whatever its
      width: `img2` sorts before `img10`. */
  lemma NumbersByValue(p: string, d1: string, d2: string, e: string)
    requires NoDigit(p) && |d1| > 0 && AllDigits(d1) && |d2| > 0 && AllDigits(d2)
    requires |e| == 0 || !IsDigit(e[0])
    requires DigitsValue(d1) < DigitsValue(d2)
    ensures KeyLess(NaturalKey(p + d1 + e), NaturalKey(p + d2 + e))
  {
    NumberInKey(p, d1, e);
    NumberInKey(p, d2, e);
    var k1, k2 := NaturalKey(p + d1 + e), NaturalKey(p + d2 + e);
    assert k1[0] == k2[0] && k1[1] != k2[1];
    assert k1[1..][0] == k1[1] && k2[1..][0] == k2[1];
  }

  /** Leading zeros do not matter: `img02` and `img2` have the same key, so
      the sort keeps them in input order. */
  lemma LeadingZerosIgnored(p: string, z: nat, d: string, e: string)
    requires NoDigit(p) && |d| > 0 && AllDigits(d)
    requires |e| == 0 || !IsDigit(e[0])
    ensures NaturalKey(p + (Zeros(z) + d) + e) == NaturalKey(p + d + e)
  {
    LeadingZeros(z, d);
    NumberInKey(p, Zeros(z) + d, e);
    NumberInKey(p, d, e);
  }
}

=== FILE: paths.dfy ===
/** POSIX path helpers with the exact edge cases of Python's `os.path` and
    `pathlib` (separator `/`). */
module Paths {
  import opened Strings

  /** Index of the last `c` in `s`, or -1. */
  function LastIndex(s: string, c: char): (r: int)
    ensures -1 <= r < |s|
    ensures r >= 0 ==> s[r] == c
    ensures forall i :: r < i < |s| ==> s[i] != c
    decreases |s|
  {
    if |s| == 0 then -1
    else if s[|s| - 1] == c then |s| - 1
    else LastIndex(s[..|s| - 1], c)
  }

  lemma LastIndexAbsent(s: string, c: char)
    requires c !in s
    ensures LastIndex(s, c) == -1
  {
  }

  /** The last occurrence is found from the right: a tail without `c` after a `c`. */
  lemma LastIndexAt(s: string, c: char, k: nat)
    requires k < |s| && s[k] == c
    requires forall i :: k < i < |s| ==> s[i] != c
    ensures LastIndex(s, c) == k
  {
  }

  /** `os.path.basename`: everything after the last `/`. */
  function BaseName(p: string): (r: string)
    ensures '/' !in r
    ensures EndsWith(p, r)
  {
    var i := LastIndex(p, '/') + 1;
    assert forall j :: 0 <= j < |p[i..]| ==> p[i..][j] == p[i + j];
    p[i..]
  }

  predicate AllSlashes(s: string) { forall i :: 0 <= i < |s| ==> s[i] == '/' }

  function StripTrailingSlashes(s: string): (r: string)
    ensures |r| <= |s| && r == s[..|r|]
    decreases |s|
  {
    if |s| > 0 && s[|s| - 1] == '/' then StripTrailingSlashes(s[..|s| - 1]) else s
  }

  /** `os.path.dirname`: the head of `os.path.split`, trailing slashes removed
      unless the head is made only of slashes. */
  function DirName(p: string): string {
    var head := p[..LastIndex(p, '/') + 1];
    if AllSlashes(head) then head else StripTrailingSlashes(head)
  }

  /** `os.path.join(a, b)` for two components. */
  function Join(a: string, b: string): string {
    if |b| > 0 && b[0] == '/' then b
    else if |a| == 0 || a[|a| - 1] == '/' then a + b
    else a + "/" + b
  }

  /** `pathlib.PurePath.suffix` of a name: from the last dot, provided the dot
      is neither the first nor the last character. */
  function Suffix(name: string): (r: string)
    ensures r == "" || (r[0] == '.' && |r| >= 2 && EndsWith(name, r) && |r| < |name|)
  {
    var i := LastIndex(name, '.');
    if 0 < i < |name| - 1 then name[i..] else ""
  }

  /** The suffix of a path, taken from its last component. */
  function PathSuffix(p: string): string { Suffix(BaseName(p)) }

  /** Lower-cased suffix: the form every extension test in the program uses. */
  function Ext(p: string): string { Lower(PathSuffix(p)) }

  /** `os.path.splitext`: the extension starts at the last dot of the last
      component, unless everything before that dot in the component is dots. */
  function SplitExt(p: string): (r: (string, string))
    ensures r.0 + r.1 == p
    ensures r.1 == "" || r.1[0] == '.'
  {
    var sep := LastIndex(p, '/');
    var dot := LastIndex(p, '.');
    if dot > sep && exists i :: sep < i < dot && p[i] != '.' then (p[..dot], p[dot..])
    else (p, "")
  }

  function StemOf(p: string): string { SplitExt(p).0 }

  /** A name ending in `.x...` (no further dot) after a non-empty head has
      exactly that ending as its suffix. */
  lemma SuffixOfName(h: string, e: string)
    requires |h| > 0
    requires |e| >= 2 && e[0] == '.' && '.' !in e[1..]
    ensures Suffix(h + e) == e
  {
    var s := h + e;
    assert forall i :: |h| < i < |s| ==> s[i] == e[i - |h|] && e[i - |h|] in e[1..];
    LastIndexAt(s, '.', |h|);
    assert s[|h|..] == e;
  }

  /** The same for a whole path without a directory part. */
  lemma SuffixOfAppend(h: string, e: string)
    requires |h| > 0 && '/' !in h
    requires |e| >= 2 && e[0] == '.' && '.' !in e[1..] && '/' !in e
    ensures BaseName(h + e) == h + e
    ensures Suffix(h + e) == e
  {
    var s := h + e;
    SuffixOfName(h, e);
    assert '/' !in s by {
      assert forall i :: 0 <= i < |s| ==> s[i] in h || s[i] in e;
    }
    LastIndexAbsent(s, '/');
    assert s[0..] == s;
  }

  /** A relative path of one directory and one name splits back into them. */
  lemma DirAndBase(d: string, n: string)
    requires |d| > 0 && '/' !in d && '/' !in n
    ensures Join(d, n) == d + "/" + n
    ensures DirName(d + "/" + n) == d
    ensures BaseName(d + "/" + n) == n
  {
    var s := d + "/" + n;
    assert forall i :: |d| < i < |s| ==> s[i] == n[i - |d| - 1];
    LastIndexAt(s, '/', |d|);
    var head := d + "/";
    assert s[..|d| + 1] == head;
    assert head[0] == d[0] != '/';
    assert head[..|head| - 1] == d;
    assert d[|d| - 1] in d;
    assert LastIndex(s, '/') == |d|;
    assert !AllSlashes(head);
    assert StripTrailingSlashes(head) == StripTrailingSlashes(d);
    assert StripTrailingSlashes(d) == d;
    assert s[|d| + 1..] == n;
  }

  /** Joining a directory and a plain name gives back the name as basename. */
  lemma BaseNameOfJoin(d: string, n: string)
    requires |n| > 0 && '/' !in n
    ensures BaseName(Join(d, n)) == n
  {
    var s := Join(d, n);
    var k := |s| - |n|;
    assert s[k..] == n;
    assert k > 0 ==> s[k - 1] == '/';
    if k > 0 {
      assert forall i :: k <= i < |s| ==> s[i] == n[i - k];
      LastIndexAt(s, '/', k - 1);
    } else {
      assert s == n;
      LastIndexAbsent(s, '/');
    }
  }

  /** Appending an extension without `/` keeps the last `/`, so the base
      name grows by the extension. */
  lemma BaseNameOfAppend(h: string, e: string)
    requires '/' !in e
    ensures BaseName(h + e) == BaseName(h) + e
  {
    LastIndexOfAppend(h, e, '/');
    var i := LastIndex(h, '/') + 1;
    assert (h + e)[i..] == h[i..] + e;
  }

  /** Characters other than `c` appended to a string leave its last `c`
      where it was. */
  lemma {:induction false} LastIndexOfAppend(h: string, e: string, c: char)
    requires c !in e
    ensures LastIndex(h + e, c) == LastIndex(h, c)
    decreases |e|
  {
    if |e| == 0 {
      assert h + e == h;
    } else {
      var s := h + e;
      var e' := e[..|e| - 1];
      assert s[|s| - 1] == e[|e| - 1] != c;
      assert s[..|s| - 1] == h + e';
      assert c !in e' by {
        assert forall i :: 0 <= i < |e'| ==> e'[i] == e[i];
      }
      LastIndexOfAppend(h, e', c);
    }
  }

  /** The suffix of a path ending in a dotted extension is that extension,
      or nothing when the extension is the whole last component. */
  lemma SuffixOfExtended(h: string, e: string)
    requires |e| >= 2 && e[0] == '.' && '.' !in e[1..] && '/' !in e
    ensures PathSuffix(h + e) == (if BaseName(h) == "" then "" else e)
  {
    BaseNameOfAppend(h, e);
    var b := BaseName(h);
    if b == "" {
      assert b + e == e;
      assert forall i :: 0 < i < |e| ==> e[i] == e[1..][i - 1];
      LastIndexAt(e, '.', 0);
    } else {
      SuffixOfName(b, e);
    }
  }
}

=== FILE: pipeline.dfy ===
/** The job tail shared by `process_folder` and `process_archive`
    (file_processor.py): archive naming across components, the upload and
    publish steps with their configuration switches, and how the outputs of
    one component meet the filters of another. */
module Pipeline {
  import opened Paths
  import NameCleaner
  import Compression
  import ArchiveOutput
  import ImageEncode
  import Upload

  // ------------------------------------------------------- archive naming

  /** `os.path.join` with a separator-free, non-empty name distributes over
      a suffix appended to the name. */
  lemma JoinAppend(dir: string, n: string, e: string)
    requires |n| > 0 && '/' !in n
    ensures Join(dir, n + e) == Join(dir, n) + e
  {
    assert (n + e)[0] == n[0] != '/' by {
      assert n[0] in n;
    }
    if |dir| == 0 || dir[|dir| - 1] == '/' {
      assert dir + (n + e) == (dir + n) + e;
    } else {
      assert dir + "/" + (n + e) == (dir + "/" + n) + e;
    }
  }

  /** For a zst job the intermediate 7z file is the title with `.7z.7z`,
      next to the final `.7z.zst` archive and never the archive itself. */
  lemma ZstIntermediateName(outputDir: string, title: string, format: string)
    requires |title| > 0 && Compression.IsZstFormat(format)
    ensures var out := ArchiveOutput.ArchiveName(outputDir, title, format);
      var head := Join(outputDir, ArchiveOutput.SafeFilename(title));
      out == head + ".7z.zst" && Compression.InnerName(out) == head + ".7z.7z" &&
      Compression.InnerName(out) != out
  {
    var safe := ArchiveOutput.SafeFilename(title);
    ArchiveOutput.SafeHasNoSlash(title);
    JoinAppend(outputDir, safe, ".7z.zst");
    var head := Join(outputDir, safe);
    Compression.InnerOfZstOutput(head);
    var out := head + ".7z.zst";
    var inner := head + ".7z.7z";
    assert |out| == |inner| + 1;
  }

  /** `validate_file` and `is_archive_file` do not recognise the zst
      archives the pipeline itself produces, while a 7z archive is
      recognised. */
  lemma OwnZstArchiveNotRecognised(outputDir: string, title: string, format: string)
    requires |title| > 0 && Compression.IsZstFormat(format)
    ensures !NameCleaner.IsArchiveFile(ArchiveOutput.ArchiveName(outputDir, title, format))
  {
    ArchiveOutput.ArchiveNameZst(outputDir, title, format);
  }

  lemma OwnSevenZipArchiveRecognised(outputDir: string, title: string)
    requires |title| > 0
    ensures NameCleaner.IsArchiveFile(ArchiveOutput.ArchiveName(outputDir, title, "7z"))
  {
    var f := "7z";
    SevenZipLiterals();
    ArchiveOutput.ArchiveNamePlain(outputDir, title, f);
    var e := Ext(ArchiveOutput.ArchiveName(outputDir, title, f));
    assert e == ".7z";
  }

  lemma SevenZipLiterals()
    ensures !Compression.IsZstFormat("7z")
    ensures '/' !in "7z" && '.' !in "7z"
    ensures Strings.Lower("." + "7z") == ".7z"
  {
    assert Strings.Lower("7z") == "7z";
    assert "." + "7z" == ".7z";
  }

  // ------------------------------------------------- re-encode and upload

  /** With the `avif` format no re-encoded image is ever uploaded: the
      upload filter knows no `.avif` suffix. */
  lemma AvifOutputsNeverUploaded(p: string)
    ensures Ext(ImageEncode.OutputPath(p, "avif")) !in Upload.UploadExtensions
  {
    ImageEncode.OutputSuffix(p, "avif");
    AvifLiterals();
  }

  lemma AvifLiterals()
    ensures "." + "avif" == ".avif" && ".avif" !in Upload.UploadExtensions && "" !in Upload.UploadExtensions
  {
  }

  /** With the `webp` format a re-encoded image is uploaded exactly when its
      stem keeps a name. */
  lemma WebpOutputsUploaded(p: string)
    ensures Ext(ImageEncode.OutputPath(p, "webp")) in Upload.UploadExtensions <==> BaseName(StemOf(p)) != ""
  {
    ImageEncode.OutputSuffix(p, "webp");
    WebpLiterals();
  }

  lemma WebpLiterals()
    ensures "." + "webp" == ".webp" && ".webp" in Upload.UploadExtensions && "" !in Upload.UploadExtensions
  {
  }

  // --------------------------------------------------- upload and publish

  /** The switches of the job tail. */
  datatype Settings = Settings(skipLogin: bool, enableUpload: bool, enablePublish: bool)

  /** A Python call as the caller sees it: it raised, or it returned. */
  datatype Call = CallRaised | CallReturned(ok: bool)

  /** `api_handler.submit_article(title, images, cover)` called with the
      three arguments it declares plus `extra` further positional ones:
      any extra argument makes the call raise `TypeError` before the body
      runs, so no request is sent. */
  function CallSubmit(title: string, urls: seq<string>, extra: nat, max: int, s: Upload.Session, net: Upload.Net): (r: (Call, Upload.Session))
    requires |urls| > 0
    ensures extra > 0 ==> r == (CallRaised, s)
    ensures extra == 0 ==> r.0 == CallReturned(Upload.SubmitArticle(title, urls, urls[0], max, s, net).0)
    ensures r.0 == CallReturned(true) ==>
      |r.1.log| > |s.log| && Upload.SubmitAccepted(net(|r.1.log| - 1, Upload.ArticleRequest(title, urls, urls[0])))
  {
    if extra > 0 then (CallRaised, s)
    else
      var (ok, s1) := Upload.SubmitArticle(title, urls, urls[0], max, s, net);
      (CallReturned(ok), s1)
  }

  /** The job tail after the archive step: the upload and the publish
      steps, each switched by the settings. `extra` is the number of
      arguments the publish call passes beyond the three declared. An
      exception is caught by the job's generic handler and fails the job. */
  function Tail(cfg: Settings, title: string, files: seq<string>, batchSize: int, max: int, extra: nat,
                s: Upload.Session, net: Upload.Net): (r: (bool, Upload.Session))
    ensures !cfg.skipLogin && cfg.enableUpload ==>
      (r.0 ==> var up := Upload.UploadFiles(files, batchSize, max, s, net).0; up.UploadReturned? && up.urls != [])
    ensures cfg.skipLogin || !cfg.enableUpload ==> r == (true, s)
  {
    if cfg.skipLogin || !cfg.enableUpload then (true, s)
    else
      var (up, s1) := Upload.UploadFiles(files, batchSize, max, s, net);
      if up.UploadRaised? || up.urls == [] then (false, s1)
      else if !cfg.enablePublish then (true, s1)
      else
        var (call, s2) := CallSubmit(title, up.urls, extra, max, s1, net);
        (call == CallReturned(true), s2)
  }

  /** As written, the publish step passes a fourth argument. */
  const WrittenExtra: nat := 1

  /** As written, every job with publishing enabled fails after a
      successful upload, and no article request is ever sent: the session
      is the one the upload left. */
  lemma PublishingAlwaysFails(cfg: Settings, title: string, files: seq<string>, batchSize: int, max: int,
                              s: Upload.Session, net: Upload.Net)
    requires !cfg.skipLogin && cfg.enableUpload && cfg.enablePublish
    ensures var r := Tail(cfg, title, files, batchSize, max, WrittenExtra, s, net);
      !r.0 && r.1 == Upload.UploadFiles(files, batchSize, max, s, net).1
  {
  }

  /** With the call fixed to the declared three arguments, a job with
      publishing enabled succeeds exactly when the upload returns URLs and
      the article with the first URL as cover is accepted. */
  lemma PublishingWithDeclaredArguments(cfg: Settings, title: string, files: seq<string>, batchSize: int,
                                        max: int, s: Upload.Session, net: Upload.Net)
    requires !cfg.skipLogin && cfg.enableUpload && cfg.enablePublish
    ensures var up := Upload.UploadFiles(files, batchSize, max, s, net);
      Tail(cfg, title, files, batchSize, max, 0, s, net).0 <==>
        up.0.UploadReturned? && up.0.urls != [] &&
        Upload.SubmitArticle(title, up.0.urls, up.0.urls[0], max, up.1, net).0
  {
  }

  /** With the declared arguments an accepted first submission publishes. */
  lemma PublishedWhenAcceptedAtOnce(cfg: Settings, title: string, files: seq<string>, batchSize: int,
                                    max: int, s: Upload.Session, net: Upload.Net)
    requires !cfg.skipLogin && cfg.enableUpload && cfg.enablePublish && max >= 1
    requires var up := Upload.UploadFiles(files, batchSize, max, s, net);
      up.0.UploadReturned? && up.0.urls != [] &&
      Upload.SubmitAccepted(net(|up.1.log|, Upload.ArticleRequest(title, up.0.urls, up.0.urls[0])))
    ensures Tail(cfg, title, files, batchSize, max, 0, s, net).0
  {
    var up := Upload.UploadFiles(files, batchSize, max, s, net);
    Upload.SubmitFirstTry(title, up.0.urls, up.0.urls[0], max, up.1, net);
  }

  /** A batch size of 0 with anything to upload fails the job through the
      generic handler. */
  lemma ZeroBatchSizeFailsJob(cfg: Settings, title: string, files: seq<string>, max: int, extra: nat,
                              s: Upload.Session, net: Upload.Net)
    requires !cfg.skipLogin && cfg.enableUpload && |Upload.Selected(files)| > 0
    ensures !Tail(cfg, title, files, 0, max, extra, s, net).0
  {
  }
}

=== FILE: rename.dfy ===
/** The natural-order rename of `_rename_files` (file_processor.py): the
    counters each file receives, the names they produce, the moves as the
    source performs them one after another, and the same renames performed
    all at once.

    The filesystem is a map from each path to an opaque identity of its
    content. */
module Rename {
  import opened Seqs
  import opened Wrappers
  import opened Strings
  import opened Paths
  import opened NaturalOrder
  import opened Media

  /** The configured name prefixes (defaults `cosfan.cc_` and `video_`). */
  datatype Prefixes = Prefixes(image: string, video: string)

  const DefaultPrefixes := Prefixes("cosfan.cc_", "video_")

  /** Where the rename loop puts a file: its kind and the counter value it
      receives (zero for a file that is neither image nor video). */
  datatype Slot = Slot(kind: Kind, number: nat)

  /** The loop of `_rename_files` over the sorted paths: each counter
      advances only on a file of its kind. */
  function Slots(classify: string -> Kind, files: seq<string>, img: nat, vid: nat): (r: seq<Slot>)
    ensures |r| == |files|
    ensures forall i :: 0 <= i < |files| ==> r[i].kind == classify(files[i])
    decreases |files|
  {
    if |files| == 0 then []
    else
      var k := classify(files[0]);
      [Slot(k, if k == Image then img else if k == Video then vid else 0)]
        + Slots(classify, files[1..], if k == Image then img + 1 else img, if k == Video then vid + 1 else vid)
  }

  /** The counters in closed form: the image at position `i` gets the start
      value plus the number of images before it, and likewise for videos. */
  lemma {:induction false} SlotsCounted(classify: string -> Kind, files: seq<string>, img: nat, vid: nat, i: nat)
    requires i < |files|
    ensures var s := Slots(classify, files, img, vid)[i];
            && (s.kind == Image ==> s.number == img + CountKind(classify, Image, files[..i]))
            && (s.kind == Video ==> s.number == vid + CountKind(classify, Video, files[..i]))
            && (s.kind == Other ==> s.number == 0)
    decreases i
  {
    if i > 0 {
      var k := classify(files[0]);
      var img' := if k == Image then img + 1 else img;
      var vid' := if k == Video then vid + 1 else vid;
      SlotsCounted(classify, files[1..], img', vid', i - 1);
      assert files[..i][1..] == files[1..][..i - 1];
    }
  }

  /** Files of kind `k` before position `j` include the one at `i < j`. */
  lemma {:induction false} CountKindGrows(classify: string -> Kind, k: Kind, s: seq<string>, i: nat, j: nat)
    requires i < j <= |s| && classify(s[i]) == k
    ensures CountKind(classify, k, s[..i]) < CountKind(classify, k, s[..j])
    decreases i
  {
    if i == 0 {
      assert s[..j][0] == s[0];
    } else {
      CountKindGrows(classify, k, s[1..], i - 1, j - 1);
      assert s[..i][1..] == s[1..][..i - 1];
      assert s[..j][1..] == s[1..][..j - 1];
    }
  }

  /** Two images, or two videos, never share a counter value. */
  lemma SlotsDistinct(classify: string -> Kind, files: seq<string>, i: nat, j: nat)
    requires i < j < |files|
    requires classify(files[i]) != Other
    ensures Slots(classify, files, 1, 1)[i] != Slots(classify, files, 1, 1)[j]
  {
    SlotsCounted(classify, files, 1, 1, i);
    SlotsCounted(classify, files, 1, 1, j);
    if classify(files[i]) == classify(files[j]) {
      CountKindGrows(classify, classify(files[i]), files, i, j);
    }
  }

  /** The name a file receives for its slot; `None` for a file the rename
      leaves alone. */
  function TargetName(f: string, s: Slot, pre: Prefixes): Option<string> {
    match s.kind
    case Image => Some(pre.image + Pad3(s.number) + Ext(f))
    case Video => Some(pre.video + Pad3(s.number) + Ext(f))
    case Other => None
  }

  /** Every media extension is a single dot followed by dot-free, slash-free text. */
  predicate PlainExtension(e: string) {
    |e| >= 2 && e[0] == '.' && '.' !in e[1..] && '/' !in e && Lower(e) == e
  }

  lemma MediaExtensionsPlain(e: string)
    requires e in ImageExtensions || e in VideoExtensions
    ensures PlainExtension(e)
  {
    if e in ImageExtensions {
      ImageExtensionsPlain(e);
    } else {
      VideoExtensionsPlain(e);
    }
  }

  lemma ImageExtensionsPlain(e: string)
    requires e in ImageExtensions
    ensures PlainExtension(e)
  {
  }

  lemma VideoExtensionsPlain(e: string)
    requires e in VideoExtensions
    ensures PlainExtension(e)
  {
  }

  /** A generated name determines its counter and extension. */
  lemma GeneratedNameParts(p: string, m: nat, e: string, q: string, n: nat, e': string)
    requires PlainExtension(e) && PlainExtension(e')
    requires p + Pad3(m) + e == q + Pad3(n) + e'
    ensures e == e'
    ensures p == q ==> m == n
  {
    var a, b := p + Pad3(m), q + Pad3(n);
    assert |a| > 0 && |b| > 0;
    SuffixOfName(a, e);
    SuffixOfName(b, e');
    assert a + e == b + e';
    if p == q {
      assert a == (a + e)[..|a|];
      assert b == (b + e')[..|b|];
      assert Pad3(m) == a[|p|..] && Pad3(n) == b[|q|..];
      Pad3Injective(m, n);
    }
  }

  /** Two media names differ when their slots do. */
  lemma TargetNamesDiffer(f: string, s: Slot, g: string, s': Slot, pre: Prefixes)
    requires s.kind != Other && s'.kind != Other && s != s'
    requires PlainExtension(Ext(f)) && PlainExtension(Ext(g))
    requires s.kind != s'.kind ==> Ext(f) != Ext(g)
    ensures TargetName(f, s, pre) != TargetName(g, s', pre)
  {
    var p := if s.kind == Image then pre.image else pre.video;
    var p' := if s'.kind == Image then pre.image else pre.video;
    if TargetName(f, s, pre) == TargetName(g, s', pre) {
      assert p + Pad3(s.number) + Ext(f) == p' + Pad3(s'.number) + Ext(g);
      GeneratedNameParts(p, s.number, Ext(f), p', s'.number, Ext(g));
    }
  }

  /** No two files are given the same name: the plan never asks for a name
      twice. */
  lemma TargetsDistinct(files: seq<string>, pre: Prefixes, i: nat, j: nat)
    requires i < j < |files|
    requires KindOf(files[i]) != Other && KindOf(files[j]) != Other
    ensures var s := Slots(KindOf, files, 1, 1);
            TargetName(files[i], s[i], pre) != TargetName(files[j], s[j], pre)
  {
    var s := Slots(KindOf, files, 1, 1);
    SlotsDistinct(KindOf, files, i, j);
    MediaExtensionsPlain(Ext(files[i]));
    MediaExtensionsPlain(Ext(files[j]));
    if Ext(files[i]) == Ext(files[j]) {
      SameExtSameKind(files[i], files[j]);
    }
    TargetNamesDiffer(files[i], s[i], files[j], s[j], pre);
  }

  /** The media files of a directory in the order `_rename_files` visits
      them, with their slots. */
  function SortedForRename(files: seq<string>): (r: seq<string>)
    ensures multiset(r) == multiset(files)
  {
    SortBy(NaturalKey, files)
  }

  /** Where a file ends up: next to where it is, under its target name when
      that differs from its current name; otherwise where it already is. */
  function Destination(f: string, s: Slot, pre: Prefixes): string {
    match TargetName(f, s, pre)
    case Some(n) => if n != BaseName(f) then Join(DirName(f), n) else f
    case None => f
  }

  function Destinations(files: seq<string>, slots: seq<Slot>, pre: Prefixes): seq<string>
    requires |slots| == |files|
  {
    seq(|files|, i requires 0 <= i < |files| => Destination(files[i], slots[i], pre))
  }

  // ------------------------------------------------- renaming, as written

  /** A directory: the content identity stored at each path. */
  type Tree = map<string, nat>

  datatype Move = Move(src: string, dst: string)

  /** `shutil.move` on one filesystem: a rename that replaces an existing
      destination; a missing source raises, which the loop logs and skips. */
  function MoveFile(t: Tree, m: Move): (r: Tree)
    ensures m.src in t ==> m.dst in r && r[m.dst] == t[m.src] && (m.src != m.dst ==> m.src !in r)
    ensures m.src !in t ==> r == t
    ensures forall p :: p in r && p != m.dst ==> p in t && r[p] == t[p]
  {
    if m.src in t then (t - {m.src})[m.dst := t[m.src]] else t
  }

  /** The moves performed one after another. */
  function ApplyMoves(t: Tree, ms: seq<Move>): Tree
    decreases |ms|
  {
    if |ms| == 0 then t else ApplyMoves(MoveFile(t, ms[0]), ms[1..])
  }

  /** The moves of the loop, in order: one for each file whose destination
      is not where it already is. */
  function Moves(files: seq<string>, slots: seq<Slot>, pre: Prefixes): (r: seq<Move>)
    requires |slots| == |files|
    ensures |r| <= |files|
    ensures forall m :: m in r ==> m.src in files && m.src != m.dst
    decreases |files|
  {
    if |files| == 0 then []
    else
      var d := Destination(files[0], slots[0], pre);
      var rest := Moves(files[1..], slots[1..], pre);
      assert forall f :: f in files[1..] ==> f in files;
      if d != files[0] then [Move(files[0], d)] + rest else rest
  }

  /** `_rename_files` as written: sort, then move the files one at a time. */
  function RenameInPlace(t: Tree, files: seq<string>, pre: Prefixes): Tree {
    var sorted := SortedForRename(files);
    ApplyMoves(t, Moves(sorted, Slots(KindOf, sorted, 1, 1), pre))
  }

  // ------------------------------------------------ renaming, all at once

  /** Each file moved to its destination in one step, with its content. */
  function Placed(t: Tree, files: seq<string>, dests: seq<string>): Tree
    requires |dests| == |files|
    requires forall f :: f in files ==> f in t
    decreases |files|
  {
    if |files| == 0 then map[]
    else
      var n := |files| - 1;
      Placed(t, files[..n], dests[..n])[dests[n] := t[files[n]]]
  }

  /** The rename with every move taking effect at once, so that no move can
      land on a file whose own move is still pending. */
  function RenameAtOnce(t: Tree, files: seq<string>, pre: Prefixes): Tree
    requires forall f :: f in files ==> f in t
  {
    var sorted := SortedForRename(files);
    assert forall f :: f in sorted ==> f in multiset(files);
    Placed(t, sorted, Destinations(sorted, Slots(KindOf, sorted, 1, 1), pre))
  }

  /** A permutation of distinct paths is distinct. */
  lemma DistinctPermutation(xs: seq<string>, ys: seq<string>)
    requires Distinct(xs) && multiset(xs) == multiset(ys)
    ensures Distinct(ys)
  {
    forall i, j | 0 <= i < j < |ys| ensures ys[i] != ys[j] {
      if ys[i] == ys[j] {
        TwiceCounted(ys, i, j);
        DistinctCountedOnce(xs, ys[i]);
      }
    }
  }

  lemma TwiceCounted(s: seq<string>, i: nat, j: nat)
    requires i < j < |s| && s[i] == s[j]
    ensures multiset(s)[s[i]] >= 2
  {
    assert s == s[..j] + s[j..];
    assert s[i] in s[..j];
    assert s[j..][0] == s[j];
  }

  lemma {:induction false} DistinctCountedOnce(s: seq<string>, x: string)
    requires Distinct(s)
    ensures multiset(s)[x] <= 1
    decreases |s|
  {
    if |s| > 0 {
      assert s == [s[0]] + s[1..];
      DistinctCountedOnce(s[1..], x);
      if x == s[0] {
        assert x !in s[1..];
      }
    }
  }

  lemma NoSlashInHead(p: string, m: nat)
    requires '/' !in p
    ensures |p + Pad3(m)| > 0 && '/' !in p + Pad3(m)
  {
    var d := Pad3(m);
    assert forall i :: 0 <= i < |d| ==> IsDigit(d[i]);
    assert forall i :: 0 <= i < |p + d| ==> (p + d)[i] in p || (p + d)[i] in d;
  }

  /** A name `head + e` joined to a directory keeps that name and has `e`
      as its extension. */
  lemma PlacedName(dir: string, head: string, e: string)
    requires |head| > 0 && '/' !in head && PlainExtension(e)
    ensures BaseName(Join(dir, head + e)) == head + e
    ensures Ext(Join(dir, head + e)) == e
  {
    assert '/' !in head + e by {
      assert forall i :: 0 <= i < |head + e| ==> (head + e)[i] in head || (head + e)[i] in e;
    }
    BaseNameOfJoin(dir, head + e);
    SuffixOfName(head, e);
  }

  /** Renaming keeps a file's (lower-cased) extension, and a media file ends
      up under its target name. */
  lemma DestinationFacts(f: string, s: Slot, pre: Prefixes)
    requires s.kind == KindOf(f)
    requires '/' !in pre.image && '/' !in pre.video
    ensures Ext(Destination(f, s, pre)) == Ext(f)
    ensures s.kind != Other ==> BaseName(Destination(f, s, pre)) == TargetName(f, s, pre).value
  {
    if s.kind != Other {
      var e := Ext(f);
      MediaExtensionsPlain(e);
      var p := if s.kind == Image then pre.image else pre.video;
      var head := p + Pad3(s.number);
      assert TargetName(f, s, pre) == Some(head + e);
      if head + e != BaseName(f) {
        NoSlashInHead(p, s.number);
        PlacedName(DirName(f), head, e);
      }
    }
  }

  /** The kind of a path depends on its extension only. */
  lemma SameExtSameKind(a: string, b: string)
    requires Ext(a) == Ext(b)
    ensures KindOf(a) == KindOf(b)
  {
  }

  /** Two different files with different target names (when both have
      one) end up at different places. */
  lemma DestinationsDiffer(f: string, s: Slot, g: string, s': Slot, pre: Prefixes)
    requires f != g && s.kind == KindOf(f) && s'.kind == KindOf(g)
    requires s.kind != Other && s'.kind != Other ==> TargetName(f, s, pre) != TargetName(g, s', pre)
    requires '/' !in pre.image && '/' !in pre.video
    ensures Destination(f, s, pre) != Destination(g, s', pre)
  {
    var a, b := Destination(f, s, pre), Destination(g, s', pre);
    DestinationFacts(f, s, pre);
    DestinationFacts(g, s', pre);
    if s.kind != s'.kind {
      SameExtSameKind(a, f);
      SameExtSameKind(b, g);
    } else if s.kind != Other {
      assert BaseName(a) != BaseName(b);
    }
  }

  /** Two distinct files never share a destination. */
  lemma DestinationPairDistinct(files: seq<string>, pre: Prefixes, i: nat, j: nat)
    requires Distinct(files) && i < j < |files|
    requires '/' !in pre.image && '/' !in pre.video
    ensures var slots := Slots(KindOf, files, 1, 1);
            Destination(files[i], slots[i], pre) != Destination(files[j], slots[j], pre)
  {
    var slots := Slots(KindOf, files, 1, 1);
    if KindOf(files[i]) != Other && KindOf(files[j]) != Other {
      TargetsDistinct(files, pre, i, j);
    }
    DestinationsDiffer(files[i], slots[i], files[j], slots[j], pre);
  }

  /** Distinct files get distinct destinations. */
  lemma DestinationsDistinct(files: seq<string>, pre: Prefixes)
    requires Distinct(files)
    requires '/' !in pre.image && '/' !in pre.video
    ensures Distinct(Destinations(files, Slots(KindOf, files, 1, 1), pre))
  {
    var slots := Slots(KindOf, files, 1, 1);
    var dests := Destinations(files, slots, pre);
    forall i, j | 0 <= i < j < |dests| ensures dests[i] != dests[j] {
      DestinationPairDistinct(files, pre, i, j);
    }
  }

  /** Placing distinct destinations at once loses nothing: each holds the
      content of its own source, and nothing else is there. */
  lemma {:induction false} PlacedKeeps(t: Tree, files: seq<string>, dests: seq<string>)
    requires |dests| == |files| && Distinct(dests)
    requires forall f :: f in files ==> f in t
    ensures forall i :: 0 <= i < |files| ==> dests[i] in Placed(t, files, dests) && Placed(t, files, dests)[dests[i]] == t[files[i]]
    ensures forall p :: p in Placed(t, files, dests) ==> p in dests
    decreases |files|
  {
    if |files| > 0 {
      var n := |files| - 1;
      var fs, ds := files[..n], dests[..n];
      assert forall f :: f in fs ==> f in files;
      assert Distinct(ds);
      PlacedKeeps(t, fs, ds);
      var m := Placed(t, fs, ds);
      var r := m[dests[n] := t[files[n]]];
      assert r == Placed(t, files, dests);
      forall i | 0 <= i < |files| ensures dests[i] in r && r[dests[i]] == t[files[i]] {
        if i < n {
          assert ds[i] == dests[i] && fs[i] == files[i];
          assert dests[i] != dests[n];
        }
      }
      forall p | p in r ensures p in dests {
        if p != dests[n] {
          assert p in ds;
        }
      }
    }
  }

  /** Placing every file of a directory at distinct destinations keeps
      every content. */
  lemma PlacedKeepsValues(t: Tree, files: seq<string>, dests: seq<string>)
    requires |dests| == |files| && Distinct(dests)
    requires forall f :: f in t <==> f in files
    ensures forall c :: c in t.Values ==> c in Placed(t, files, dests).Values
  {
    PlacedKeeps(t, files, dests);
    var r := Placed(t, files, dests);
    forall c | c in t.Values ensures c in r.Values {
      var f :| f in t && t[f] == c;
      var i :| 0 <= i < |files| && files[i] == f;
      assert r[dests[i]] == c;
    }
  }

  /** With every move at once, every file's content survives the rename. */
  lemma RenameAtOnceKeepsContent(t: Tree, files: seq<string>, pre: Prefixes)
    requires Distinct(files) && (forall f :: f in t <==> f in files)
    requires '/' !in pre.image && '/' !in pre.video
    ensures forall c :: c in t.Values ==> c in RenameAtOnce(t, files, pre).Values
  {
    var sorted := SortedForRename(files);
    var dests := Destinations(sorted, Slots(KindOf, sorted, 1, 1), pre);
    DistinctPermutation(files, sorted);
    DestinationsDistinct(sorted, pre);
    assert forall f :: f in sorted <==> f in multiset(files);
    PlacedKeepsValues(t, sorted, dests);
  }
}

=== FILE: rename_example.dfy ===
/** A concrete directory on which the one-after-another rename of
    `_rename_files` loses a file, and on which the all-at-once rename keeps
    both. */
module RenameExample {
  import opened Wrappers
  import opened Strings
  import opened Paths
  import opened NaturalOrder
  import opened Media
  import opened Rename

  // ------------------------------------------- the overwrite, on an example
  //
  // A directory `d` holds `h.jpg` and a file that already carries the first
  // generated name `<prefix>001.jpg`, and `h.jpg` sorts first. With `d = x`,
  // `h = a` and the default prefix `cosfan.cc_` that is `x/a.jpg` next to
  // `x/cosfan.cc_001.jpg`.

  /** The shape of the example: plain names, and `h.jpg` sorting before
      the generated name. */
  predicate Scenario(d: string, p: string, h: string) {
    && |d| > 0 && '/' !in d && NoDigit(d)
    && |p| > 0 && '/' !in p && NoDigit(p)
    && |h| > 0 && '/' !in h && NoDigit(h)
    && !StrLess(p, h + ".jpg")
  }

  lemma DefaultScenario()
    ensures Scenario("x", DefaultPrefixes.image, "a")
  {
    assert !StrLess("cosfan.cc_", "a.jpg");
  }

  /** The file about to be renamed, the file already named `<prefix>001.jpg`,
      and the second generated name. */
  function First(d: string, h: string): string { d + "/" + (h + ".jpg") }

  function Numbered(d: string, p: string, n: string): string { d + "/" + (p + n + ".jpg") }

  function ExampleTree(d: string, p: string, h: string): Tree {
    map[First(d, h) := 1, Numbered(d, p, "001") := 2]
  }

  function ExampleFiles(d: string, p: string, h: string): seq<string> {
    [First(d, h), Numbered(d, p, "001")]
  }

  lemma NoDigitJoin(a: string, b: string)
    requires NoDigit(a) && NoDigit(b)
    ensures NoDigit(a + b)
  {
    assert forall i :: 0 <= i < |a + b| ==> (a + b)[i] in a || (a + b)[i] in b;
  }

  /** `d/n.jpg` is an image with extension `.jpg`. */
  lemma JpgInDir(d: string, n: string)
    requires |d| > 0 && '/' !in d && |n| > 0 && '/' !in n
    ensures Ext(d + "/" + (n + ".jpg")) == ".jpg"
    ensures KindOf(d + "/" + (n + ".jpg")) == Image
  {
    JpgPlain();
    assert d[|d| - 1] in d;
    assert Join(d, n + ".jpg") == d + "/" + (n + ".jpg");
    PlacedName(d, n, ".jpg");
  }

  lemma JpgPlain()
    ensures PlainExtension(".jpg") && ".jpg" in ImageExtensions
  {
    MediaExtensionsPlain(".jpg");
  }

  lemma NumberedPlain(p: string, n: string)
    requires '/' !in p && |n| > 0 && AllDigits(n)
    ensures |p + n| > 0 && '/' !in p + n
  {
    assert forall i :: 0 <= i < |n| ==> IsDigit(n[i]);
  }

  lemma ExampleKinds(d: string, p: string, h: string)
    requires Scenario(d, p, h)
    ensures KindOf(First(d, h)) == Image && KindOf(Numbered(d, p, "001")) == Image
  {
    JpgInDir(d, h);
    FirstNumber();
    NumberedKind(d, p, "001");
  }

  lemma FirstNumber()
    ensures |"001"| > 0 && AllDigits("001")
  {
  }

  lemma NumberedKind(d: string, p: string, n: string)
    requires |d| > 0 && '/' !in d && '/' !in p && |n| > 0 && AllDigits(n)
    ensures KindOf(Numbered(d, p, n)) == Image
  {
    NumberedPlain(p, n);
    assert Numbered(d, p, n) == d + "/" + ((p + n) + ".jpg");
    JpgInDir(d, p + n);
  }

  /** `h.jpg` sorts first: its text piece is not after the prefix. */
  lemma ExampleKeys(d: string, p: string, h: string)
    requires Scenario(d, p, h)
    ensures !KeyLess(NaturalKey(Numbered(d, p, "001")), NaturalKey(First(d, h)))
  {
    var pre := d + "/";
    NoDigitJoin(d, "/");
    NoDigitJoin(h, ".jpg");
    NoDigitJoin(pre, h + ".jpg");
    NoDigitKey(pre + (h + ".jpg"));
    NoDigitJoin(pre, p);
    assert Numbered(d, p, "001") == pre + p + "001" + ".jpg";
    NumberInKey(pre + p, "001", ".jpg");
    StrLessCommonPrefix(pre, p, h + ".jpg");
  }

  lemma ExampleOrder(d: string, p: string, h: string)
    requires Scenario(d, p, h)
    ensures SortedForRename(ExampleFiles(d, p, h)) == ExampleFiles(d, p, h)
  {
    var a, b := First(d, h), Numbered(d, p, "001");
    ExampleKeys(d, p, h);
    assert SortBy(NaturalKey, [a]) == [a];
    assert [a, b][..1] == [a];
  }

  lemma SmallPads()
    ensures Pad3(1) == "001" && Pad3(2) == "002"
  {
    assert NatToString(1) == "1";
    assert NatToString(2) == "2";
    assert Zeros(2) == "00";
  }

  /** A file `d/base` with a different target name `n` moves to `d/n`. */
  lemma DestinationInDir(d: string, base: string, s: Slot, pre: Prefixes, n: string)
    requires |d| > 0 && '/' !in d && '/' !in base && '/' !in n
    requires TargetName(d + "/" + base, s, pre) == Some(n) && n != base
    ensures Destination(d + "/" + base, s, pre) == d + "/" + n
  {
    DirAndBase(d, base);
    DirAndBase(d, n);
  }

  /** An image `d/m.jpg` moves next to itself under its generated name,
      unless it already has that name. */
  lemma JpgDestination(d: string, m: string, number: nat, pre: Prefixes)
    requires |d| > 0 && '/' !in d && |m| > 0 && '/' !in m && '/' !in pre.image
    requires pre.image + Pad3(number) != m
    ensures Destination(d + "/" + (m + ".jpg"), Slot(Image, number), pre)
         == d + "/" + (pre.image + Pad3(number) + ".jpg")
  {
    var f := d + "/" + (m + ".jpg");
    JpgInDir(d, m);
    var h := pre.image + Pad3(number);
    NumberedPlain(pre.image, Pad3(number));
    var n := h + ".jpg";
    assert TargetName(f, Slot(Image, number), pre) == Some(n);
    assert n[..|n| - 4] == h;
    assert '/' !in n;
    assert '/' !in m + ".jpg";
    DestinationInDir(d, m + ".jpg", Slot(Image, number), pre, n);
  }

  /** `h.jpg` is sent to the name the second file already has ... */
  lemma FirstDestination(d: string, p: string, h: string)
    requires Scenario(d, p, h)
    ensures Destination(First(d, h), Slot(Image, 1), Prefixes(p, "video_")) == Numbered(d, p, "001")
  {
    SmallPads();
    assert p + "001" != h by {
      assert IsDigit((p + "001")[|p|]);
      if |h| > |p| {
        assert !IsDigit(h[|p|]);
      }
    }
    JpgDestination(d, h, 1, Prefixes(p, "video_"));
  }

  /** ... and that file to the next name. */
  lemma SecondDestination(d: string, p: string)
    requires |d| > 0 && '/' !in d && |p| > 0 && '/' !in p
    ensures Destination(Numbered(d, p, "001"), Slot(Image, 2), Prefixes(p, "video_")) == Numbered(d, p, "002")
  {
    SmallPads();
    NumberedPlain(p, "001");
    assert p + "002" != p + "001" by {
      assert (p + "002")[|p| + 2] != (p + "001")[|p| + 2];
    }
    JpgDestination(d, p + "001", 2, Prefixes(p, "video_"));
  }

  lemma ExamplePlan(d: string, p: string, h: string)
    requires Scenario(d, p, h)
    ensures Slots(KindOf, ExampleFiles(d, p, h), 1, 1) == [Slot(Image, 1), Slot(Image, 2)]
  {
    ExampleKinds(d, p, h);
    assert ExampleFiles(d, p, h)[1..] == [Numbered(d, p, "001")];
  }

  lemma ExampleDistinct(d: string, p: string, h: string)
    requires Scenario(d, p, h)
    ensures First(d, h) != Numbered(d, p, "001") && Numbered(d, p, "001") != Numbered(d, p, "002")
  {
    var a, b, c := First(d, h), Numbered(d, p, "001"), Numbered(d, p, "002");
    assert b[|d| + 1 + |p| + 2] != c[|d| + 1 + |p| + 2];
    NoDigitJoin(d + "/", h + ".jpg");
    assert IsDigit(b[|d| + 1 + |p|]);
    NoDigitJoin(d, "/");
    NoDigitJoin(h, ".jpg");
    assert |a| <= |d| + 1 + |p| || !IsDigit(a[|d| + 1 + |p|]);
  }

  lemma MovesOfTwo(x: string, y: string, sx: Slot, sy: Slot, pre: Prefixes)
    requires Destination(x, sx, pre) != x && Destination(y, sy, pre) != y
    ensures Moves([x, y], [sx, sy], pre) == [Move(x, Destination(x, sx, pre)), Move(y, Destination(y, sy, pre))]
  {
    assert [x, y][1..] == [y] && [sx, sy][1..] == [sy];
    assert [y][1..] == [] && [sy][1..] == [];
  }

  lemma ApplyTwoMoves(t: Tree, a: string, b: string, c: string)
    requires t == map[a := 1, b := 2] && a != b && b != c
    ensures ApplyMoves(t, [Move(a, b), Move(b, c)]) == map[c := 1]
  {
    var t1 := MoveFile(t, Move(a, b));
    assert t1 == map[b := 1];
    var t2 := MoveFile(t1, Move(b, c));
    assert t2 == map[c := 1];
    var ms := [Move(a, b), Move(b, c)];
    assert ms[1..] == [Move(b, c)] && ms[1..][1..] == [];
    assert ApplyMoves(t1, ms[1..]) == ApplyMoves(t2, []);
  }

  /** The rename of two files `a`, `b` (already in order, both images)
      whose plan sends `a` to `b` and `b` to `c`. */
  predicate ChainPlan(files: seq<string>, pre: Prefixes, a: string, b: string, c: string) {
    && files == [a, b] && a != b && b != c
    && SortedForRename(files) == files
    && Slots(KindOf, files, 1, 1) == [Slot(Image, 1), Slot(Image, 2)]
    && Destination(a, Slot(Image, 1), pre) == b
    && Destination(b, Slot(Image, 2), pre) == c
  }

  lemma ExampleChain(d: string, p: string, h: string)
    requires Scenario(d, p, h)
    ensures ChainPlan(ExampleFiles(d, p, h), Prefixes(p, "video_"), First(d, h), Numbered(d, p, "001"), Numbered(d, p, "002"))
  {
    ExampleDistinct(d, p, h);
    ExampleOrder(d, p, h);
    ExamplePlan(d, p, h);
    FirstDestination(d, p, h);
    SecondDestination(d, p);
  }

  /** The plan of a chain, as moves and as destinations. */
  lemma ChainSteps(files: seq<string>, slots: seq<Slot>, pre: Prefixes, a: string, b: string, c: string)
    requires files == [a, b] && slots == [Slot(Image, 1), Slot(Image, 2)] && a != b && b != c
    requires Destination(a, slots[0], pre) == b && Destination(b, slots[1], pre) == c
    ensures Moves(files, slots, pre) == [Move(a, b), Move(b, c)]
    ensures Destinations(files, slots, pre) == [b, c]
  {
    MovesOfTwo(a, b, slots[0], slots[1], pre);
    DestinationsOfTwo(files, slots, pre, b, c);
  }

  lemma DestinationsOfTwo(files: seq<string>, slots: seq<Slot>, pre: Prefixes, x: string, y: string)
    requires |files| == 2 && |slots| == 2
    requires Destination(files[0], slots[0], pre) == x && Destination(files[1], slots[1], pre) == y
    ensures Destinations(files, slots, pre) == [x, y]
  {
    var ds := Destinations(files, slots, pre);
    assert |ds| == 2 && ds[0] == x && ds[1] == y;
  }

  lemma InPlaceOfChain(t: Tree, files: seq<string>, pre: Prefixes, a: string, b: string, c: string)
    requires ChainPlan(files, pre, a, b, c) && t == map[a := 1, b := 2]
    ensures RenameInPlace(t, files, pre) == map[c := 1]
  {
    ChainSteps(files, Slots(KindOf, files, 1, 1), pre, a, b, c);
    ApplyTwoMoves(t, a, b, c);
  }

  /** Content 2 is present before and absent after. */
  lemma LostValue(t: Tree, r: Tree, a: string, b: string, c: string)
    requires t == map[a := 1, b := 2] && r == map[c := 1]
    ensures 2 in t.Values && 2 !in r.Values
  {
    assert t[b] == 2;
    forall v | v in r.Values ensures v == 1 {
      var k :| k in r && r[k] == v;
    }
  }

  lemma AtOnceOfChain(t: Tree, files: seq<string>, pre: Prefixes, a: string, b: string, c: string)
    requires ChainPlan(files, pre, a, b, c) && t == map[a := 1, b := 2]
    ensures RenameAtOnce(t, files, pre) == map[b := 1, c := 2]
  {
    ChainSteps(files, Slots(KindOf, files, 1, 1), pre, a, b, c);
    PlacedTwo(t, a, b, b, c);
  }

  /** As written, the first move overwrites the second file before that file
      is moved itself: of the two images only one survives. */
  lemma RenameInPlaceLosesContent(d: string, p: string, h: string)
    requires Scenario(d, p, h)
    ensures var r := RenameInPlace(ExampleTree(d, p, h), ExampleFiles(d, p, h), Prefixes(p, "video_"));
            && r == map[Numbered(d, p, "002") := 1]
            && 2 in ExampleTree(d, p, h).Values && 2 !in r.Values
  {
    var a, b, c := First(d, h), Numbered(d, p, "001"), Numbered(d, p, "002");
    ExampleChain(d, p, h);
    InPlaceOfChain(ExampleTree(d, p, h), ExampleFiles(d, p, h), Prefixes(p, "video_"), a, b, c);
    LostValue(ExampleTree(d, p, h), RenameInPlace(ExampleTree(d, p, h), ExampleFiles(d, p, h), Prefixes(p, "video_")), a, b, c);
  }

  lemma PlacedTwo(t: Tree, a: string, b: string, x: string, y: string)
    requires a in t && b in t
    ensures Placed(t, [a, b], [x, y]) == map[x := t[a]][y := t[b]]
  {
    assert [a, b][..1] == [a] && [x, y][..1] == [x];
    assert [a][..0] == [] && [x][..0] == [];
    assert Placed(t, [a], [x]) == Placed(t, [], [])[x := t[a]];
    assert Placed(t, [a, b], [x, y]) == Placed(t, [a], [x])[y := t[b]];
  }

  /** All at once, both contents survive under the two generated names. */
  lemma RenameAtOnceExample(d: string, p: string, h: string)
    requires Scenario(d, p, h)
    ensures RenameAtOnce(ExampleTree(d, p, h), ExampleFiles(d, p, h), Prefixes(p, "video_"))
         == map[Numbered(d, p, "001") := 1, Numbered(d, p, "002") := 2]
  {
    var a, b, c := First(d, h), Numbered(d, p, "001"), Numbered(d, p, "002");
    ExampleChain(d, p, h);
    AtOnceOfChain(ExampleTree(d, p, h), ExampleFiles(d, p, h), Prefixes(p, "video_"), a, b, c);
  }
}

=== FILE: seqs.dfy ===
/** Generic sequence facts shared by the components. */
module Seqs {

  predicate Distinct<T(==)>(s: seq<T>) {
    forall i, j :: 0 <= i < j < |s| ==> s[i] != s[j]
  }

  lemma ConsTail<T>(s: seq<T>)
    requires |s| > 0
    ensures [s[0]] + s[1..] == s
  {
  }

  /** Index of the first element satisfying `p`, or `|s|` when none does:
      the position where a first-success loop stops. */
  function FirstWhere<T>(s: seq<T>, p: T -> bool): (k: nat)
    ensures k <= |s|
    ensures k < |s| ==> p(s[k])
    ensures forall i :: 0 <= i < k ==> !p(s[i])
  {
    if |s| == 0 || p(s[0]) then 0 else 1 + FirstWhere(s[1..], p)
  }

  /** `list(set(xs))` with the first occurrence of each element kept in
      place. Python leaves the order of a set unspecified; nothing below
      depends on it. */
  function Dedup<T(==,!new)>(xs: seq<T>): (r: seq<T>)
    ensures Distinct(r)
    ensures forall x :: x in r <==> x in xs
    ensures |r| <= |xs|
    decreases |xs|
  {
    if |xs| == 0 then []
    else
      var rest := Dedup(xs[..|xs| - 1]);
      var x := xs[|xs| - 1];
      assert forall y :: y in xs <==> y in xs[..|xs| - 1] || y == x;
      if x in rest then rest else rest + [x]
  }

  /** Deduplicating a list without repeats changes nothing. */
  lemma {:induction false} DedupOfDistinct<T(!new)>(xs: seq<T>)
    requires Distinct(xs)
    ensures Dedup(xs) == xs
    decreases |xs|
  {
    if |xs| > 0 {
      var init := xs[..|xs| - 1];
      DedupOfDistinct(init);
      assert xs[|xs| - 1] !in init;
      assert init + [xs[|xs| - 1]] == xs;
    }
  }
}

=== FILE: strings.dfy ===
/** Character classes and small string utilities shared by every component.

    Python's `re` module works on Unicode; this model restricts the classes it
    cannot enumerate: `\d` is the ASCII digits, `\w` is ASCII letters, digits,
    underscore and the CJK Unified Ideographs block. Whitespace is Python's
    complete `str.isspace` set, which is also what `\s` matches. */
module Strings {
  import opened Seqs

  predicate IsDigit(c: char) { '0' <= c <= '9' }

  predicate NotDigit(c: char) { !IsDigit(c) }

  predicate IsAsciiLetter(c: char) { 'a' <= c <= 'z' || 'A' <= c <= 'Z' }

  /** CJK Unified Ideographs, U+4E00 to U+9FFF. */
  predicate IsCjk(c: char) { 0x4E00 <= c as int <= 0x9FFF }

  /** The characters Python's `str.isspace` (and `\s`) accepts. */
  predicate IsSpace(c: char) {
    var n := c as int;
    || 9 <= n <= 13
    || 0x1C <= n <= 0x20
    || n == 0x85 || n == 0xA0 || n == 0x1680
    || 0x2000 <= n <= 0x200A
    || n == 0x2028 || n == 0x2029 || n == 0x202F || n == 0x205F || n == 0x3000
  }

  predicate NotSpace(c: char) { !IsSpace(c) }

  /** `\w`, restricted to ASCII alphanumerics, `_` and CJK ideographs. */
  predicate IsWordChar(c: char) { IsAsciiLetter(c) || IsDigit(c) || c == '_' || IsCjk(c) }

  /** ASCII case mapping; every other character is its own lower case here. */
  function LowerChar(c: char): char {
    if 'A' <= c <= 'Z' then (c as int + 32) as char else c
  }

  function Lower(s: string): string {
    seq(|s|, i requires 0 <= i < |s| => LowerChar(s[i]))
  }

  lemma LowerIdempotent(s: string)
    ensures Lower(Lower(s)) == Lower(s)
  {
  }

  predicate AllDigits(s: string) { forall i :: 0 <= i < |s| ==> IsDigit(s[i]) }

  predicate NoSpace(s: string) { forall i :: 0 <= i < |s| ==> !IsSpace(s[i]) }

  predicate StartsWith(s: string, p: string) { |p| <= |s| && s[..|p|] == p }

  predicate EndsWith(s: string, p: string) { |p| <= |s| && s[|s| - |p|..] == p }

  /** Python's `sub in s`. */
  predicate Contains(s: string, sub: string)
    decreases |s|
  {
    StartsWith(s, sub) || (|s| > 0 && Contains(s[1..], sub))
  }

  /** Whatever surrounds it, a string contains itself. */
  lemma {:induction false} ContainsInside(a: string, k: string, b: string)
    ensures Contains(a + k + b, k)
    decreases |a|
  {
    if |a| == 0 {
      assert a + k + b == k + b;
      assert (k + b)[..|k|] == k;
    } else {
      ContainsInside(a[1..], k, b);
      assert (a + k + b)[1..] == a[1..] + k + b;
    }
  }

  lemma LowerConcat(a: string, b: string)
    ensures Lower(a + b) == Lower(a) + Lower(b)
  {
  }

  /** Length of the longest prefix of `s` whose characters all satisfy `p`:
      the greedy run a regular-expression quantifier `[...]*` consumes. */
  function Span(s: string, p: char -> bool): (n: nat)
    ensures n <= |s|
    ensures forall i :: 0 <= i < n ==> p(s[i])
    ensures n < |s| ==> !p(s[n])
  {
    if |s| == 0 || !p(s[0]) then 0 else 1 + Span(s[1..], p)
  }

  /** A run is determined by where it stops: any prefix of satisfying
      characters followed by a failing one (or the end) is the span. */
  lemma SpanIs(s: string, p: char -> bool, k: nat)
    requires k <= |s|
    requires forall i :: 0 <= i < k ==> p(s[i])
    requires k == |s| || !p(s[k])
    ensures Span(s, p) == k
  {
  }

  /** Index of the first `c` in `s`, or `|s|` when there is none. */
  function IndexOf(s: string, c: char): (k: nat)
    ensures k <= |s|
    ensures k < |s| ==> s[k] == c
    ensures forall i :: 0 <= i < k ==> s[i] != c
  {
    if |s| == 0 || s[0] == c then 0 else 1 + IndexOf(s[1..], c)
  }

  // ---------------------------------------------------------------- decimal

  function DigitValue(c: char): nat
    requires IsDigit(c)
  {
    c as int - '0' as int
  }

  function DigitChar(d: nat): (c: char)
    requires d < 10
    ensures IsDigit(c) && DigitValue(c) == d
  {
    ('0' as int + d) as char
  }

  /** Python's `int(s)` for a string of ASCII digits (leading zeros allowed). */
  function DigitsValue(s: string): nat
    requires AllDigits(s)
    decreases |s|
  {
    if |s| == 0 then 0 else DigitsValue(s[..|s| - 1]) * 10 + DigitValue(s[|s| - 1])
  }

  /** Python's `str(n)` for a natural number: the shortest decimal numeral. */
  function NatToString(n: nat): (r: string)
    ensures |r| > 0 && AllDigits(r)
    ensures DigitsValue(r) == n
    ensures r[0] == '0' ==> n == 0 && |r| == 1
    decreases n
  {
    if n < 10 then [DigitChar(n)]
    else
      var h := NatToString(n / 10);
      assert (h + [DigitChar(n % 10)])[..|h|] == h;
      h + [DigitChar(n % 10)]
  }

  /** Python's `str(i)` for any integer. */
  function IntToString(i: int): (r: string)
    ensures |r| > 0
  {
    if i < 0 then "-" + NatToString(-i) else NatToString(i)
  }

  function Zeros(k: nat): (r: string)
    ensures |r| == k && AllDigits(r)
    ensures forall i :: 0 <= i < k ==> r[i] == '0'
  {
    seq(k, i => '0')
  }

  /** Leading zeros do not change the value of a numeral. */
  lemma {:induction false} LeadingZeros(k: nat, d: string)
    requires AllDigits(d)
    ensures AllDigits(Zeros(k) + d)
    ensures DigitsValue(Zeros(k) + d) == DigitsValue(d)
    decreases |d|
  {
    var s := Zeros(k) + d;
    if |d| == 0 {
      assert s == Zeros(k);
      ZerosValue(k);
    } else {
      var d' := d[..|d| - 1];
      assert s[..|s| - 1] == Zeros(k) + d';
      LeadingZeros(k, d');
      assert d[..|d| - 1] == d';
    }
  }

  lemma {:induction false} ZerosValue(k: nat)
    ensures DigitsValue(Zeros(k)) == 0
    decreases k
  {
    if k > 0 {
      assert Zeros(k)[..k - 1] == Zeros(k - 1);
      ZerosValue(k - 1);
    }
  }

  /** Python's `f"{n:03d}"`: the numeral zero-padded to at least three digits. */
  function Pad3(n: nat): (r: string)
    ensures AllDigits(r)
    ensures |r| == if |NatToString(n)| < 3 then 3 else |NatToString(n)|
    ensures DigitsValue(r) == n
  {
    var d := NatToString(n);
    var z := if |d| < 3 then 3 - |d| else 0;
    LeadingZeros(z, d);
    Zeros(z) + d
  }

  /** Distinct counters always give distinct padded numerals. */
  lemma Pad3Injective(m: nat, n: nat)
    requires Pad3(m) == Pad3(n)
    ensures m == n
  {
  }

  // ------------------------------------------------------- splitting, joining

  /** Python's `s.split(sep)` for a one-character separator. */
  function SplitOn(s: string, sep: char): (r: seq<string>)
    ensures |r| >= 1
    ensures forall i :: 0 <= i < |r| ==> sep !in r[i]
    decreases |s|
  {
    var k := IndexOf(s, sep);
    if k == |s| then [s] else [s[..k]] + SplitOn(s[k + 1..], sep)
  }

  /** Python's `sep.join(parts)`. */
  function JoinWith(parts: seq<string>, sep: string): string
    decreases |parts|
  {
    if |parts| == 0 then ""
    else if |parts| == 1 then parts[0]
    else parts[0] + sep + JoinWith(parts[1..], sep)
  }

  /** Splitting undoes joining when no part contains the separator. */
  lemma {:induction false} SplitJoin(parts: seq<string>, sep: char)
    requires |parts| >= 1
    requires forall i :: 0 <= i < |parts| ==> sep !in parts[i]
    ensures SplitOn(JoinWith(parts, [sep]), sep) == parts
    decreases |parts|
  {
    var s := JoinWith(parts, [sep]);
    if |parts| == 1 {
      IndexOfAbsent(s, sep);
    } else {
      var rest := JoinWith(parts[1..], [sep]);
      assert s == parts[0] + [sep] + rest;
      IndexOfAfter(parts[0], sep, rest);
      assert s[..|parts[0]|] == parts[0];
      assert s[|parts[0]| + 1..] == rest;
      SplitJoin(parts[1..], sep);
    }
  }

  lemma IndexOfAbsent(s: string, c: char)
    requires c !in s
    ensures IndexOf(s, c) == |s|
  {
  }

  lemma IndexOfAfter(a: string, c: char, b: string)
    requires c !in a
    ensures IndexOf(a + [c] + b, c) == |a|
  {
    var s := a + [c] + b;
    assert s[|a|] == c;
    assert forall i :: 0 <= i < |a| ==> s[i] == a[i];
  }

  /** Python's `s.split()` with no argument: the maximal runs of non-whitespace. */
  function Words(s: string): (r: seq<string>)
    ensures forall i :: 0 <= i < |r| ==> |r[i]| > 0 && NoSpace(r[i])
    decreases |s|
  {
    var a := Span(s, IsSpace);
    if a == |s| then []
    else
      var rest := s[a..];
      var w := Span(rest, NotSpace);
      assert rest[0] == s[a];
      WordPrefix(rest, w);
      [rest[..w]] + Words(rest[w..])
  }

  /** Leading whitespace does not change the words. */
  lemma WordsSkipSpaces(w: string, t: string)
    requires forall i :: 0 <= i < |w| ==> IsSpace(w[i])
    ensures Words(w + t) == Words(t)
  {
    var s := w + t;
    var k := Span(t, IsSpace);
    forall i | 0 <= i < |w| + k ensures IsSpace(s[i]) {
      if i >= |w| {
        assert s[i] == t[i - |w|];
      }
    }
    if k < |t| {
      assert s[|w| + k] == t[k];
    }
    SpanIs(s, IsSpace, |w| + k);
    assert s[|w| + k..] == t[k..];
  }

  /** A string starting with a non-space character begins with a word. */
  lemma WordsUnfold(x: string)
    requires |x| > 0 && !IsSpace(x[0])
    ensures Words(x) == [x[..Span(x, NotSpace)]] + Words(x[Span(x, NotSpace)..])
  {
    SpanIs(x, IsSpace, 0);
    assert x[0..] == x;
  }

  /** The words of a non-space character in front of a string: a word of
      its own when the string is empty or starts with a space, otherwise
      the start of the string's first word. */
  lemma WordsOfChar(c: char, x: string)
    requires !IsSpace(c)
    ensures |x| > 0 && !IsSpace(x[0]) ==> |Words(x)| > 0
    ensures Words([c] + x) ==
      if |x| == 0 || IsSpace(x[0]) then [[c]] + Words(x) else [[c] + Words(x)[0]] + Words(x)[1..]
  {
    var s := [c] + x;
    if |x| == 0 || IsSpace(x[0]) {
      WordsOfCharAlone(c, x);
    } else {
      var wx := Span(x, NotSpace);
      WordsUnfold(x);
      WordsUnfold(s);
      SpanCons(c, x, NotSpace);
      assert s[..1 + wx] == [c] + x[..wx];
      assert s[1 + wx..] == x[wx..];
    }
  }

  lemma WordsOfCharAlone(c: char, x: string)
    requires !IsSpace(c) && (|x| == 0 || IsSpace(x[0]))
    ensures Words([c] + x) == [[c]] + Words(x)
  {
    var s := [c] + x;
    SpanIs(s, NotSpace, 1);
    WordsUnfold(s);
    assert s[..1] == [c] && s[1..] == x;
  }

  /** A character that satisfies `p` extends the run at the front by one. */
  lemma SpanCons(c: char, x: string, p: char -> bool)
    requires p(c)
    ensures Span([c] + x, p) == 1 + Span(x, p)
  {
    assert ([c] + x)[1..] == x;
  }

  /** A non-space character in front of two strings with the same words
      and the same leading space gives the same words. */
  lemma WordsConsChar(c: char, x: string, y: string)
    requires !IsSpace(c) && Words(x) == Words(y)
    requires |x| > 0 <==> |y| > 0
    requires |x| > 0 ==> (IsSpace(x[0]) <==> IsSpace(y[0]))
    ensures Words([c] + x) == Words([c] + y)
  {
    WordsOfChar(c, x);
    WordsOfChar(c, y);
  }

  /** The non-space run at the start of a string not starting with a space
      is a word. */
  lemma WordPrefix(s: string, w: nat)
    requires |s| > 0 && !IsSpace(s[0]) && w == Span(s, NotSpace)
    ensures |s[..w]| > 0 && NoSpace(s[..w])
  {
    assert NotSpace(s[0]);
    forall i | 0 <= i < w ensures !IsSpace(s[..w][i]) {
      assert s[..w][i] == s[i];
      assert NotSpace(s[i]);
    }
  }

  /** Splitting on whitespace undoes joining with single spaces, provided every
      word is non-empty and free of whitespace. */
  lemma {:induction false} WordsOfJoin(ws: seq<string>)
    requires forall i :: 0 <= i < |ws| ==> |ws[i]| > 0 && NoSpace(ws[i])
    ensures Words(JoinWith(ws, " ")) == ws
    decreases |ws|
  {
    if |ws| == 1 {
      WordsOfWord(ws[0]);
    } else if |ws| > 1 {
      var tail := ws[1..];
      var rest := JoinWith(tail, " ");
      var j := JoinWith(ws, " ");
      assert j == ws[0] + " " + rest;
      WordsOfCons(ws[0], rest);
      assert forall i :: 0 <= i < |tail| ==> tail[i] == ws[i + 1];
      WordsOfJoin(tail);
      assert Words(j) == [ws[0]] + tail;
      ConsTail(ws);
    }
  }

  /** A single word splits into itself. */
  lemma WordsOfWord(w: string)
    requires |w| > 0 && NoSpace(w)
    ensures Words(w) == [w]
  {
    SpanIs(w, IsSpace, 0);
    SpanIs(w, NotSpace, |w|);
    assert w[0..] == w;
    assert w[..|w|] == w;
    assert w[|w|..] == "";
    assert Words("") == [];
  }

  /** A word, a space and a tail split into the word and the tail's words. */
  lemma WordsOfCons(w: string, rest: string)
    requires |w| > 0 && NoSpace(w)
    ensures Words(w + " " + rest) == [w] + Words(rest)
  {
    var s := w + " " + rest;
    SpanIs(s, IsSpace, 0);
    assert s[0..] == s;
    SpanIs(s, NotSpace, |w|);
    assert s[..|w|] == w;
    assert s[|w|..] == " " + rest;
    WordsOfLeadingSpace(rest);
  }

  /** One leading space does not change the words of a string. */
  lemma WordsOfLeadingSpace(s: string)
    ensures Words(" " + s) == Words(s)
  {
    var t := " " + s;
    var a := Span(s, IsSpace);
    SpanIs(t, IsSpace, a + 1);
    assert t[a + 1..] == s[a..];
  }

  /** Number of leading whitespace characters `str.strip()` removes. */
  function StripStart(s: string): nat { Span(s, IsSpace) }

  /** Python's `str.strip()`: drop leading and trailing whitespace. */
  function Strip(s: string): (r: string)
    ensures |r| <= |s|
    ensures |r| == 0 || (!IsSpace(r[0]) && !IsSpace(r[|r| - 1]))
    ensures StripStart(s) + |r| <= |s| && r == s[StripStart(s)..StripStart(s) + |r|]
    ensures forall i :: StripStart(s) + |r| <= i < |s| ==> IsSpace(s[i])
  {
    var a := Span(s, IsSpace);
    var t := s[a..];
    var r := StripEnd(t);
    assert r == s[a..a + |r|];
    r
  }

  /** Drop trailing whitespace. */
  function StripEnd(s: string): (r: string)
    ensures |r| <= |s| && r == s[..|r|]
    ensures |r| == 0 || !IsSpace(r[|r| - 1])
    ensures forall i :: |r| <= i < |s| ==> IsSpace(s[i])
    ensures |s| > 0 && !IsSpace(s[0]) ==> |r| > 0
    decreases |s|
  {
    if |s| > 0 && IsSpace(s[|s| - 1]) then StripEnd(s[..|s| - 1]) else s
  }
}

=== FILE: temp_cleanup.dfy ===
/** Removal of the temporary extraction directories (file_processor.py):
    `cleanup_temp_directories` and the ordered fallback of
    `_try_cleanup_directory` over four strategies. The filesystem and the
    `rd` subprocess are an oracle: each strategy's observable effect on a
    directory is given as data. */
module TempCleanup {
  import opened Seqs

  /** How one strategy ended, as the loop of `_try_cleanup_directory` sees
      it: an exception reaching the loop, or a returned verdict. */
  datatype Outcome = Raised | Returned(ok: bool)

  /** The body of a strategy's `try`: it raised, or it ran to the end and
      the directory is then gone or still there. */
  datatype Effect = Threw | Completed(gone: bool)

  /** The Windows `rd /s /q` call: it could not run (timeout, missing
      binary), or it exited with a code. */
  datatype Command = NotRun | Exited(code: int)

  /** Everything the four strategies observe for one directory. */
  datatype Env = Env(rmtree: Effect, recursive: Effect, walkCompletes: bool, isWindows: bool, rd: Command)

  /** `_cleanup_direct_rmtree` and `_cleanup_recursive_delete` end alike:
      success iff the removal returned and the directory no longer exists;
      an exception (for the recursive delete, the final `rmdir` of a root
      with anything left) is swallowed. Per-entry errors of the recursive
      delete are ignored and show only in the final effect. */
  function RemoveThenCheck(e: Effect): (r: Outcome)
    ensures r.Returned?
    ensures r.ok ==> e.Completed?
  {
    Returned(e == Completed(true))
  }

  /** `_cleanup_file_by_file`: removes the files it can and reports success
      whenever the walk itself did not raise — whether or not the directory
      is gone. */
  function FileByFile(walkCompletes: bool): (r: Outcome)
    ensures r.Returned?
  {
    Returned(walkCompletes)
  }

  /** `_cleanup_force_delete`: off Windows it refuses at once; on Windows it
      succeeds iff `rd` exited with 0. */
  function ForceDelete(isWindows: bool, rd: Command): (r: Outcome)
    ensures r.Returned?
    ensures r.ok ==> isWindows
  {
    if !isWindows then Returned(false)
    else Returned(rd == Exited(0))
  }

  /** The strategies in the order `_try_cleanup_directory` lists them. */
  function Strategies(env: Env): seq<Outcome> {
    [RemoveThenCheck(env.rmtree), RemoveThenCheck(env.recursive), FileByFile(env.walkCompletes),
     ForceDelete(env.isWindows, env.rd)]
  }

  /** The loop of `_try_cleanup_directory`: strategies run in order until
      one returns true; an exception moves on to the next. The result is
      the verdict and how many strategies ran. */
  function TryCleanup(steps: seq<Outcome>): (r: (bool, nat))
    ensures r.1 <= |steps|
    ensures r.0 <==> exists i :: 0 <= i < |steps| && steps[i] == Returned(true)
    ensures r.0 ==> r.1 > 0 && steps[r.1 - 1] == Returned(true)
    ensures forall i :: 0 <= i < |steps| && (!r.0 || i < r.1 - 1) ==> steps[i] != Returned(true)
    ensures !r.0 ==> r.1 == |steps|
  {
    var k := FirstWhere(steps, Accepted);
    if k < |steps| then (true, k + 1) else (false, |steps|)
  }

  predicate Accepted(o: Outcome) { o == Returned(true) }

  /** Cleanup of one existing directory. */
  function Cleanup(env: Env): (bool, nat) {
    TryCleanup(Strategies(env))
  }

  /** A directory is reported clean iff rmtree removed it, the recursive
      delete removed it, the file walk completed, or `rd` exited with 0 on
      Windows. */
  lemma CleanupSucceedsIff(env: Env)
    ensures Cleanup(env).0 <==>
      env.rmtree == Completed(true) || env.recursive == Completed(true) || env.walkCompletes ||
      (env.isWindows && env.rd == Exited(0))
  {
    var s := Strategies(env);
    assert s[0] == Returned(env.rmtree == Completed(true));
    assert s[1] == Returned(env.recursive == Completed(true));
    assert s[2] == Returned(env.walkCompletes);
    assert s[3] == Returned(env.isWindows && env.rd == Exited(0));
  }

  /** A completed walk ends the fallback with success at the third strategy
      at the latest, even when every file survived: the forced delete is
      then never tried. */
  lemma WalkCompletedSucceeds(env: Env)
    requires env.walkCompletes
    ensures Cleanup(env).0
    ensures Cleanup(env).1 <= 3
  {
    var s := Strategies(env);
    assert s[2] == Returned(true);
  }

  /** The forced delete runs, or the directory is reported as failed, only
      when the file walk raised. */
  lemma ForceOnlyAfterWalkRaised(env: Env)
    requires Cleanup(env).1 == 4 || !Cleanup(env).0
    ensures !env.walkCompletes
  {
    if env.walkCompletes {
      WalkCompletedSucceeds(env);
    }
  }

  /** A directory that nothing removed still counts as cleaned. */
  lemma SurvivingDirCounted()
    ensures Cleanup(Env(Threw, Threw, true, false, NotRun)) == (true, 3)
  {
    var s := Strategies(Env(Threw, Threw, true, false, NotRun));
    assert s[0] == Returned(false) && s[1] == Returned(false) && s[2] == Returned(true);
  }

  /** Whether a tracked directory exists when cleanup starts. */
  datatype DirState = Missing | Present(env: Env)

  predicate Cleaned(st: DirState) { st.Present? && Cleanup(st.env).0 }

  predicate FailedDir(st: DirState) { st.Present? && !Cleanup(st.env).0 }

  /** The three counters of the loop over the unique directories. */
  datatype Counts = Counts(cleaned: nat, failed: nat, skipped: nat)

  function Tally(dirs: seq<string>, state: string -> DirState): (r: Counts)
    ensures r.cleaned + r.failed + r.skipped == |dirs|
    ensures r.cleaned > 0 <==> exists d :: d in dirs && Cleaned(state(d))
    ensures r.failed > 0 <==> exists d :: d in dirs && FailedDir(state(d))
    ensures r.skipped > 0 <==> exists d :: d in dirs && state(d) == Missing
    decreases |dirs|
  {
    if |dirs| == 0 then Counts(0, 0, 0)
    else
      var c := Tally(dirs[1..], state);
      assert forall d :: d in dirs <==> d == dirs[0] || d in dirs[1..];
      var st := state(dirs[0]);
      if st == Missing then c.(skipped := c.skipped + 1)
      else if Cleanup(st.env).0 then c.(cleaned := c.cleaned + 1)
      else c.(failed := c.failed + 1)
  }

  /** What `cleanup_temp_directories` leaves behind: its counters, the
      directories handed to the background retry, and the tracked list. */
  datatype Report = Report(counts: Counts, background: seq<string>, tracked: seq<string>)

  /** `cleanup_temp_directories` over the tracked list and the state of
      each directory. */
  function CleanupAll(tracked: seq<string>, state: string -> DirState): (r: Report)
    ensures r.tracked == []
    ensures r.counts.cleaned + r.counts.failed + r.counts.skipped == |Dedup(tracked)|
    ensures r.counts.failed > 0 <==> exists d :: d in tracked && FailedDir(state(d))
    ensures r.counts.skipped > 0 <==> exists d :: d in tracked && state(d) == Missing
    ensures r.counts.failed > 0 ==> r.background == Dedup(tracked)
    ensures r.counts.failed == 0 ==> r.background == []
  {
    var unique := Dedup(tracked);
    var c := Tally(unique, state);
    Report(c, if c.failed > 0 then unique else [], [])
  }

  /** Each directory is handled once however often it was tracked. */
  lemma CleanupAllIgnoresRepeats(tracked: seq<string>, state: string -> DirState)
    ensures CleanupAll(Dedup(tracked), state) == CleanupAll(tracked, state)
  {
    DedupOfDistinct(Dedup(tracked));
  }

  /** A failure, and with it the background retry, needs a file walk that
      raised on some existing tracked directory. */
  lemma FailureNeedsRaisingWalk(tracked: seq<string>, state: string -> DirState)
    requires CleanupAll(tracked, state).counts.failed > 0
    ensures exists d :: d in tracked && state(d).Present? && !state(d).env.walkCompletes
  {
    var d :| d in tracked && FailedDir(state(d));
    ForceOnlyAfterWalkRaised(state(d).env);
  }
}

=== FILE: title_stats.dfy ===
/** The statistics suffix `_format_title_with_stats` (file_processor.py)
    appends to an article title, and a parser that reads it back. */
module TitleStats {
  import opened Wrappers
  import opened Strings
  import opened Paths
  import opened Media

  /** What a size query answers for one walked file. */
  datatype Probe = Vanished | Sized(bytes: nat) | Unreadable

  datatype Entry = Entry(path: string, probe: Probe)

  datatype Stats = Stats(images: nat, videos: nat, megabytes: nat)

  datatype Totals = Totals(images: nat, videos: nat, bytes: nat)

  const MiB: nat := 1024 * 1024

  /** `int(total / (1024 * 1024))` for a total below 2^53, where the float
      division is exact: whole mebibytes, rounded down. */
  function Megabytes(bytes: nat): nat { bytes / MiB }

  /** The paths of the files the walk finds present. */
  function Present(entries: seq<Entry>): (r: seq<string>)
    ensures |r| <= |entries|
    decreases |entries|
  {
    if |entries| == 0 then []
    else if entries[0].probe.Sized? then [entries[0].path] + Present(entries[1..])
    else Present(entries[1..])
  }

  /** The sizes of the present files, added up. */
  function SizeSum(entries: seq<Entry>): nat
    decreases |entries|
  {
    if |entries| == 0 then 0
    else (if entries[0].probe.Sized? then entries[0].probe.bytes else 0) + SizeSum(entries[1..])
  }

  /** The walk of `_format_title_with_stats`: a file that vanished is
      skipped, every present file adds its size and images and videos are
      counted; `None` when a size query raises. */
  function Tally(classify: string -> Kind, entries: seq<Entry>): (r: Option<Totals>)
    ensures r.None? <==> exists i :: 0 <= i < |entries| && entries[i].probe.Unreadable?
    ensures r.Some? ==> r.value.images == CountKind(classify, Image, Present(entries))
    ensures r.Some? ==> r.value.videos == CountKind(classify, Video, Present(entries))
    ensures r.Some? ==> r.value.bytes == SizeSum(entries)
    ensures r.Some? ==> r.value.images + r.value.videos <= |Present(entries)|
    decreases |entries|
  {
    if |entries| == 0 then Some(Totals(0, 0, 0))
    else
      var rest := Tally(classify, entries[1..]);
      assert forall i :: 1 <= i < |entries| ==> entries[i] == entries[1..][i - 1];
      match entries[0].probe
      case Unreadable => None
      case Vanished =>
        rest
      case Sized(n) =>
        match rest
        case None => None
        case Some(t) =>
          var k := classify(entries[0].path);
          Some(Totals(if k == Image then t.images + 1 else t.images,
                      if k == Video then t.videos + 1 else t.videos,
                      t.bytes + n))
  }

  /** The bracketed statistics; the video count appears only when there are
      videos. */
  function StatsText(s: Stats): string {
    "[" + StatsBody(s)
  }

  function StatsBody(s: Stats): string {
    if s.videos > 0 then
      NatToString(s.images) + "P+" + NatToString(s.videos) + "V" + SizeText(s.megabytes)
    else
      NatToString(s.images) + "P" + SizeText(s.megabytes)
  }

  function SizeText(mb: nat): string {
    " - " + NatToString(mb) + "MB]"
  }

  /** `_format_title_with_stats`: the base title followed by the statistics,
      the size in whole mebibytes rounded down; the base alone when the walk
      raises. */
  function FormatTitle(base: string, entries: seq<Entry>): (r: string)
    ensures Tally(KindOf, entries).None? ==> r == base
    ensures Tally(KindOf, entries).Some? ==> |r| > |base| && r[..|base|] == base
  {
    match Tally(KindOf, entries)
    case None => base
    case Some(t) =>
      var text := StatsText(Stats(t.images, t.videos, Megabytes(t.bytes)));
      JoinedPrefix(base, text);
      base + " " + text
  }

  lemma JoinedPrefix(base: string, text: string)
    ensures |base + " " + text| > |base| && (base + " " + text)[..|base|] == base
  {
    assert (base + " " + text)[..|base|] == base;
  }

  /** Reads a title back: the base before the last ` [`, and the three
      numbers of the statistics. */
  function ParseTitle(t: string): Option<(string, Stats)> {
    var k := LastIndex(t, '[');
    if k < 1 || t[k - 1] != ' ' then None
    else
      match ParseStats(t[k + 1..])
      case None => None
      case Some(s) => Some((t[..k - 1], s))
  }

  function ParseStats(u: string): Option<Stats> {
    var n := Span(u, IsDigit);
    if n == 0 || n == |u| || u[n] != 'P' then None
    else
      match ParseRest(u[n + 1..])
      case None => None
      case Some(r) => Some(Stats(DigitsValue(u[..n]), r.0, r.1))
  }

  /** After the image count: an optional `+<videos>V`, then the size. */
  function ParseRest(rest: string): Option<(nat, nat)> {
    if |rest| > 0 && rest[0] == '+' then ParseVideos(rest[1..])
    else
      match ParseSize(rest)
      case None => None
      case Some(mb) => Some((0, mb))
  }

  function ParseVideos(w: string): Option<(nat, nat)> {
    var m := Span(w, IsDigit);
    if m == 0 || m == |w| || w[m] != 'V' then None
    else
      match ParseSize(w[m + 1..])
      case None => None
      case Some(mb) => Some((DigitsValue(w[..m]), mb))
  }

  function ParseSize(u: string): Option<nat> {
    if !StartsWith(u, " - ") then None
    else
      var w := u[3..];
      var n := Span(w, IsDigit);
      if n == 0 || w[n..] != "MB]" then None else Some(DigitsValue(w[..n]))
  }

  /** A numeral followed by a non-digit is read back as itself. */
  lemma NumeralThen(d: string, rest: string)
    requires |d| > 0 && AllDigits(d) && |rest| > 0 && !IsDigit(rest[0])
    ensures Span(d + rest, IsDigit) == |d|
    ensures (d + rest)[..|d|] == d && (d + rest)[|d|..] == rest
  {
    var u := d + rest;
    assert u[..|d|] == d;
    assert u[|d|..] == rest;
    SpanIs(u, IsDigit, |d|);
  }

  lemma ParseSizeOf(c: string)
    requires |c| > 0 && AllDigits(c)
    ensures ParseSize(" - " + c + "MB]") == Some(DigitsValue(c))
  {
    var u := " - " + c + "MB]";
    assert u[..3] == " - ";
    assert u[3..] == c + "MB]";
    NumeralThen(c, "MB]");
  }

  lemma ParseWithoutVideos(a: string, z: string)
    requires |a| > 0 && AllDigits(a) && ParseSize(z).Some?
    requires |z| == 0 || z[0] != '+'
    ensures ParseStats(a + ("P" + z)) == Some(Stats(DigitsValue(a), 0, ParseSize(z).value))
  {
    ParseStatsOf(a, z);
  }

  /** The image count and `P` are read off, the rest goes to `ParseRest`. */
  lemma ParseStatsOf(a: string, t: string)
    requires |a| > 0 && AllDigits(a)
    ensures var r := ParseRest(t);
      ParseStats(a + ("P" + t)) == if r.Some? then Some(Stats(DigitsValue(a), r.value.0, r.value.1)) else None
  {
    NumeralThen(a, "P" + t);
    assert ("P" + t)[1..] == t;
  }

  lemma ParseVideosOf(b: string, z: string)
    requires |b| > 0 && AllDigits(b) && ParseSize(z).Some?
    ensures ParseVideos(b + ("V" + z)) == Some((DigitsValue(b), ParseSize(z).value))
  {
    NumeralThen(b, "V" + z);
    assert ("V" + z)[1..] == z;
  }

  lemma ParseWithVideos(a: string, b: string, z: string)
    requires |a| > 0 && AllDigits(a) && |b| > 0 && AllDigits(b) && ParseSize(z).Some?
    ensures ParseStats(a + ("P" + ("+" + (b + ("V" + z))))) == Some(Stats(DigitsValue(a), DigitsValue(b), ParseSize(z).value))
  {
    var tail := "+" + (b + ("V" + z));
    ParseStatsOf(a, tail);
    assert tail[1..] == b + ("V" + z);
    ParseVideosOf(b, z);
  }

  lemma BodyRoundTrip(s: Stats)
    ensures ParseStats(StatsBody(s)) == Some(s)
  {
    var a, c := NatToString(s.images), NatToString(s.megabytes);
    var z := SizeText(s.megabytes);
    ParseSizeOf(c);
    if s.videos > 0 {
      var b := NatToString(s.videos);
      VideoBodyShape(a, b, z);
      ParseWithVideos(a, b, z);
    } else {
      assert StatsBody(s) == a + "P" + z == a + ("P" + z);
      ParseWithoutVideos(a, z);
    }
  }

  lemma VideoBodyShape(a: string, b: string, z: string)
    ensures a + "P+" + b + "V" + z == a + ("P" + ("+" + (b + ("V" + z))))
  {
    assert "P+" == "P" + "+";
  }

  lemma NoBracketInBody(s: Stats)
    ensures '[' !in StatsBody(s)
  {
    var a, b, c := NatToString(s.images), NatToString(s.videos), NatToString(s.megabytes);
    assert forall i :: 0 <= i < |a| ==> IsDigit(a[i]);
    assert forall i :: 0 <= i < |b| ==> IsDigit(b[i]);
    assert forall i :: 0 <= i < |c| ==> IsDigit(c[i]);
  }

  /** The last `[` of a title is the one that opens the statistics. */
  lemma LastBracket(base: string, body: string)
    requires '[' !in body
    ensures var t := base + " " + "[" + body;
            && LastIndex(t, '[') == |base| + 1
            && t[|base|] == ' '
            && t[|base| + 2..] == body
            && t[..|base|] == base
  {
    var t := base + " " + "[" + body;
    var k := |base| + 1;
    assert forall i :: k < i < |t| ==> t[i] == body[i - k - 1];
    LastIndexAt(t, '[', k);
    assert t[k + 1..] == body;
    assert t[..k - 1] == base;
  }

  /** The statistics text reads back as the base title and the numbers that
      produced it, whatever the base contains. */
  lemma TitleRoundTrip(base: string, s: Stats)
    ensures ParseTitle(base + " " + StatsText(s)) == Some((base, s))
  {
    var body := StatsBody(s);
    NoBracketInBody(s);
    LastBracket(base, body);
    assert base + " " + StatsText(s) == base + " " + "[" + body;
    BodyRoundTrip(s);
  }

  /** The formatted title carries the walk's counts and its size in whole
      mebibytes. */
  lemma FormatTitleParses(base: string, entries: seq<Entry>)
    requires Tally(KindOf, entries).Some?
    ensures var t := Tally(KindOf, entries).value;
            ParseTitle(FormatTitle(base, entries)) == Some((base, Stats(t.images, t.videos, Megabytes(t.bytes))))
  {
    var t := Tally(KindOf, entries).value;
    TitleRoundTrip(base, Stats(t.images, t.videos, Megabytes(t.bytes)));
  }
}

=== FILE: upload.dfy ===
/** The upload session (api_handler.py): login with retries and linear
    backoff, token reuse, re-authentication on 401/403, image selection and
    ordering, fixed-size batches uploaded all-or-nothing, and article
    submission. The server is an oracle answering the n-th request; sleeps
    are recorded instead of taken. */
module Upload {
  import opened Wrappers
  import opened Strings
  import opened Paths
  import opened NaturalOrder

  /** The configuration defaults (config.py). */
  const DefaultBatchSize: int := 40
  const DefaultMaxRetries: int := 3

  /** The `data` member of a reply body as the client reads it: absent (the
      client's default applies), an object with its `token`, its `success`
      flag and the kind of its own `data` member, an array with each
      element's `url` ("" where an element has none) and whether every
      element is an object, or anything else (null, a number, a string, a
      boolean). */
  datatype Data =
    | Absent
    | Object(token: string, success: bool, detail: Member)
    | Array(urls: seq<string>, objects: bool)
    | Scalar

  /** The kind of a nested `data` member: absent, an object, or anything
      else. */
  datatype Member = MemberAbsent | MemberObject | MemberOther

  /** A parsed reply body: whether it is a JSON object (every `.get` on it
      raises otherwise), its `code` and its `data` member. */
  datatype Json = Json(isObject: bool, code: Option<int>, data: Data)

  /** One exchange as the client sees it: the attempt raised (connection
      error, timeout, unreadable file), or a status with a body that does or
      does not parse as JSON. */
  datatype Reply = Raised | Http(status: int, json: Option<Json>)

  datatype Request =
    | LoginRequest
    | UploadRequest(files: seq<string>)
    | ArticleRequest(title: string, images: seq<string>, cover: string)

  /** The server: the reply to the n-th request the client sends. */
  type Net = (nat, Request) -> Reply

  predicate IsOkStatus(st: int) { st == 200 || st == 201 }

  predicate IsAuthStatus(st: int) { st == 401 || st == 403 }

  predicate IsOkCode(c: Option<int>) { c.Some? && (c.value == 0 || c.value == 200 || c.value == 201) }

  function Bearer(token: string): string { "Bearer " + token }

  /** Client state: the stored access token, the `Authorization` header,
      the requests attempted so far, in order, and the sleeps taken, in
      seconds. The log records attempts, not deliveries: an attempt whose
      reply is `Raised` is logged even when it never reached the server,
      as when a file of the batch could not be opened. */
  datatype Session = Session(token: string, header: Option<string>, log: seq<Request>, sleeps: seq<nat>)

  /** The sleeps after `n` failed attempts from attempt `k` on: the first
      lasts `(k + 1) * 5` seconds and each later one 5 seconds more. */
  function Backoff(k: nat, n: nat): (r: seq<nat>)
    ensures |r| == n
    ensures n > 0 ==> r[0] == (k + 1) * 5
    ensures forall i :: 0 < i < n ==> r[i] == r[i - 1] + 5
  {
    seq(n, i requires 0 <= i < n => (k + i + 1) * 5)
  }

  /** The total of a list of sleeps, in seconds. */
  function SleepTotal(xs: seq<nat>): nat
  {
    if |xs| == 0 then 0 else xs[0] + SleepTotal(xs[1..])
  }

  /** `n` backed-off sleeps from attempt `k` on take `5 * n * (2k + n + 1) / 2`
      seconds in all: an arithmetic series. */
  lemma {:induction false} BackoffTotal(k: nat, n: nat)
    ensures 2 * SleepTotal(Backoff(k, n)) == 5 * n * (2 * k + n + 1)
    decreases n
  {
    if n > 0 {
      BackoffTotal(k + 1, n - 1);
      BackoffCons(k, n - 1);
      assert Backoff(k, n)[1..] == Backoff(k + 1, n - 1);
    }
  }

  lemma BackoffCons(k: nat, n: nat)
    ensures [(k + 1) * 5] + Backoff(k + 1, n) == Backoff(k, n + 1)
  {
  }

  /** Attempts left in a retry loop at attempt `k` of `max`. */
  function Left(k: nat, max: int): nat { if k < max then max - k else 0 }

  /** The sleep after failed attempt `k`: `(k + 1) * 5` seconds, except
      after the last attempt. */
  function SleepAfter(k: nat, max: int, s: Session): (r: Session)
    ensures r.sleeps == s.sleeps + (if k + 1 < max then Backoff(k, 1) else [])
  {
    if k < max - 1 then s.(sleeps := s.sleeps + [(k + 1) * 5]) else s
  }

  function Send(s: Session, q: Request): Session { s.(log := s.log + [q]) }

  /** How many times `q` was sent from position `n` of the log on. */
  function SentSince(s: Session, n: nat, q: Request): nat
    requires n <= |s.log|
  {
    multiset(s.log[n..])[q]
  }

  lemma SentSinceSplit(s: Session, s1: Session, n: nat, q: Request)
    requires n <= |s.log| && s.log <= s1.log
    ensures SentSince(s1, n, q) == SentSince(s, n, q) + SentSince(s1, |s.log|, q)
  {
    assert s1.log[n..] == s.log[n..] + s1.log[|s.log|..];
  }

  // ----------------------------------------------------------------- login

  /** A login reply is accepted with status 200/201, an object body with a
      success code, and a non-empty token in an object `data`. Any other
      body shape makes the client raise, which it treats as a refusal. */
  predicate LoginAccepted(r: Reply) {
    r.Http? && IsOkStatus(r.status) && r.json.Some? && r.json.value.isObject &&
    IsOkCode(r.json.value.code) && r.json.value.data.Object? && r.json.value.data.token != ""
  }

  /** Only logins were sent between `s` and `s1`. */
  predicate OnlyLogins(s: Session, s1: Session) {
    s.log <= s1.log && forall i :: |s.log| <= i < |s1.log| ==> s1.log[i] == LoginRequest
  }

  /** The loop of `login` from attempt `k` on. */
  function LoginFrom(k: nat, max: int, s: Session, net: Net): (r: (bool, Session))
    ensures OnlyLogins(s, r.1) && |r.1.log| <= |s.log| + Left(k, max)
    ensures !r.0 ==> |r.1.log| == |s.log| + Left(k, max) && r.1.token == s.token && r.1.header == s.header
    ensures r.0 ==> |r.1.log| > |s.log| && LoginAccepted(net(|r.1.log| - 1, LoginRequest))
    ensures r.0 ==> r.1.token == net(|r.1.log| - 1, LoginRequest).json.value.data.token
    ensures r.0 ==> r.1.header == Some(Bearer(r.1.token))
    decreases Left(k, max)
  {
    if k >= max then (false, s)
    else
      var reply := net(|s.log|, LoginRequest);
      if LoginAccepted(reply) then
        var t := reply.json.value.data.token;
        (true, Send(s, LoginRequest).(token := t, header := Some(Bearer(t))))
      else LoginFrom(k + 1, max, SleepAfter(k, max, Send(s, LoginRequest)), net)
  }

  /** Login stops at the first acceptable reply: every earlier reply, and
      on failure every reply, was refused. */
  lemma {:induction false} LoginFirstAccepted(k: nat, max: int, s: Session, net: Net)
    ensures var r := LoginFrom(k, max, s, net);
      forall i :: |s.log| <= i < |r.1.log| && (i < |r.1.log| - 1 || !r.0) ==> !LoginAccepted(net(i, LoginRequest))
    decreases Left(k, max)
  {
    if k < max && !LoginAccepted(net(|s.log|, LoginRequest)) {
      LoginFirstAccepted(k + 1, max, SleepAfter(k, max, Send(s, LoginRequest)), net);
    }
  }

  /** The sleeps of a login: `(k + 1) * 5` seconds after each failed attempt
      but the last one made. */
  lemma {:induction false} LoginSleeps(k: nat, max: int, s: Session, net: Net)
    ensures var r := LoginFrom(k, max, s, net);
      r.1.sleeps == s.sleeps + Backoff(k, if |r.1.log| > |s.log| then |r.1.log| - |s.log| - 1 else 0)
    decreases Left(k, max)
  {
    if k < max && !LoginAccepted(net(|s.log|, LoginRequest)) {
      var s1 := SleepAfter(k, max, Send(s, LoginRequest));
      LoginSleeps(k + 1, max, s1, net);
      var r := LoginFrom(k + 1, max, s1, net);
      BackoffCons(k, if |r.1.log| > |s1.log| then |r.1.log| - |s1.log| - 1 else 0);
    }
  }

  /** `login`: at most `max` requests; a stored token and header on success,
      nothing changed on failure. */
  function Login(max: int, s: Session, net: Net): (bool, Session) {
    LoginFrom(0, max, s, net)
  }

  /** Login succeeds iff one of the first `max` replies is acceptable. */
  lemma LoginSucceedsIff(max: int, s: Session, net: Net)
    ensures Login(max, s, net).0 <==>
      exists i :: |s.log| <= i < |s.log| + Left(0, max) && LoginAccepted(net(i, LoginRequest))
  {
    LoginFirstAccepted(0, max, s, net);
  }

  /** With the default three attempts all refused, the client sends three
      login requests and sleeps 5 and then 10 seconds. */
  lemma LoginBackoffDefault(s: Session, net: Net)
    requires forall i :: |s.log| <= i < |s.log| + 3 ==> !LoginAccepted(net(i, LoginRequest))
    ensures Login(DefaultMaxRetries, s, net).1.sleeps == s.sleeps + [5, 10]
    ensures Login(DefaultMaxRetries, s, net).1.log == s.log + [LoginRequest, LoginRequest, LoginRequest]
  {
    LoginSucceedsIff(DefaultMaxRetries, s, net);
    LoginSleeps(0, DefaultMaxRetries, s, net);
    assert Backoff(0, 2) == [5, 10];
    var r := Login(DefaultMaxRetries, s, net).1;
    assert r.log == r.log[..|s.log|] + r.log[|s.log|..];
  }

  /** `is_token_valid`: a stored token counts as valid; the header is added
      only when missing. */
  function TokenValid(s: Session): (r: (bool, Session))
    ensures r.0 <==> s.token != ""
    ensures r.1.token == s.token && r.1.log == s.log && r.1.sleeps == s.sleeps
    ensures s.header.Some? || !r.0 ==> r.1.header == s.header
    ensures s.header.None? && r.0 ==> r.1.header == Some(Bearer(s.token))
  {
    if s.token == "" then (false, s)
    else if s.header.None? then (true, s.(header := Some(Bearer(s.token))))
    else (true, s)
  }

  /** `ensure_login`: a stored token is used without any request; otherwise
      a full login. */
  function EnsureLogin(max: int, s: Session, net: Net): (r: (bool, Session))
    ensures s.token != "" ==> r.0 && r.1.log == s.log && r.1.token == s.token
    ensures s.token != "" && s.header.Some? ==> r.1 == s
    ensures s.token == "" ==> r == Login(max, s, net)
  {
    var (valid, s1) := TokenValid(s);
    if valid then (true, s1) else Login(max, s1, net)
  }

  /** The last request sent between `s` and `s1` was a refused login. */
  predicate ReloginFailed(s: Session, s1: Session, net: Net) {
    |s1.log| > |s.log| && s1.log[|s1.log| - 1] == LoginRequest &&
    !LoginAccepted(net(|s1.log| - 1, LoginRequest))
  }

  /** `_handle_auth_error`: for 401/403 the token and header are dropped and
      a fresh login decides; any other status is refused with nothing
      changed. */
  function HandleAuthError(status: int, max: int, s: Session, net: Net): (r: (bool, Session))
    ensures !IsAuthStatus(status) ==> r == (false, s)
    ensures IsAuthStatus(status) && !r.0 ==> r.1.token == "" && r.1.header == None
    ensures IsAuthStatus(status) && !r.0 && max >= 1 ==> ReloginFailed(s, r.1, net)
    ensures IsAuthStatus(status) && r.0 ==> r.1.token != "" && r.1.header == Some(Bearer(r.1.token))
    ensures OnlyLogins(s, r.1)
  {
    if IsAuthStatus(status) then
      LoginFirstAccepted(0, max, s.(token := "", header := None), net);
      Login(max, s.(token := "", header := None), net)
    else (false, s)
  }

  // ------------------------------------------------------------ selection

  const UploadExtensions: set<string> := {".jpg", ".jpeg", ".png", ".webp"}

  /** The walked files whose lower-cased suffix is an uploadable image. */
  function Selected(files: seq<string>): (r: seq<string>)
    ensures forall f :: f in r <==> f in files && Ext(f) in UploadExtensions
    ensures forall f :: multiset(r)[f] == if Ext(f) in UploadExtensions then multiset(files)[f] else 0
    ensures |r| <= |files|
  {
    if |files| == 0 then []
    else
      var rest := Selected(files[1..]);
      assert forall f :: f in files <==> f == files[0] || f in files[1..];
      SelectedCountStep(files, rest);
      if Ext(files[0]) in UploadExtensions then [files[0]] + rest else rest
  }

  /** One step of `Selected`'s count clause: the head is counted once when kept. */
  lemma SelectedCountStep(files: seq<string>, rest: seq<string>)
    requires |files| > 0
    requires forall f :: multiset(rest)[f] == if Ext(f) in UploadExtensions then multiset(files[1..])[f] else 0
    ensures forall f ::
      multiset(if Ext(files[0]) in UploadExtensions then [files[0]] + rest else rest)[f]
      == if Ext(f) in UploadExtensions then multiset(files)[f] else 0
  {
    assert files == [files[0]] + files[1..];
    assert multiset(files) == multiset{files[0]} + multiset(files[1..]);
    assert multiset([files[0]] + rest) == multiset{files[0]} + multiset(rest);
  }

  /** The selection keeps walk order: selecting from two runs of files is
      selecting from the first, then from the second. */
  lemma {:induction false} SelectedConcat(a: seq<string>, b: seq<string>)
    ensures Selected(a + b) == Selected(a) + Selected(b)
    decreases |a|
  {
    if |a| == 0 {
      assert a + b == b;
    } else {
      assert (a + b)[0] == a[0] && (a + b)[1..] == a[1..] + b;
      SelectedConcat(a[1..], b);
    }
  }

  /** A single file is selected on its own iff its suffix qualifies. */
  lemma SelectedOne(f: string)
    ensures Selected([f]) == if Ext(f) in UploadExtensions then [f] else []
  {
    assert [f][1..] == [];
  }

  /** The upload order: by directory, then by the natural key of the name. */
  function UploadOrder(files: seq<string>): (r: seq<string>)
    ensures Sorted(UploadKey, r)
    ensures multiset(r) == multiset(Selected(files))
    ensures |r| == |Selected(files)|
  {
    var r := SortBy(UploadKey, Selected(files));
    assert |r| == |multiset(r)|;
    r
  }

  /** A GIF is never uploaded. */
  lemma GifNeverUploaded(files: seq<string>, f: string)
    requires Ext(f) == ".gif"
    ensures f !in UploadOrder(files)
  {
    GifNotUploadable();
    var r := UploadOrder(files);
    assert f in r ==> f in multiset(Selected(files));
  }

  lemma GifNotUploadable()
    ensures ".gif" !in UploadExtensions
  {
  }

  // ------------------------------------------------------------- batching

  function Flatten(bs: seq<seq<string>>): seq<string> {
    if |bs| == 0 then [] else bs[0] + Flatten(bs[1..])
  }

  /** `all_images[i:i + size]` for `i` in `range(0, n, size)`. */
  function Batches(xs: seq<string>, size: nat): (r: seq<seq<string>>)
    requires size > 0
    ensures (|r| - 1) * size < |xs| <= |r| * size
    ensures Flatten(r) == xs
    ensures forall i :: 0 <= i < |r| ==> 0 < |r[i]| <= size
    ensures forall i :: 0 <= i < |r| - 1 ==> |r[i]| == size
    decreases |xs|
  {
    if |xs| == 0 then []
    else if |xs| <= size then [xs]
    else
      var rest := Batches(xs[size..], size);
      assert xs == xs[..size] + xs[size..];
      [xs[..size]] + rest
  }

  // --------------------------------------------------------------- upload

  /** The URLs of an upload reply: the non-empty `url` fields, in order. */
  function ReplyUrls(urls: seq<string>): (r: seq<string>)
    ensures forall i :: 0 <= i < |r| ==> r[i] != "" && r[i] in urls
    ensures forall u :: u in urls && u != "" ==> u in r
    ensures |r| + multiset(urls)[""] == |urls|
    decreases |urls|
  {
    if |urls| == 0 then []
    else
      var rest := ReplyUrls(urls[1..]);
      assert forall u :: u in urls <==> u == urls[0] || u in urls[1..];
      assert urls == [urls[0]] + urls[1..];
      if urls[0] != "" then [urls[0]] + rest else rest
  }

  /** `ReplyUrls` keeps order and multiplicity: it works field by field,
      keeping a non-empty `url` and dropping an empty one. */
  lemma {:induction false} ReplyUrlsConcat(a: seq<string>, b: seq<string>)
    ensures ReplyUrls(a + b) == ReplyUrls(a) + ReplyUrls(b)
    decreases |a|
  {
    if |a| == 0 {
      assert a + b == b;
    } else {
      assert (a + b)[0] == a[0] && (a + b)[1..] == a[1..] + b;
      ReplyUrlsConcat(a[1..], b);
      ReplyUrlsHead(a + b);
      ReplyUrlsHead(a);
    }
  }

  lemma ReplyUrlsHead(a: seq<string>)
    requires |a| > 0
    ensures ReplyUrls(a) == (if a[0] != "" then [a[0]] else []) + ReplyUrls(a[1..])
  {
  }

  lemma ReplyUrlsOne(u: string)
    ensures ReplyUrls([u]) == if u != "" then [u] else []
  {
  }

  /** A batch is accepted with status 200/201, an object body with a
      success code, and a `data` array of objects with at least one URL.
      Any other body shape makes the client raise, which it treats as a
      refusal. */
  predicate UploadAccepted(r: Reply) {
    r.Http? && IsOkStatus(r.status) && r.json.Some? && r.json.value.isObject &&
    IsOkCode(r.json.value.code) && r.json.value.data.Array? && r.json.value.data.objects &&
    |ReplyUrls(r.json.value.data.urls)| > 0
  }

  /** A batch went through: the last request made was the batch, it was
      accepted, and its URLs are the ones reported. */
  predicate Delivered(batch: seq<string>, s: Session, urls: seq<string>, s1: Session, net: Net) {
    |s1.log| > |s.log| && s1.log[|s1.log| - 1] == UploadRequest(batch) &&
    var last := net(|s1.log| - 1, UploadRequest(batch));
    UploadAccepted(last) && urls == ReplyUrls(last.json.value.data.urls)
  }

  /** The retry loop of one batch from attempt `k` on: the batch's URLs, or
      `None` once the attempts run out or a re-login fails. */
  function BatchFrom(batch: seq<string>, k: nat, max: int, s: Session, net: Net): (r: (Option<seq<string>>, Session))
    ensures s.log <= r.1.log
    ensures k >= max ==> r == (None, s)
    ensures r.0.Some? ==> Delivered(batch, s, r.0.value, r.1, net)
    decreases Left(k, max)
  {
    if k >= max then (None, s)
    else
      var reply := net(|s.log|, UploadRequest(batch));
      if UploadAccepted(reply) then (Some(ReplyUrls(reply.json.value.data.urls)), Send(s, UploadRequest(batch)))
      else if reply.Http? && IsAuthStatus(reply.status) then
        var (ok, s1) := HandleAuthError(reply.status, max, Send(s, UploadRequest(batch)), net);
        if ok then BatchFrom(batch, k + 1, max, s1, net) else (None, s1)
      else BatchFrom(batch, k + 1, max, SleepAfter(k, max, Send(s, UploadRequest(batch))), net)
  }

  /** The converse of `BatchFrom`'s contract: the batch stops at the first
      accepted reply, so every earlier reply to it, and on failure every
      reply to it, was refused. */
  lemma {:induction false} BatchFirstAccepted(batch: seq<string>, k: nat, max: int, s: Session, net: Net)
    ensures var r := BatchFrom(batch, k, max, s, net);
      forall i :: |s.log| <= i < |r.1.log| && r.1.log[i] == UploadRequest(batch) && (r.0.None? || i < |r.1.log| - 1)
        ==> !UploadAccepted(net(i, UploadRequest(batch)))
    decreases Left(k, max), 1
  {
    var reply := net(|s.log|, UploadRequest(batch));
    if k < max && !UploadAccepted(reply) && reply.Http? && IsAuthStatus(reply.status) {
      BatchFirstAcceptedAuth(batch, k, max, s, net);
    } else if k < max && !UploadAccepted(reply) {
      BatchFirstAccepted(batch, k + 1, max, SleepAfter(k, max, Send(s, UploadRequest(batch))), net);
    }
  }

  lemma {:induction false} BatchFirstAcceptedAuth(batch: seq<string>, k: nat, max: int, s: Session, net: Net)
    requires k < max
    requires var reply := net(|s.log|, UploadRequest(batch));
      !UploadAccepted(reply) && reply.Http? && IsAuthStatus(reply.status)
    ensures var r := BatchFrom(batch, k, max, s, net);
      forall i :: |s.log| <= i < |r.1.log| && r.1.log[i] == UploadRequest(batch) && (r.0.None? || i < |r.1.log| - 1)
        ==> !UploadAccepted(net(i, UploadRequest(batch)))
    decreases Left(k, max), 0
  {
    var q := UploadRequest(batch);
    var s0 := Send(s, q);
    var (ok, s1) := HandleAuthError(net(|s.log|, q).status, max, s0, net);
    if ok {
      var r := BatchFrom(batch, k + 1, max, s1, net);
      BatchFirstAccepted(batch, k + 1, max, s1, net);
      RefusedStep(s, s1, r.1, q, net, UploadAccepted, r.0.None?);
    } else {
      RefusedStep(s, s1, s1, q, net, UploadAccepted, true);
    }
  }

  /** Between the requests of one batch only logins are sent. */
  lemma {:induction false} BatchInterleaving(batch: seq<string>, k: nat, max: int, s: Session, net: Net)
    ensures var r := BatchFrom(batch, k, max, s, net);
      Interleaved(s, r.1, UploadRequest(batch))
    decreases Left(k, max)
  {
    var q := UploadRequest(batch);
    var reply := net(|s.log|, q);
    var s0 := Send(s, q);
    if k < max && UploadAccepted(reply) {
      InterleaveStep(s, s0, s0, q);
    } else if k < max && reply.Http? && IsAuthStatus(reply.status) {
      var (ok, s1) := HandleAuthError(reply.status, max, s0, net);
      if ok {
        BatchInterleaving(batch, k + 1, max, s1, net);
        InterleaveStep(s, s1, BatchFrom(batch, k + 1, max, s1, net).1, q);
      } else {
        InterleaveStep(s, s1, s1, q);
      }
    } else if k < max {
      var s1 := SleepAfter(k, max, s0);
      BatchInterleaving(batch, k + 1, max, s1, net);
      InterleaveStep(s, s1, BatchFrom(batch, k + 1, max, s1, net).1, q);
    }
  }

  /** Each attempt sends the batch once; one that fails with attempts to
      spare ends in a failed re-login. */
  lemma {:induction false} BatchAttempts(batch: seq<string>, k: nat, max: int, s: Session, net: Net)
    ensures var r := BatchFrom(batch, k, max, s, net);
      SentSince(r.1, |s.log|, UploadRequest(batch)) <= Left(k, max) &&
      (r.0.None? ==> SentSince(r.1, |s.log|, UploadRequest(batch)) == Left(k, max) || ReloginFailed(s, r.1, net))
    decreases Left(k, max), 1
  {
    var reply := net(|s.log|, UploadRequest(batch));
    if k < max && !UploadAccepted(reply) && reply.Http? && IsAuthStatus(reply.status) {
      BatchAttemptsAuth(batch, k, max, s, net);
    } else if k < max && !UploadAccepted(reply) {
      BatchAttemptsRetry(batch, k, max, s, net);
    } else if k < max {
      SentOnce(s, UploadRequest(batch));
    }
  }

  lemma {:induction false} BatchAttemptsAuth(batch: seq<string>, k: nat, max: int, s: Session, net: Net)
    requires k < max
    requires var reply := net(|s.log|, UploadRequest(batch));
      !UploadAccepted(reply) && reply.Http? && IsAuthStatus(reply.status)
    ensures var r := BatchFrom(batch, k, max, s, net);
      SentSince(r.1, |s.log|, UploadRequest(batch)) <= Left(k, max) &&
      (r.0.None? ==> SentSince(r.1, |s.log|, UploadRequest(batch)) == Left(k, max) || ReloginFailed(s, r.1, net))
    decreases Left(k, max), 0
  {
    var q := UploadRequest(batch);
    var s0 := Send(s, q);
    SentOnce(s, q);
    var (ok, s1) := HandleAuthError(net(|s.log|, q).status, max, s0, net);
    LoginsNotCounted(s0, s1, |s.log|, q);
    if ok {
      BatchAttempts(batch, k + 1, max, s1, net);
      AttemptStep(s, s1, BatchFrom(batch, k + 1, max, s1, net).1, q, Left(k + 1, max), BatchFrom(batch, k + 1, max, s1, net).0.None?, net);
    }
  }

  lemma {:induction false} BatchAttemptsRetry(batch: seq<string>, k: nat, max: int, s: Session, net: Net)
    requires k < max
    requires var reply := net(|s.log|, UploadRequest(batch));
      !UploadAccepted(reply) && !(reply.Http? && IsAuthStatus(reply.status))
    ensures var r := BatchFrom(batch, k, max, s, net);
      SentSince(r.1, |s.log|, UploadRequest(batch)) <= Left(k, max) &&
      (r.0.None? ==> SentSince(r.1, |s.log|, UploadRequest(batch)) == Left(k, max) || ReloginFailed(s, r.1, net))
    decreases Left(k, max), 0
  {
    var q := UploadRequest(batch);
    var s1 := SleepAfter(k, max, Send(s, q));
    SentOnce(s, q);
    BatchAttempts(batch, k + 1, max, s1, net);
    AttemptStep(s, s1, BatchFrom(batch, k + 1, max, s1, net).1, q, Left(k + 1, max), BatchFrom(batch, k + 1, max, s1, net).0.None?, net);
  }

  lemma SentOnce(s: Session, q: Request)
    ensures SentSince(Send(s, q), |s.log|, q) == 1
  {
    assert Send(s, q).log[|s.log|..] == [q];
  }

  /** From `s` to `s1` only `q` and logins were sent. */
  predicate Interleaved(s: Session, s1: Session, q: Request) {
    forall i :: |s.log| <= i < |s1.log| ==> s1.log[i] == q || s1.log[i] == LoginRequest
  }

  /** `q`, then logins, then a run of `q` and logins. */
  lemma InterleaveStep(s: Session, s1: Session, r: Session, q: Request)
    requires OnlyLogins(Send(s, q), s1) && s1.log <= r.log && Interleaved(s1, r, q)
    ensures Interleaved(s, r, q)
  {
    forall i | |s.log| <= i < |r.log|
      ensures r.log[i] == q || r.log[i] == LoginRequest
    {
      if i < |s1.log| {
        assert r.log[i] == s1.log[i];
        if i == |s.log| {
          assert s1.log[i] == Send(s, q).log[i];
        }
      }
    }
  }

  /** A refused `q`, then logins, then a run in which `q` was refused. */
  lemma RefusedStep(s: Session, s1: Session, r: Session, q: Request, net: Net, accepted: Reply -> bool, all: bool)
    requires OnlyLogins(Send(s, q), s1) && s1.log <= r.log && q != LoginRequest && !accepted(net(|s.log|, q))
    requires forall i :: |s1.log| <= i < |r.log| && r.log[i] == q && (all || i < |r.log| - 1) ==> !accepted(net(i, q))
    ensures forall i :: |s.log| <= i < |r.log| && r.log[i] == q && (all || i < |r.log| - 1) ==> !accepted(net(i, q))
  {
    forall i | |s.log| < i < |s1.log|
      ensures r.log[i] != q
    {
      assert r.log[i] == s1.log[i];
    }
  }

  /** One more attempt, sent once, in front of a run of attempts. */
  lemma AttemptStep(s: Session, s1: Session, r: Session, q: Request, left: nat, failed: bool, net: Net)
    requires |s.log| < |s1.log| && s1.log <= r.log && SentSince(s1, |s.log|, q) == 1
    requires SentSince(r, |s1.log|, q) <= left
    requires failed ==> SentSince(r, |s1.log|, q) == left || ReloginFailed(s1, r, net)
    ensures SentSince(r, |s.log|, q) <= left + 1
    ensures failed ==> SentSince(r, |s.log|, q) == left + 1 || ReloginFailed(s, r, net)
  {
    SentSinceSplit(s1, r, |s.log|, q);
  }

  /** Logins appended to a log do not count as sends of another request. */
  lemma LoginsNotCounted(s0: Session, s1: Session, n: nat, q: Request)
    requires OnlyLogins(s0, s1) && n <= |s0.log| && q != LoginRequest
    ensures SentSince(s1, n, q) == SentSince(s0, n, q)
  {
    SentSinceSplit(s0, s1, n, q);
    assert q !in s1.log[|s0.log|..];
  }

  /** A log that extends `s1` agrees with it on the logins `s1` added. */
  lemma PrefixOnlyLogins(s0: Session, s1: Session, s2: Session)
    requires OnlyLogins(s0, s1) && s1.log <= s2.log
    ensures forall i :: |s0.log| <= i < |s1.log| ==> s2.log[i] == LoginRequest
  {
    assert forall i :: 0 <= i < |s1.log| ==> s2.log[i] == s1.log[i];
  }

  /** Every batch went through, in order: batch `i` was sent at log
      position `pos[i]`, that reply was accepted, and `us[i]` are its URLs;
      the positions increase and lie between the two sessions. */
  predicate AllDelivered(bs: seq<seq<string>>, us: seq<seq<string>>, s: Session, s1: Session, net: Net, pos: seq<nat>) {
    && s.log <= s1.log && |pos| == |bs| == |us|
    && (forall i :: 0 <= i < |pos| ==> |s.log| <= pos[i] < |s1.log|)
    && (forall i, j :: 0 <= i < j < |pos| ==> pos[i] < pos[j])
    && (forall i :: 0 <= i < |pos| ==>
          s1.log[pos[i]] == UploadRequest(bs[i]) && UploadAccepted(net(pos[i], UploadRequest(bs[i]))) &&
          us[i] == ReplyUrls(net(pos[i], UploadRequest(bs[i])).json.value.data.urls))
  }

  /** The batches went through between `s` and `s1` with the URL lists
      `us`. */
  ghost predicate DeliveredAs(bs: seq<seq<string>>, us: seq<seq<string>>, s: Session, s1: Session, net: Net) {
    exists pos :: AllDelivered(bs, us, s, s1, net, pos)
  }

  /** The loops of the first `n` batches chained one after the other:
      batch `i` runs from `ts[i]`, delivers `us[i]` and leaves `ts[i + 1]`,
      where the next batch starts. */
  predicate Ran(bs: seq<seq<string>>, n: nat, us: seq<seq<string>>, max: int, ts: seq<Session>, net: Net) {
    n <= |bs| && |ts| == n + 1 && |us| == n &&
    forall i :: 0 <= i < n ==> BatchFrom(bs[i], 0, max, ts[i], net) == (Some(us[i]), ts[i + 1])
  }

  /** The batches ran one after the other from `s` to `s1`, delivering
      `us`. */
  ghost predicate RanAs(bs: seq<seq<string>>, us: seq<seq<string>>, max: int, s: Session, s1: Session, net: Net) {
    exists ts :: Ran(bs, |bs|, us, max, ts, net) && ts[0] == s && ts[|bs|] == s1
  }

  /** Some batch failed after the ones before it ran, and the upload
      stopped with that failure at `s1`. */
  ghost predicate FailedAfter(bs: seq<seq<string>>, max: int, s: Session, s1: Session, net: Net) {
    exists i: nat, us, ts :: FailedAt(bs, max, s, s1, net, i, us, ts)
  }

  /** Batches `0 .. i-1` ran from `s` through the sessions `ts`, and batch
      `i`, started where they left off, failed, leaving `s1`. */
  predicate FailedAt(bs: seq<seq<string>>, max: int, s: Session, s1: Session, net: Net,
                     i: nat, us: seq<seq<string>>, ts: seq<Session>) {
    i < |bs| && Ran(bs, i, us, max, ts, net) && ts[0] == s && BatchFrom(bs[i], 0, max, ts[i], net) == (None, s1)
  }

  /** The batches in order; the first failed batch ends the upload. */
  function UploadBatches(bs: seq<seq<string>>, max: int, s: Session, net: Net): (r: (Option<seq<seq<string>>>, Session))
    ensures s.log <= r.1.log
    ensures r.0.Some? ==> DeliveredAs(bs, r.0.value, s, r.1, net)
    ensures r.0.Some? ==> RanAs(bs, r.0.value, max, s, r.1, net)
    ensures r.0.None? ==> FailedAfter(bs, max, s, r.1, net)
    decreases |bs|
  {
    if |bs| == 0 then
      assert AllDelivered(bs, [], s, s, net, []);
      assert Ran(bs, 0, [], max, [s], net);
      (Some([]), s)
    else
      var (u, s1) := BatchFrom(bs[0], 0, max, s, net);
      if u.None? then
        FailedFirst(bs, max, s, net);
        (None, s1)
      else
        var (rest, s2) := UploadBatches(bs[1..], max, s1, net);
        if rest.None? then
          FailedLater(bs, u.value, max, s, s1, s2, net);
          (None, s2)
        else
          DeliveredStep(bs, u.value, rest.value, s, s1, s2, net);
          RanStep(bs, u.value, rest.value, max, s, s1, s2, net);
          (Some([u.value] + rest.value), s2)
  }

  lemma FailedFirst(bs: seq<seq<string>>, max: int, s: Session, net: Net)
    requires |bs| > 0 && BatchFrom(bs[0], 0, max, s, net).0.None?
    ensures FailedAfter(bs, max, s, BatchFrom(bs[0], 0, max, s, net).1, net)
  {
    assert Ran(bs, 0, [], max, [s], net);
    assert FailedAt(bs, max, s, BatchFrom(bs[0], 0, max, s, net).1, net, 0, [], [s]);
  }

  lemma FailedLater(bs: seq<seq<string>>, u: seq<string>, max: int, s: Session, s1: Session, s2: Session, net: Net)
    requires |bs| > 0 && BatchFrom(bs[0], 0, max, s, net) == (Some(u), s1)
    requires FailedAfter(bs[1..], max, s1, s2, net)
    ensures FailedAfter(bs, max, s, s2, net)
  {
    var i: nat, us, ts :| FailedAt(bs[1..], max, s1, s2, net, i, us, ts);
    FailedCons(bs, u, max, s, s1, s2, net, i, us, ts);
    FailedWitness(bs, max, s, s2, net, i + 1, [u] + us, [s] + ts);
  }

  /** A delivering loop in front of a failed upload. */
  lemma FailedCons(bs: seq<seq<string>>, u: seq<string>, max: int, s: Session, s1: Session, s2: Session, net: Net,
                   i: nat, us: seq<seq<string>>, ts: seq<Session>)
    requires |bs| > 0 && BatchFrom(bs[0], 0, max, s, net) == (Some(u), s1)
    requires FailedAt(bs[1..], max, s1, s2, net, i, us, ts)
    ensures FailedAt(bs, max, s, s2, net, i + 1, [u] + us, [s] + ts)
  {
    RanCons(bs[0], bs[1..], i, u, us, max, s, ts, net);
    assert [bs[0]] + bs[1..] == bs;
    assert bs[i + 1] == bs[1..][i];
    assert ([s] + ts)[i + 1] == ts[i];
  }

  lemma FailedWitness(bs: seq<seq<string>>, max: int, s: Session, s1: Session, net: Net,
                      i: nat, us: seq<seq<string>>, ts: seq<Session>)
    requires FailedAt(bs, max, s, s1, net, i, us, ts)
    ensures FailedAfter(bs, max, s, s1, net)
  {
  }

  lemma RanStep(bs: seq<seq<string>>, u: seq<string>, us: seq<seq<string>>, max: int, s: Session, s1: Session, s2: Session, net: Net)
    requires |bs| > 0 && BatchFrom(bs[0], 0, max, s, net) == (Some(u), s1)
    requires RanAs(bs[1..], us, max, s1, s2, net)
    ensures RanAs(bs, [u] + us, max, s, s2, net)
  {
    var ts :| Ran(bs[1..], |bs| - 1, us, max, ts, net) && ts[0] == s1 && ts[|bs| - 1] == s2;
    RanCons(bs[0], bs[1..], |bs| - 1, u, us, max, s, ts, net);
    assert [bs[0]] + bs[1..] == bs;
    assert ([s] + ts)[|bs|] == s2;
    RanWitness(bs, [u] + us, max, s, s2, net, [s] + ts);
  }

  lemma RanWitness(bs: seq<seq<string>>, us: seq<seq<string>>, max: int, s: Session, s1: Session, net: Net, ts: seq<Session>)
    requires Ran(bs, |bs|, us, max, ts, net) && ts[0] == s && ts[|bs|] == s1
    ensures RanAs(bs, us, max, s, s1, net)
  {
  }

  /** One batch loop in front of a chain of batch loops. */
  lemma RanCons(b: seq<string>, bs: seq<seq<string>>, n: nat, u: seq<string>, us: seq<seq<string>>,
                max: int, s: Session, ts: seq<Session>, net: Net)
    requires Ran(bs, n, us, max, ts, net) && BatchFrom(b, 0, max, s, net) == (Some(u), ts[0])
    ensures Ran([b] + bs, n + 1, [u] + us, max, [s] + ts, net)
  {
    var bs', us', ts' := [b] + bs, [u] + us, [s] + ts;
    forall i | 0 <= i < n + 1
      ensures BatchFrom(bs'[i], 0, max, ts'[i], net) == (Some(us'[i]), ts'[i + 1])
    {
      if i > 0 {
        assert bs'[i] == bs[i - 1] && us'[i] == us[i - 1] && ts'[i] == ts[i - 1] && ts'[i + 1] == ts[i];
      }
    }
  }

  /** The chain after its first batch loop. */
  lemma RanTail(bs: seq<seq<string>>, n: nat, us: seq<seq<string>>, max: int, ts: seq<Session>, net: Net)
    requires Ran(bs, n, us, max, ts, net) && n > 0
    ensures Ran(bs[1..], n - 1, us[1..], max, ts[1..], net)
  {
    forall i | 0 <= i < n - 1
      ensures BatchFrom(bs[1..][i], 0, max, ts[1..][i], net) == (Some(us[1..][i]), ts[1..][i + 1])
    {
      assert BatchFrom(bs[i + 1], 0, max, ts[i + 1], net) == (Some(us[i + 1]), ts[i + 2]);
    }
  }

  /** A chain of batch loops that all deliver decides the upload: it
      returns their URL lists, ending where the last loop ended. */
  lemma {:induction false} RanDecides(bs: seq<seq<string>>, us: seq<seq<string>>, max: int, ts: seq<Session>, net: Net)
    requires Ran(bs, |bs|, us, max, ts, net)
    ensures UploadBatches(bs, max, ts[0], net) == (Some(us), ts[|bs|])
    decreases |bs|
  {
    if |bs| > 0 {
      assert UploadBatches(bs[1..], max, ts[1], net) == (Some(us[1..]), ts[|bs|]) by {
        RanTail(bs, |bs|, us, max, ts, net);
        RanDecides(bs[1..], us[1..], max, ts[1..], net);
        assert ts[1..][0] == ts[1] && ts[1..][|bs| - 1] == ts[|bs|];
      }
      assert BatchFrom(bs[0], 0, max, ts[0], net) == (Some(us[0]), ts[1]);
      UploadStep(bs, max, ts[0], net, us[0], ts[1], us[1..], ts[|bs|]);
      assert [us[0]] + us[1..] == us;
    }
  }

  /** A delivering first batch, then the upload of the rest. */
  lemma UploadStep(bs: seq<seq<string>>, max: int, s: Session, net: Net, u: seq<string>, s1: Session,
                   rest: seq<seq<string>>, s2: Session)
    requires |bs| > 0 && BatchFrom(bs[0], 0, max, s, net) == (Some(u), s1)
    requires UploadBatches(bs[1..], max, s1, net) == (Some(rest), s2)
    ensures UploadBatches(bs, max, s, net) == (Some([u] + rest), s2)
  {
  }

  /** A batch that fails after the earlier ones ran decides the upload: it
      returns no URLs, ending where that batch's loop ended. */
  lemma {:induction false} FailedDecides(bs: seq<seq<string>>, max: int, s: Session, s1: Session, net: Net,
                                         i: nat, us: seq<seq<string>>, ts: seq<Session>)
    requires FailedAt(bs, max, s, s1, net, i, us, ts)
    ensures UploadBatches(bs, max, s, net) == (None, s1)
    decreases i
  {
    if i > 0 {
      assert BatchFrom(bs[0], 0, max, s, net) == (Some(us[0]), ts[1]);
      RanTail(bs, i, us, max, ts, net);
      assert bs[1..][i - 1] == bs[i];
      FailedDecides(bs[1..], max, ts[1], s1, net, i - 1, us[1..], ts[1..]);
    }
  }

  /** The upload delivers iff every batch loop, each started where the one
      before it ended, delivers; it returns nothing with final session `s1`
      iff some batch failed after the earlier ones ran, leaving `s1`. */
  lemma UploadSucceedsIff(bs: seq<seq<string>>, max: int, s: Session, net: Net)
    ensures UploadBatches(bs, max, s, net).0.Some? <==> exists us, ts :: Ran(bs, |bs|, us, max, ts, net) && ts[0] == s
    ensures forall s1 :: UploadBatches(bs, max, s, net) == (None, s1) <==> FailedAfter(bs, max, s, s1, net)
  {
    forall us, ts | Ran(bs, |bs|, us, max, ts, net) && ts[0] == s
      ensures UploadBatches(bs, max, s, net) == (Some(us), ts[|bs|])
    {
      RanDecides(bs, us, max, ts, net);
    }
    forall s1 | FailedAfter(bs, max, s, s1, net)
      ensures UploadBatches(bs, max, s, net) == (None, s1)
    {
      var i: nat, us, ts :| FailedAt(bs, max, s, s1, net, i, us, ts);
      FailedDecides(bs, max, s, s1, net, i, us, ts);
    }
  }

  lemma DeliveredStep(bs: seq<seq<string>>, u: seq<string>, us: seq<seq<string>>, s: Session, s1: Session, s2: Session, net: Net)
    requires |bs| > 0 && s.log <= s1.log && Delivered(bs[0], s, u, s1, net)
    requires DeliveredAs(bs[1..], us, s1, s2, net)
    ensures DeliveredAs(bs, [u] + us, s, s2, net)
  {
    var pos :| AllDelivered(bs[1..], us, s1, s2, net, pos);
    DeliveredCons(bs[0], bs[1..], u, us, s, s1, s2, net, pos);
    assert [bs[0]] + bs[1..] == bs;
  }

  /** A delivered batch in front of delivered batches. */
  lemma DeliveredCons(b: seq<string>, bs: seq<seq<string>>, u: seq<string>, us: seq<seq<string>>,
                      s: Session, s1: Session, s2: Session, net: Net, pos: seq<nat>)
    requires s.log <= s1.log && Delivered(b, s, u, s1, net) && AllDelivered(bs, us, s1, s2, net, pos)
    ensures AllDelivered([b] + bs, [u] + us, s, s2, net, [|s1.log| - 1] + pos)
  {
    var p := [|s1.log| - 1] + pos;
    var bs' := [b] + bs;
    var us' := [u] + us;
    assert s2.log[|s1.log| - 1] == s1.log[|s1.log| - 1];
    forall i | 0 <= i < |p|
      ensures |s.log| <= p[i] < |s2.log|
    {
      if i > 0 {
        assert p[i] == pos[i - 1];
      }
    }
    forall i, j | 0 <= i < j < |p|
      ensures p[i] < p[j]
    {
      assert p[j] == pos[j - 1];
      if i > 0 {
        assert p[i] == pos[i - 1];
      }
    }
    forall i | 0 <= i < |p|
      ensures s2.log[p[i]] == UploadRequest(bs'[i]) && UploadAccepted(net(p[i], UploadRequest(bs'[i])))
      ensures us'[i] == ReplyUrls(net(p[i], UploadRequest(bs'[i])).json.value.data.urls)
    {
      if i > 0 {
        assert p[i] == pos[i - 1] && bs'[i] == bs[i - 1] && us'[i] == us[i - 1];
      }
    }
  }

  /** What `upload_files` does: raise (a batch size of 0 makes `range`
      raise), or return a URL list. */
  datatype UploadOutcome = UploadRaised | UploadReturned(urls: seq<string>)

  /** `upload_files` over the walked files. */
  function UploadFiles(files: seq<string>, batchSize: int, max: int, s: Session, net: Net): (r: (UploadOutcome, Session))
    ensures r.0.UploadRaised? <==> batchSize == 0 && |Selected(files)| > 0
    ensures |Selected(files)| == 0 || batchSize < 0 ==> r == (UploadReturned([]), s)
    ensures r.0.UploadReturned? && r.0.urls != [] ==>
      batchSize > 0 && |r.0.urls| >= |Batches(UploadOrder(files), batchSize)|
    ensures r.0.UploadReturned? && r.0.urls != [] ==>
      exists us :: r.0.urls == Flatten(us) && DeliveredAs(Batches(UploadOrder(files), batchSize), us, s, r.1, net) &&
        RanAs(Batches(UploadOrder(files), batchSize), us, max, s, r.1, net)
    ensures batchSize > 0 && |Selected(files)| > 0 ==>
      r.0.UploadReturned? && (r.0.urls == [] <==> FailedAfter(Batches(UploadOrder(files), batchSize), max, s, r.1, net))
  {
    var imgs := UploadOrder(files);
    if |imgs| == 0 then (UploadReturned([]), s)
    else if batchSize == 0 then (UploadRaised, s)
    else if batchSize < 0 then (UploadReturned([]), s)
    else
      var bs := Batches(imgs, batchSize);
      var (res, s1) := UploadBatches(bs, max, s, net);
      UploadSucceedsIff(bs, max, s, net);
      if res.Some? then
        FlattenOfNonEmpty(res.value);
        (UploadReturned(Flatten(res.value)), s1)
      else (UploadReturned([]), s1)
  }

  lemma {:induction false} FlattenOfNonEmpty(bs: seq<seq<string>>)
    requires forall i :: 0 <= i < |bs| ==> |bs[i]| > 0
    ensures |Flatten(bs)| >= |bs|
    ensures |bs| > 0 ==> Flatten(bs) != []
    decreases |bs|
  {
    if |bs| > 0 {
      FlattenOfNonEmpty(bs[1..]);
    }
  }

  /** A 401 or 403 on the last attempt, even with a good re-login, loses
      the batch: the re-login used up the attempt. */
  lemma AuthOnLastAttemptLosesBatch(batch: seq<string>, max: int, s: Session, net: Net, status: int)
    requires max >= 1 && IsAuthStatus(status)
    requires net(|s.log|, UploadRequest(batch)) == Http(status, None)
    ensures BatchFrom(batch, max - 1, max, s, net).0 == None
  {
  }

  // --------------------------------------------------------------- article

  /** An article reply is accepted with status 200/201, an object body, and
      either a success code or a true `success` flag. The client reads
      `success` from the `data` member and then the `data` member inside
      it; unless each is absent or an object, it raises, which counts as a
      failed attempt. */
  predicate SubmitAccepted(r: Reply) {
    r.Http? && IsOkStatus(r.status) && r.json.Some? && SubmitBodyAccepted(r.json.value)
  }

  predicate SubmitBodyAccepted(j: Json) {
    j.isObject &&
    match j.data
      case Absent => IsOkCode(j.code)
      case Object(_, success, detail) => (IsOkCode(j.code) || success) && !detail.MemberOther?
      case _ => false
  }

  /** An article went through: the last request made was the article and
      it was accepted. */
  predicate Submitted(article: Request, s: Session, s1: Session, net: Net) {
    |s1.log| > |s.log| && s1.log[|s1.log| - 1] == article && SubmitAccepted(net(|s1.log| - 1, article))
  }

  /** The retry loop of `submit_article` from attempt `k` on. */
  function SubmitFrom(article: Request, k: nat, max: int, s: Session, net: Net): (r: (bool, Session))
    requires article.ArticleRequest?
    ensures s.log <= r.1.log
    ensures k >= max ==> r == (false, s)
    ensures r.0 ==> Submitted(article, s, r.1, net)
    decreases Left(k, max)
  {
    if k >= max then (false, s)
    else
      var reply := net(|s.log|, article);
      if SubmitAccepted(reply) then (true, Send(s, article))
      else if reply.Http? && IsAuthStatus(reply.status) then
        var (ok, s1) := HandleAuthError(reply.status, max, Send(s, article), net);
        if ok then SubmitFrom(article, k + 1, max, s1, net) else (false, s1)
      else SubmitFrom(article, k + 1, max, SleepAfter(k, max, Send(s, article)), net)
  }

  /** The converse of `SubmitFrom`'s contract: every earlier reply to the
      article, and on failure every reply to it, was refused. */
  lemma {:induction false} SubmitFirstAccepted(article: Request, k: nat, max: int, s: Session, net: Net)
    requires article.ArticleRequest?
    ensures var r := SubmitFrom(article, k, max, s, net);
      forall i :: |s.log| <= i < |r.1.log| && r.1.log[i] == article && (!r.0 || i < |r.1.log| - 1)
        ==> !SubmitAccepted(net(i, article))
    decreases Left(k, max), 1
  {
    var reply := net(|s.log|, article);
    if k < max && !SubmitAccepted(reply) && reply.Http? && IsAuthStatus(reply.status) {
      SubmitFirstAcceptedAuth(article, k, max, s, net);
    } else if k < max && !SubmitAccepted(reply) {
      SubmitFirstAccepted(article, k + 1, max, SleepAfter(k, max, Send(s, article)), net);
    }
  }

  lemma {:induction false} SubmitFirstAcceptedAuth(article: Request, k: nat, max: int, s: Session, net: Net)
    requires k < max && article.ArticleRequest?
    requires var reply := net(|s.log|, article);
      !SubmitAccepted(reply) && reply.Http? && IsAuthStatus(reply.status)
    ensures var r := SubmitFrom(article, k, max, s, net);
      forall i :: |s.log| <= i < |r.1.log| && r.1.log[i] == article && (!r.0 || i < |r.1.log| - 1)
        ==> !SubmitAccepted(net(i, article))
    decreases Left(k, max), 0
  {
    var q := article;
    var s0 := Send(s, q);
    var (ok, s1) := HandleAuthError(net(|s.log|, q).status, max, s0, net);
    if ok {
      var r := SubmitFrom(article, k + 1, max, s1, net);
      SubmitFirstAccepted(article, k + 1, max, s1, net);
      RefusedStep(s, s1, r.1, q, net, SubmitAccepted, !r.0);
    } else {
      RefusedStep(s, s1, s1, q, net, SubmitAccepted, true);
    }
  }

  /** Between the requests of one article only logins are sent. */
  lemma {:induction false} SubmitInterleaving(article: Request, k: nat, max: int, s: Session, net: Net)
    requires article.ArticleRequest?
    ensures var r := SubmitFrom(article, k, max, s, net);
      Interleaved(s, r.1, article)
    decreases Left(k, max)
  {
    var q := article;
    var reply := net(|s.log|, q);
    var s0 := Send(s, q);
    if k < max && SubmitAccepted(reply) {
      InterleaveStep(s, s0, s0, q);
    } else if k < max && reply.Http? && IsAuthStatus(reply.status) {
      var (ok, s1) := HandleAuthError(reply.status, max, s0, net);
      if ok {
        SubmitInterleaving(article, k + 1, max, s1, net);
        InterleaveStep(s, s1, SubmitFrom(article, k + 1, max, s1, net).1, q);
      } else {
        InterleaveStep(s, s1, s1, q);
      }
    } else if k < max {
      var s1 := SleepAfter(k, max, s0);
      SubmitInterleaving(article, k + 1, max, s1, net);
      InterleaveStep(s, s1, SubmitFrom(article, k + 1, max, s1, net).1, q);
    }
  }

  /** Each attempt sends the article once; one that fails with attempts to
      spare ends in a failed re-login. */
  lemma {:induction false} SubmitAttempts(article: Request, k: nat, max: int, s: Session, net: Net)
    requires article.ArticleRequest?
    ensures var r := SubmitFrom(article, k, max, s, net);
      SentSince(r.1, |s.log|, article) <= Left(k, max) &&
      (!r.0 ==> SentSince(r.1, |s.log|, article) == Left(k, max) || ReloginFailed(s, r.1, net))
    decreases Left(k, max), 1
  {
    var reply := net(|s.log|, article);
    if k < max && !SubmitAccepted(reply) && reply.Http? && IsAuthStatus(reply.status) {
      SubmitAttemptsAuth(article, k, max, s, net);
    } else if k < max && !SubmitAccepted(reply) {
      SubmitAttemptsRetry(article, k, max, s, net);
    } else if k < max {
      SentOnce(s, article);
    }
  }

  lemma {:induction false} SubmitAttemptsAuth(article: Request, k: nat, max: int, s: Session, net: Net)
    requires k < max && article.ArticleRequest?
    requires var reply := net(|s.log|, article);
      !SubmitAccepted(reply) && reply.Http? && IsAuthStatus(reply.status)
    ensures var r := SubmitFrom(article, k, max, s, net);
      SentSince(r.1, |s.log|, article) <= Left(k, max) &&
      (!r.0 ==> SentSince(r.1, |s.log|, article) == Left(k, max) || ReloginFailed(s, r.1, net))
    decreases Left(k, max), 0
  {
    var q := article;
    var s0 := Send(s, q);
    SentOnce(s, q);
    var (ok, s1) := HandleAuthError(net(|s.log|, q).status, max, s0, net);
    LoginsNotCounted(s0, s1, |s.log|, q);
    if ok {
      SubmitAttempts(article, k + 1, max, s1, net);
      AttemptStep(s, s1, SubmitFrom(article, k + 1, max, s1, net).1, q, Left(k + 1, max), !SubmitFrom(article, k + 1, max, s1, net).0, net);
    }
  }

  lemma {:induction false} SubmitAttemptsRetry(article: Request, k: nat, max: int, s: Session, net: Net)
    requires k < max && article.ArticleRequest?
    requires var reply := net(|s.log|, article);
      !SubmitAccepted(reply) && !(reply.Http? && IsAuthStatus(reply.status))
    ensures var r := SubmitFrom(article, k, max, s, net);
      SentSince(r.1, |s.log|, article) <= Left(k, max) &&
      (!r.0 ==> SentSince(r.1, |s.log|, article) == Left(k, max) || ReloginFailed(s, r.1, net))
    decreases Left(k, max), 0
  {
    var q := article;
    var s1 := SleepAfter(k, max, Send(s, q));
    SentOnce(s, q);
    SubmitAttempts(article, k + 1, max, s1, net);
    AttemptStep(s, s1, SubmitFrom(article, k + 1, max, s1, net).1, q, Left(k + 1, max), !SubmitFrom(article, k + 1, max, s1, net).0, net);
  }

  /** `submit_article(title, images, cover)`. */
  function SubmitArticle(title: string, images: seq<string>, cover: string, max: int, s: Session, net: Net): (bool, Session) {
    SubmitFrom(ArticleRequest(title, images, cover), 0, max, s, net)
  }

  /** Either half of the acceptance rule suffices: a failing code with a
      true `success` flag is accepted, although the same body would fail an
      upload. */
  lemma SuccessFlagSuffices(j: Json)
    requires j.isObject && !IsOkCode(j.code)
    requires j.data.Object? && j.data.success && j.data.detail.MemberAbsent?
    ensures SubmitAccepted(Http(200, Some(j)))
    ensures !UploadAccepted(Http(200, Some(j)))
  {
  }

  /** A reply whose nested `data` is null is retried even with a success
      code: reading its `id` raises. */
  lemma NullDetailRetried(code: int, token: string, success: bool)
    requires code == 0 || code == 200 || code == 201
    ensures !SubmitAccepted(Http(200, Some(Json(true, Some(code), Object(token, success, MemberOther)))))
    ensures SubmitAccepted(Http(200, Some(Json(true, Some(code), Object(token, success, MemberObject)))))
  {
  }

  /** An article accepted at the first request is submitted with no sleep. */
  lemma SubmitFirstTry(title: string, images: seq<string>, cover: string, max: int, s: Session, net: Net)
    requires max >= 1 && SubmitAccepted(net(|s.log|, ArticleRequest(title, images, cover)))
    ensures SubmitArticle(title, images, cover, max, s, net) == (true, Send(s, ArticleRequest(title, images, cover)))
  {
  }

  /** The same loss on the last attempt for an article. */
  lemma AuthOnLastAttemptLosesArticle(article: Request, max: int, s: Session, net: Net, status: int)
    requires article.ArticleRequest? && max >= 1 && IsAuthStatus(status)
    requires net(|s.log|, article) == Http(status, None)
    ensures !SubmitFrom(article, max - 1, max, s, net).0
  {
  }
}

=== FILE: wrappers.dfy ===
/** Optional values, for results a Python function signals with `None`. */
module Wrappers {
  datatype Option<T> = None | Some(value: T)
}
